=== FILE: README.md ===
# datx collections, JSON:API normalisation and remote fetching, in Dafny

This project models the core of datx, a data store for JavaScript applications.
A **collection** owns typed, identified **models**. It indexes them by type and
by `(type, id)`. Removing a model is meant to strip it out of every other
model's reference buckets; the code as written does not, and the model keeps
both readings of that scan (see Findings). The project also models these parts:

- the **JSON:API layer**. It folds a response document into a collection: `sync`
  adds the records and wires their relationships. It also builds request URLs
  from query options.
- the **metadata store**. It is the per-model data and meta dictionaries, the
  per-class defaults and reference declarations, and the registry of live
  collections.
- the **`ToOneOrMany` bucket**, whose cardinality follows the shape of the
  value assigned to it.
- the **model base**: the auto-id counter and the `preprocess` hook.
- the small **utilities** the core uses: `mapItems`, `flatten`, `isFalsyArray`
  and the prototype-chain checks.
- the **`useRemoteFetch` hook** of the Next.js example. It is a reducer over
  `FETCH_BEGIN`/`FETCH_END` actions that keeps per-page status, attempts and
  totals, plus the navigation helpers that decide which page to fetch next.

## How the model is laid out

| module | file | models |
|---|---|---|
| `Wrappers` | wrappers.dfy | `Option`/`Result` with `:-` |
| `Ident` | ident.dfy | identifiers (number or string), their truthiness and their string key |
| `Json` | json.dfy | JSON values, truthiness, `String(x)` rendering |
| `Strings`, `Seqs` | strings.dfy, seqs.dfy | number printing, join/split, first-occurrence removal |
| `Utils` | utils.dfy | packages/datx-utils/src/helpers.ts |
| `Mixin` | mixin.dfy | packages/datx/src/helpers/mixin.ts |
| `PureModel` | pure_model.dfy | packages/datx/src/PureModel.ts |
| `Buckets` | buckets.dfy | packages/datx/src/buckets/ToOneOrMany.ts |
| `Storage` | storage.dfy | src/services/storage.ts |
| `Collection`, `CollectionProofs` | collection.dfy, collection_proofs.dfy | packages/datx/src/PureCollection.ts |
| `Url` | url.dfy | packages/datx-jsonapi/src/helpers/url.ts |
| `JsonapiCollection`, `JsonapiProofs` | jsonapi.dfy, jsonapi_proofs.dfy | packages/datx-jsonapi/src/decorateCollection.ts |
| `RemoteFetch` | remote_fetch.dfy | examples/with-nextjs-hooks/hooks/useRemoteFetch.ts |

A collection operation is a function from a `State` to an `Outcome`. The state
holds the model heap, the collection's indices and the next free handle. The
outcome pairs the state reached with a `Result`. A thrown error is an `Err`
that carries the state reached before the throw. Where the code changes
nothing before throwing, the contract says so.

The collection invariant `Valid` is the conjunction of these parts:

- every type name is non-empty;
- every handle is allocated;
- `__data` has no duplicates;
- every member sits in its `(type, id)` slot and in its type list;
- every type list holds exactly that type's members, once each;
- every occupied slot holds a member with that key;
- a model is owned by this collection exactly when it is a member.

The `CollectionProofs` and `JsonapiProofs` lemmas show that these operations
keep `Valid`:

- `add`, `insert` and the construction from a snapshot;
- the placeholder writes of a lookup;
- `__removeModel` of a member, with either scan (this is `removeOne` of a
  member model), `removeAll` and `reset`;
- `__changeModelId` to a new id whose key differs from the old one and is
  free, once the model's own id has been updated;
- the JSON:API `sync` and `remove`.

Three cases are exceptions, where the code leaves the indices disagreeing:

- `removeOne` of a `{type, id}` reference (`CollectionProofs.RemoveByRefKeepsMember`);
- `__changeModelId` with equal old and new ids, which deletes the slot
  (`CollectionProofs.ChangeModelIdSameKeyDropsSlot`);
- `__changeModelId` to a key already occupied, which overwrites that slot, so
  its previous occupant stays a member without a slot (PureCollection.ts:423).

## Behaviour worth knowing

The model follows the code in each case.

- `findOne(type, id)` throws `The identifier is missing` for a missing or falsy
  id (PureCollection.ts:173-175), and `hasItem` inherits this throw.
- Adding an array is not atomic. `__addArray` maps `__addSingle` over the items
  (PureCollection.ts:290), so an error on one item leaves the earlier items
  inserted.
- The reference scan in `__removeModel` compares against the model being
  scanned rather than the removed one. The public removals (`removeOne`,
  `removeAll`, the JSON:API `remove`) run this scan as written. See Findings.
- `removeOne` handed a `{type, id}` reference passes it straight to
  `__removeModel` (PureCollection.ts:205-206). Provided `getModelType` and
  `getModelId` read a plain reference's `type` and `id`, and the patch and
  ownership helpers accept a plain object (see "## Left out"), the `(type, id)`
  slot is cleared, but `__data` and the type list still hold the member, which
  stays owned.
- `__changeModelId` with the same old and new id deletes the slot.

## Model

| member | source | states |
|---|---|---|
| Collection.FindByType | packages/datx/src/PureCollection.ts:264-279 | A falsy type finds nothing. Otherwise the result is the model in the `(type, id)` slot. The placeholder entry the lookup may create changes no slot, list or member. |
| Collection.FindOne | packages/datx/src/PureCollection.ts:162-178 | A model passed as the id is returned as is. A reference, or a type with a truthy id, finds the `(type, id)` slot. A missing or falsy id with a type throws "The identifier is missing", and nothing else throws. |
| Collection.HasItem | packages/datx/src/PureCollection.ts:128-132 | Throws exactly when the model's id is falsy. Otherwise it is true exactly when some model occupies the model's `(type, id)` slot. |
| Collection.FindAll | packages/datx/src/PureCollection.ts:180-191 | With a type: that type's list, which exists in `__dataList` afterwards. Without one: all members. |
| Collection.Filter | packages/datx/src/PureCollection.ts:158-160 | Exactly the members that pass the test, each as often as it occurs in `__data`. A failing model does not occur at all. |
| Collection.KeepPassingCounts | packages/datx/src/PureCollection.ts:159 | `Array.prototype.filter` keeps each passing item as often as it occurs and drops every failing one. |
| CollectionProofs.KeepPassingAppend | packages/datx/src/PureCollection.ts:159 | The filter of a concatenation is the filter of the first part followed by the filter of the second, so the result keeps the original order. |
| CollectionProofs.FilterAppend | packages/datx/src/PureCollection.ts:158-160 | `filter(test)` keeps the members' order: over two runs of members it is the first run's result followed by the second's. |
| Collection.Find | packages/datx/src/PureCollection.ts:193-195 | The result is the first member, in `__data` order, that passes the test. It is `null` exactly when no member passes. |
| Collection.UpdateAttrs | packages/datx/src/PureCollection.ts:391-396 | Updating an existing model overwrites the given attributes and keeps every other field, the type, the id and the owner. |
| Collection.InsertModel | packages/datx/src/PureCollection.ts:373-419 | Throws "A model can be in a single collection at once" exactly when another collection owns the model. Otherwise it throws the missing-id error exactly when the id is falsy. Every error leaves the state as it was. On success the model is either appended and owned by this collection, or merged into the model already at its slot with `__data` untouched. |
| CollectionProofs.InsertModelValid | packages/datx/src/PureCollection.ts:373-419 | Insertion keeps the invariant. A free slot ends holding the appended model. A taken slot keeps its occupant and `__data`. |
| Collection.Upsert | packages/datx/src/PureCollection.ts:318-320 | The result is a model of the requested type. The only error is `UnknownType` for that type, and it changes nothing. A new model gets the next handle and no owner. The collection's indices are not touched. |
| CollectionProofs.UpsertValid | packages/datx/src/PureCollection.ts:318-320 | Upserting raw data keeps the invariant. |
| Collection.AddSingle | packages/datx/src/PureCollection.ts:298-323 | A falsy value, number, string or reference is returned untouched. Raw data without a type throws the type-needed error. A model already present is returned unchanged. Raw data with a type yields a model instance. `__data` grows by at most the one model, at its end. |
| CollectionProofs.AddSingleValid | packages/datx/src/PureCollection.ts:298-323 | `add` of one value keeps the invariant. |
| Collection.TruthyOnly | packages/datx/src/PureCollection.ts:290 | `filter(Boolean)` keeps each truthy item as often as it occurs and drops every falsy one. |
| Collection.KeepTruthyCounts | packages/datx/src/PureCollection.ts:290 | The entry-by-entry `filter(Boolean)` keeps each truthy entry as often as it occurs and drops every falsy one. |
| CollectionProofs.TruthyOnlyAppend | packages/datx/src/PureCollection.ts:290 | `filter(Boolean)` distributes over concatenation, so the items keep their order. |
| CollectionProofs.KeepTruthyAppend | packages/datx/src/PureCollection.ts:290 | The entry-by-entry `filter(Boolean)` of a concatenation is that of the first part followed by that of the second. |
| Collection.AddEach | packages/datx/src/PureCollection.ts:286-291 | `__data` is only extended at its end. A successful add returns one result per item. |
| CollectionProofs.AddEachValid | packages/datx/src/PureCollection.ts:286-291 | Adding an array keeps the invariant, including when it stops at an error. |
| Collection.Add | packages/datx/src/PureCollection.ts:145-156 | An array gives one result per truthy item. Existing members keep their positions, and new models are only appended. |
| CollectionProofs.AddValid | packages/datx/src/PureCollection.ts:145-156 | `add` keeps the invariant. |
| Collection.InitModels | packages/datx/src/PureCollection.ts:121-122 | One allocated model per raw model. The collection's indices are not touched. |
| CollectionProofs.InitModelsValid | packages/datx/src/PureCollection.ts:121-122 | Initialising raw models keeps the invariant. |
| Collection.InsertEach | packages/datx/src/PureCollection.ts:373-380 | Inserting a list keeps the heap's handles and only extends `__data`. |
| CollectionProofs.InsertEachValid | packages/datx/src/PureCollection.ts:373-380 | Inserting a list keeps the invariant. |
| Collection.Insert | packages/datx/src/PureCollection.ts:121-126 | `insert(data)` returns one model per raw model and leaves the view names alone. |
| CollectionProofs.InsertValid | packages/datx/src/PureCollection.ts:121-126 | `insert` keeps the invariant. |
| Collection.Without | packages/datx/src/PureCollection.ts:363 | The list loses every occurrence of the target and keeps every other item as often as it occurs. |
| CollectionProofs.WithoutAppend | packages/datx/src/PureCollection.ts:363 | Dropping the target distributes over concatenation, so the kept items stay in order. |
| Collection.StripModel | packages/datx/src/PureCollection.ts:358-367 | Stripping a model's buckets keeps its type, id, owner and set of fields. |
| Collection.ScanAsWritten | packages/datx/src/PureCollection.ts:349-368 | The as-written scan changes no model's identity and allocates nothing. |
| Collection.Scan | packages/datx/src/PureCollection.ts:349-368 | The corrected scan changes no model's identity and allocates nothing. |
| Collection.Detach | packages/datx/src/PureCollection.ts:345-347 | `__data` loses the model's first occurrence. The heap, the view names and the declared types are untouched. |
| Collection.RemoveModel | packages/datx/src/PureCollection.ts:325-371 | `__removeModel` of one model, with the scan as written or corrected: `__data` loses the model's first occurrence. It throws exactly when the model's type has no list or no slot map. Otherwise the model ends unowned and its `(type, id)` slot is cleared. No handle is allocated. |
| CollectionProofs.RemoveModelValid | packages/datx/src/PureCollection.ts:325-371 | Removing a member keeps the invariant, with either scan. It succeeds, shortens `__data` by one and leaves the model out of it and unowned. |
| Collection.RemoveByRef | packages/datx/src/PureCollection.ts:325-371 | `__removeModel` handed a `{type, id}` reference: `__data` and the type lists are unchanged. It throws exactly when the type has no list or no slot map. Otherwise exactly the `(type, id)` slot is cleared. No model's type, id or owner changes. |
| CollectionProofs.RemoveByRefKeepsMember | packages/datx/src/PureCollection.ts:198-213 | `removeOne` given a member's own reference succeeds, clears its slot and leaves it in `__data` and owned, so the invariant no longer holds. |
| CollectionProofs.RemoveModelNoDangling | packages/datx/src/PureCollection.ts:349-368 | After removal, no remaining member's reference bucket mentions the removed model. |
| CollectionProofs.RemoveAsWrittenLeavesDangling | packages/datx/src/PureCollection.ts:362-365 | With the code as written, a post whose author bucket holds a removed user still holds it afterwards. |
| CollectionProofs.RemoveAsWrittenKeepsMentions | packages/datx/src/PureCollection.ts:349-368 | With the code as written, every remaining model other than the removed one still mentions the removed model in every field that mentioned it before. |
| CollectionProofs.RemoveClearsAuthor | packages/datx/src/PureCollection.ts:362-365 | With the corrected comparison, the same post's author becomes `null`. |
| Collection.RemoveOne | packages/datx/src/PureCollection.ts:196-213 | A type with a missing or falsy id removes nothing. An instance leaves `__data`. A `{type, id}` reference leaves `__data` as it is. A type with a truthy id removes the model in that slot if there is one, and otherwise removes nothing. Handles are kept. |
| Collection.RemoveEach | packages/datx/src/PureCollection.ts:325-332 | Removing a list keeps every handle allocated. |
| CollectionProofs.RemoveEachValid | packages/datx/src/PureCollection.ts:325-332 | Removing distinct members one by one, with either scan, keeps the invariant and leaves exactly the members not in the list. |
| Collection.RemoveAll | packages/datx/src/PureCollection.ts:215-217 | `removeAll(type)` keeps every handle allocated. |
| CollectionProofs.RemoveAllValid | packages/datx/src/PureCollection.ts:215-217 | `removeAll(type)`, with either scan, keeps the invariant and leaves exactly the members of other types. A falsy type removes every member. |
| Collection.Reset | packages/datx/src/PureCollection.ts:219-237 | Every index ends empty. Every former member ends unowned. Other models are untouched. |
| CollectionProofs.ResetValid | packages/datx/src/PureCollection.ts:219-237 | `reset` keeps the invariant. |
| Collection.AddView | packages/datx/src/PureCollection.ts:83-112 | Throws "The name is already taken" exactly when the name is taken. Otherwise the name is appended to `__views`. |
| Collection.AddViews | packages/datx/src/PureCollection.ts:69-80 | On success the views are the old views followed by the static view names, each of them untaken and distinct. |
| Collection.Construct | packages/datx/src/PureCollection.ts:61-81 | Starting from a new, empty collection, construction from a snapshot yields one model per snapshot model, and the views are then exactly the static view names. |
| CollectionProofs.NewValid | packages/datx/src/PureCollection.ts:55-59 | A new, empty collection satisfies the invariant. |
| CollectionProofs.ConstructValid | packages/datx/src/PureCollection.ts:61-81 | Construction keeps the invariant, even when it stops at an error, and on success every member is one of the returned models. |
| Collection.ToJSON | packages/datx/src/PureCollection.ts:239-250 | One raw model per member, in order, each with that member's type and id, plus the view names. |
| Collection.ModelToJSON | packages/datx/src/PureCollection.ts:247 | A member's raw form carries its type and its id, and exactly its attribute fields as attributes. |
| CollectionProofs.ModelToJSONAttrs | packages/datx/src/PureCollection.ts:247 | A model made of attributes serialises back to the same type, id and attributes. |
| CollectionProofs.InitModelsFresh | packages/datx/src/PureCollection.ts:121-122 | In a collection with no slots yet, raw models with declared types and ids become consecutive new handles, each holding exactly the raw model's type, id and attributes, unowned. |
| CollectionProofs.InsertEachPushesAll | packages/datx/src/PureCollection.ts:373-419 | Inserting unowned models with distinct free slots succeeds, keeps the invariant, appends them all to `__data` in order and changes no model's content. |
| CollectionProofs.SnapshotRoundTrip | packages/datx/src/PureCollection.ts:239-250 | Constructing a new collection from a valid collection's `toJSON()` gives a valid collection whose `toJSON()` models are the same. The only possible error is a taken view name. |
| Collection.Length | packages/datx/src/PureCollection.ts:256-258 | `length` equals the number of models `findAll()` returns. |
| Collection.Push | packages/datx/src/PureCollection.ts:398-410 | The model is appended to `__data` and to its type's list, fills its `(type, id)` slot and becomes owned by the collection. No other model changes. |
| CollectionProofs.PushValid | packages/datx/src/PureCollection.ts:398-410 | Pushing an absent model into a free slot keeps the invariant. |
| Collection.ChangeModelId | packages/datx/src/PureCollection.ts:422-426 | Throws exactly when the type has no slot map. Otherwise the new key takes the old slot's occupant and the old key is deleted. Every other slot, `__data` and the type lists are unchanged. |
| CollectionProofs.ChangeModelIdValid | packages/datx/src/PureCollection.ts:422-426 | Moving a member's slot to the member's new id keeps the invariant. |
| CollectionProofs.ChangeModelIdSameKeyDropsSlot | packages/datx/src/PureCollection.ts:422-426 | With equal old and new ids the slot ends deleted. |
| CollectionProofs.SameIndexValid | packages/datx/src/PureCollection.ts:272-276 | The placeholder slots written by a lookup keep the invariant. |
| CollectionProofs.HeapFrameValid | packages/datx/src/PureCollection.ts:391-393 | Changing model fields without touching identity or ownership keeps the invariant. |
| CollectionProofs.OwnershipIsMembership | packages/datx/src/PureCollection.ts:382-385 | In a valid state, a model is owned by the collection exactly when it is in `__data`. |
| CollectionProofs.UniqueIdentity | packages/datx/src/PureCollection.ts:391-398 | In a valid state, no two members share a type and an id key. |
| JsonapiCollection.Lookup | packages/datx-jsonapi/src/decorateCollection.ts:109 | `find(type, id)` finds nothing for a falsy id or a missing type. Otherwise it finds the `(type, id)` slot, with no visible index change. |
| JsonapiCollection.AddRecord | packages/datx-jsonapi/src/decorateCollection.ts:106-121 | A record already in its slot is updated in place: same handle, same `__data`, only the given attributes change. Any other record yields a model, and the collection only grows. |
| JsonapiProofs.AddRecordValid | packages/datx-jsonapi/src/decorateCollection.ts:106-121 | Adding a record keeps the invariant. |
| JsonapiProofs.AddRecordLands | packages/datx-jsonapi/src/decorateCollection.ts:106-121 | A record with a type and a truthy id ends as a member in its `(type, id)` slot. |
| JsonapiProofs.DeclaredRecordLands | packages/datx-jsonapi/src/decorateCollection.ts:113-115 | A new record of a declared type is added as raw data and lands in its slot. |
| JsonapiProofs.GenericRecordLands | packages/datx-jsonapi/src/decorateCollection.ts:116-118 | A new record of an undeclared type becomes a generic model that lands in its slot. |
| CollectionProofs.FreshModelValid | packages/datx-jsonapi/src/decorateCollection.ts:117 | Constructing a fresh, unowned model keeps the invariant. |
| JsonapiCollection.AddRecords | packages/datx-jsonapi/src/decorateCollection.ts:149-152 | One model per record, each allocated. The collection only grows. |
| JsonapiProofs.AddRecordsValid | packages/datx-jsonapi/src/decorateCollection.ts:149-152 | Adding records keeps the invariant. |
| JsonapiProofs.AddRecordsLand | packages/datx-jsonapi/src/decorateCollection.ts:149-152 | Records with types and truthy ids are all added, and every returned model is a member. |
| JsonapiCollection.Entries | packages/datx-jsonapi/src/decorateCollection.ts:150-151 | The records of a `data` member: none, one or all of them. |
| JsonapiCollection.AddPass | packages/datx-jsonapi/src/decorateCollection.ts:151 | A single record gives a single model. A list gives a list of the same length. |
| JsonapiProofs.AddPassValid | packages/datx-jsonapi/src/decorateCollection.ts:149-152 | The add pass keeps the invariant. With ids present, every returned model is a member. |
| JsonapiCollection.ResolveOne | packages/datx-jsonapi/src/decorateCollection.ts:135 | `find(def.type, def.id) \|\| def.id`: the model in the slot if there is one, else the bare id. |
| JsonapiCollection.ResolveEach | packages/datx-jsonapi/src/decorateCollection.ts:133-136 | Each identifier is resolved on its own, in order. |
| JsonapiCollection.Resolve | packages/datx-jsonapi/src/decorateCollection.ts:133-136 | `mapItems` of the per-identifier resolution. |
| JsonapiCollection.ToAssigned | packages/datx-jsonapi/src/decorateCollection.ts:133-140 | A list stays a list and a single value stays single, which selects the bucket's cardinality. |
| JsonapiCollection.AssignField | packages/datx-jsonapi/src/decorateCollection.ts:138-144 | The field ends holding the resolved value. An absent field becomes a new reference of the item type bound to the collection. An existing reference keeps its type and binding. A plain property is overwritten. |
| JsonapiCollection.UpdateRef | packages/datx-jsonapi/src/decorateCollection.ts:126-146 | Empty lists, `null` data and missing records are skipped. Otherwise the named field holds the resolved relationship, and other fields, other models and all indices are unchanged. |
| JsonapiCollection.UpdateRefs | packages/datx-jsonapi/src/decorateCollection.ts:125-146 | Wiring relationships changes no index, no model identity and no allocation. |
| JsonapiCollection.UpdateRelationships | packages/datx-jsonapi/src/decorateCollection.ts:123-147 | Wiring a record changes no index, no model identity and no allocation. |
| JsonapiCollection.UpdateRecords | packages/datx-jsonapi/src/decorateCollection.ts:149-152 | The wiring pass changes no index, no model identity and no allocation. |
| JsonapiProofs.UpdateRecordsValid | packages/datx-jsonapi/src/decorateCollection.ts:123-152 | The wiring pass keeps the invariant and the membership. |
| JsonapiCollection.Sync | packages/datx-jsonapi/src/decorateCollection.ts:33-40 | No body gives `null` and changes nothing. A single record gives a single model. A list gives a list of the same length. The collection only grows. |
| JsonapiProofs.SyncValid | packages/datx-jsonapi/src/decorateCollection.ts:33-40 | `sync` keeps the invariant. With types and ids present, every returned model is a member. |
| JsonapiCollection.HandleErrors | packages/datx-jsonapi/src/decorateCollection.ts:98-104 | A truthy `error` rejects with that error. Otherwise the response passes through unchanged. |
| JsonapiCollection.Remove | packages/datx-jsonapi/src/decorateCollection.ts:73-89 | A missing id or an absent model removes nothing. A found model leaves `__data`, through the removal with the scan as written or corrected. Handles are kept. |
| JsonapiProofs.RemoveFound | packages/datx-jsonapi/src/decorateCollection.ts:80-88 | Removing a found model, with either scan, keeps the invariant and shortens `__data` by one. The model ends unowned and out of `__data`. |
| JsonapiCollection.LegacyAppendParams | packages/datx-jsonapi/src/decorateCollection.ts:220-225 | No params leave the URL unchanged. Otherwise the URL is followed by `?` and the params joined with `&`. |
| JsonapiCollection.LegacyPrepareQuery | packages/datx-jsonapi/src/decorateCollection.ts:154-183 | The URL always starts with the base URL, followed by the request path and then the params. |
| JsonapiProofs.LegacyAgrees | packages/datx-jsonapi/src/decorateCollection.ts:154-183 | For a relative path without `?`, the older builder gives exactly what `prepareQuery` gives. |
| JsonapiProofs.LegacyRepeatsQuestionMark | packages/datx-jsonapi/src/decorateCollection.ts:220-225 | When the path already has `?`, the older builder adds a second `?` where `prepareQuery` uses `&`. |
| JsonapiProofs.LegacyPrefixesAbsolute | packages/datx-jsonapi/src/decorateCollection.ts:216-218 | For an absolute path, the older builder's URL is longer by exactly the base URL. |
| Url.PrepareFilters | packages/datx-jsonapi/src/helpers/url.ts:56-58 | One `filter[key]=value` per parametrized pair, in order. It fails exactly when parametrizing fails. |
| Url.PrepareNamed | packages/datx-jsonapi/src/helpers/url.ts:60-66 | A truthy value gives exactly `name=value`. A falsy one gives nothing. |
| Url.Entries | packages/datx-jsonapi/src/helpers/url.ts:109 | `Object.keys` of an object lists its members. For an array it lists the indices. For `null`/`undefined` it throws. |
| Url.PrepareFields | packages/datx-jsonapi/src/helpers/url.ts:68-76 | One `fields[type]=value` per entry, in order. |
| Url.PrepareRawParams | packages/datx-jsonapi/src/helpers/url.ts:78-86 | A string passes through. A pair becomes `key=value`. Order is kept. |
| Url.PrefixUrl | packages/datx-jsonapi/src/helpers/url.ts:88-94 | An absolute URL is kept. Any other URL is prefixed with the base URL. |
| Url.AppendParams | packages/datx-jsonapi/src/helpers/url.ts:96-104 | No params keep the URL. Otherwise `?` (or `&` if the URL has a `?`) and the params joined with `&` are appended. |
| Url.BuildUrl | packages/datx-jsonapi/src/helpers/url.ts:40-54 | The URL is the prefixed URL with the params appended. It fails exactly when the params fail. No options give the prefixed URL and empty headers. |
| Url.FirstOfType | packages/datx-jsonapi/src/helpers/url.ts:27-30 | The declared model of the type that comes first, with no earlier declared model of that type, or none exactly when no declared model has it. |
| Url.ModelPath | packages/datx-jsonapi/src/helpers/url.ts:31-33 | The endpoint if set, else the model's base URL if set, else the type. |
| Url.RequestPath | packages/datx-jsonapi/src/helpers/url.ts:31-35 | The model path, or the type, followed by `/id` exactly when the id is truthy. |
| Url.PrepareQuery | packages/datx-jsonapi/src/helpers/url.ts:14-38 | The model given wins. Otherwise the first declared model of the type is used, else the bare type. The result is the built URL for that path. |
| Url.CommaSeparatedStyle | packages/datx-jsonapi/src/helpers/url.ts:113-114 | An array becomes one pair with the values joined by commas. |
| Url.MultipleParamsStyle | packages/datx-jsonapi/src/helpers/url.ts:115-116 | An array becomes one pair per value under the same key. |
| Url.ParamArrayStyle | packages/datx-jsonapi/src/helpers/url.ts:117-118 | An array becomes one pair per value under `key][`. |
| Url.ObjectPathStyle | packages/datx-jsonapi/src/helpers/url.ts:111-112 | An array of scalars becomes one pair per value under `key.index`. |
| Url.ObjectPathItems | packages/datx-jsonapi/src/helpers/url.ts:111-112 | Items of scalars are keyed by the scope and their index, counted from the start offset. |
| Url.NestedScopeDropsOuterKeys | packages/datx-jsonapi/src/helpers/url.ts:120-121 | A nested object keeps only the innermost parent key in its path. |
| Url.Parametrize | packages/datx-jsonapi/src/helpers/url.ts:106-128 | Throws a `TypeError` exactly when the value is `null` or `undefined`, or a member or element leads the walk into one; a nested `undefined` is emitted as a pair. |
| Url.ParamMembers | packages/datx-jsonapi/src/helpers/url.ts:109-125 | The walk over an object's members throws exactly when some member's step throws. |
| Url.ParamItems | packages/datx-jsonapi/src/helpers/url.ts:109-125 | The walk over an array's elements throws exactly when some element's step throws. |
| Url.ParamEntry | packages/datx-jsonapi/src/helpers/url.ts:110-124 | One key's step throws exactly when its value is walked again and that walk throws: objects and `null` always are, arrays only in the object-path style. |
| Url.FlatObjectPairs | packages/datx-jsonapi/src/helpers/url.ts:106-128 | An object of scalars gives one `scope+key` pair per member, in order. |
| Url.AppendedParamsReadBack | packages/datx-jsonapi/src/helpers/url.ts:96-104 | When no param contains `&` or `?`, splitting the built URL at the `?` and at each `&` recovers the URL and the params. |
| Url.UnencodedValuesCollide | packages/datx-jsonapi/src/helpers/url.ts:43-58 | Because values are not encoded, a filter value containing `&filter[b]=2` gives the same URL as a second filter. |
| Utils.MapItems | packages/datx-utils/src/helpers.ts:15-22 | `null` stays `null`. A single value is mapped once. A list is mapped pointwise and keeps its length. |
| Utils.MapItemsIdentity | packages/datx-utils/src/helpers.ts:15-22 | Mapping the identity changes nothing. |
| Utils.MapItemsCompose | packages/datx-utils/src/helpers.ts:15-22 | Mapping twice equals mapping the composition. |
| Utils.Flatten | packages/datx-utils/src/helpers.ts:32-34 | The length is the sum of the element lengths, with a scalar counted as one. |
| Utils.FlattenMember | packages/datx-utils/src/helpers.ts:32-34 | A value is in the flattening exactly when it is in one of the elements. |
| Utils.FlattenAppend | packages/datx-utils/src/helpers.ts:32-34 | Flattening distributes over concatenation. |
| Utils.FlattenSubs | packages/datx-utils/src/helpers.ts:32-34 | A list of arrays may be flattened in two pieces at any split point. |
| Utils.IsFalsyArray | packages/datx-utils/src/helpers.ts:43-45 | True exactly for an array with a falsy item. |
| Mixin.IsOfType | packages/datx/src/helpers/mixin.ts:15-24 | True exactly when the object is present and the type is on its prototype chain. |
| Mixin.IsModel | packages/datx/src/helpers/mixin.ts:35-37 | True exactly when `PureModel` is on the chain. |
| Mixin.IsCollection | packages/datx/src/helpers/mixin.ts:48-50 | True exactly when `PureCollection` is on the chain. |
| PureModel.GetAutoId | packages/datx/src/PureModel.ts:53-55 | A numeric counter is decremented and the new value returned. A string counter is returned unchanged. |
| PureModel.AutoIdsCountDown | packages/datx/src/PureModel.ts:53-55 | k successive ids from counter n are n-1, n-2, …, n-k, and the counter ends at n-k. |
| PureModel.AutoIdsFromZeroDistinct | packages/datx/src/PureModel.ts:29-55 | From a fresh class the ids are -1, -2, … and pairwise distinct. |
| PureModel.AutoIdsConstant | packages/datx/src/PureModel.ts:53-55 | A string counter hands out the same id every time. |
| PureModel.Preprocess | packages/datx/src/PureModel.ts:42-44 | The default hook returns the raw data unchanged. |
| PureModel.ClassToJSON | packages/datx/src/PureModel.ts:57-59 | A model class serialises to its type. |
| Buckets.New | packages/datx/src/buckets/ToOneOrMany.ts:16-26 | An array makes a list bucket, anything else a single bucket. Only that inner bucket exists, bound to the collection. The value reads back as given. |
| Buckets.Set | packages/datx/src/buckets/ToOneOrMany.ts:43-58 | The cardinality follows the assigned value, which reads back as assigned. The inactive inner bucket is kept. A newly created inner bucket is bound to the collection. |
| Buckets.RefValue | packages/datx/src/buckets/ToOneOrMany.ts:60-63 | The active items, in identifier form. |
| Buckets.ToJSON | packages/datx/src/buckets/ToOneOrMany.ts:65-67 | `toJSON()` is the identifier form of the current value, never the live items. |
| Buckets.Snapshot | packages/datx/src/buckets/ToOneOrMany.ts:65-72 | The snapshot is the identifier form of the current value. |
| Buckets.SetCollection | packages/datx/src/buckets/ToOneOrMany.ts:28-36 | Both inner buckets are rebound. The value and the cardinality are unchanged. |
| Buckets.SwitchAndBack | packages/datx/src/buckets/ToOneOrMany.ts:43-58 | Switching cardinality and back reads back the last value, and both inner buckets exist afterwards. |
| Buckets.SnapshotAfterSet | packages/datx/src/buckets/ToOneOrMany.ts:43-72 | After an assignment, the snapshot and `toJSON` are the identifier form of what was assigned. |
| Storage.InitModel | src/services/storage.ts:20-25 | The model gets empty data and meta. Nothing else changes. |
| Storage.EntryOf | src/services/storage.ts:129-131 | An existing entry is returned untouched. A missing one is created empty. |
| Storage.GetModelData | src/services/storage.ts:27-29 | The model's data, empty for a model never initialised. |
| Storage.GetModelDataKey | src/services/storage.ts:31-34 | The key's value in the model's data, `undefined` when absent. |
| Storage.SetModelData | src/services/storage.ts:36-39 | The given keys take the given values. Other keys, the meta and other models are unchanged. |
| Storage.SetModelDataKey | src/services/storage.ts:41-43 | Reading the key back gives the value. Every other key reads as before. |
| Storage.GetModelMeta | src/services/storage.ts:45-48 | The model's meta, or nothing exactly when the model was never initialised. |
| Storage.GetModelMetaKey | src/services/storage.ts:50-54 | The key's meta value, `undefined` when absent or uninitialised. |
| Storage.SetModelMeta | src/services/storage.ts:56-60 | The given meta keys take the given values. Other meta keys and the data are unchanged. |
| Storage.AddToClass | src/services/storage.ts:62-68 | The class's dictionary gains the key, creating the dictionary if needed. Other classes are unchanged. |
| Storage.AddModelDefaultField | src/services/storage.ts:62-68 | A default is recorded on its class only. |
| Storage.AddModelClassReference | src/services/storage.ts:103-110 | A reference declaration is recorded on its class only. |
| Storage.ReverseAssignFirstWins | src/services/storage.ts:70-75 | `Object.assign({}, ...dicts.reverse())` holds a key exactly when some dictionary defines it, and its value is the first definition. |
| Storage.ChainMergeFirstWins | src/services/storage.ts:70-75 | The merged dictionary holds a key exactly when some class on the chain defines it, with the nearest class's value. |
| Storage.GetModelDefaults | src/services/storage.ts:70-75 | A class's defaults are the nearest definition of each key along the prototype chain, and hold no other key. |
| Storage.OwnDefaultWins | src/services/storage.ts:70-75 | A class's own default beats every inherited one. |
| Storage.GetModelClassReferences | src/services/storage.ts:112-117 | Reference declarations resolve to the nearest class along the chain, and hold no other key. |
| Storage.Register | src/services/storage.ts:77-79 | A new collection is appended to the registry. |
| Storage.Unregister | src/services/storage.ts:81-83 | The registry loses the collection's first occurrence. |
| Storage.UnregisterRemoves | src/services/storage.ts:81-83 | In a registry without duplicates, the collection is gone and every other one is kept. |
| Storage.GetModelCollections | src/services/storage.ts:85-87 | Exactly the registered collections that hold the model, each as often as it is registered. |
| Storage.FilterColls | src/services/storage.ts:86 | `collections.filter(p)` keeps each passing collection as often as it occurs and drops every other one. |
| Storage.FilterCollsAppend | src/services/storage.ts:86 | The registry filter distributes over concatenation. |
| Storage.ModelCollectionsAfterRegister | src/services/storage.ts:77-87 | Registering one more collection appends it to `getModelCollections` exactly when it holds the model, so the result is in registration order. |
| Storage.FirstHit | src/services/storage.ts:93-98 | The first collection's hit in registry order. Nothing exactly when no collection finds the model. |
| Storage.FindModel | src/services/storage.ts:89-101 | No id gives nothing. Otherwise the first registered collection's hit. |
| Storage.GetModelReferenceOptions | src/services/storage.ts:119-122 | Throws exactly when the model has no `refs` meta. |
| Storage.GetModelsByType | src/services/storage.ts:124-127 | The result has no duplicates. |
| Storage.ModelsByTypeIsUnion | src/services/storage.ts:124-127 | A model is listed exactly when some registered collection lists it. |
| RemoteFetch.Initial | examples/with-nextjs-hooks/hooks/useRemoteFetch.ts:143-164 | Page and counts start at zero with no pagination and no response. Each option is the given value, else the default: fetch on mount, infinite, 25 per page. |
| RemoteFetch.Reduce | examples/with-nextjs-hooks/hooks/useRemoteFetch.ts:172-235 | An action without a kind or page, or of another kind, changes nothing. `FETCH_BEGIN` moves to the page, marks it fetching at `now` and counts one more attempt. `FETCH_END` records the response, the status (idle if none) and `now`, keeps the attempts, and takes the totals from the response meta when present. No other page changes. |
| RemoteFetch.NoOpRepeats | examples/with-nextjs-hooks/hooks/useRemoteFetch.ts:172-180 | Any number of no-op actions leave the state as it was. |
| RemoteFetch.BeginsCountAttempts | examples/with-nextjs-hooks/hooks/useRemoteFetch.ts:183-201 | n begins of one page add n attempts and leave that page fetching. Other pages and the totals are untouched. |
| RemoteFetch.AttemptsNeverDecrease | examples/with-nextjs-hooks/hooks/useRemoteFetch.ts:172-235 | No action lowers a page's attempt count. |
| RemoteFetch.CompletedFetch | examples/with-nextjs-hooks/hooks/useRemoteFetch.ts:183-231 | A begin followed by an end leaves the page succeeded or failed with one more attempt and records the response. |
| RemoteFetch.CurrentStatus | examples/with-nextjs-hooks/hooks/useRemoteFetch.ts:375-379 | A page never fetched is idle. |
| RemoteFetch.FetchPage | examples/with-nextjs-hooks/hooks/useRemoteFetch.ts:292-307 | Nothing is dispatched exactly when the page is the current one and the fetch is not forced. Otherwise a begin for the page (0 read as 1) is dispatched, and the view is cleared exactly when not infinite. |
| RemoteFetch.FetchPageTakesEffect | examples/with-nextjs-hooks/hooks/useRemoteFetch.ts:292-307 | Reducing the dispatched begin makes that page current and fetching. |
| RemoteFetch.FetchNext | examples/with-nextjs-hooks/hooks/useRemoteFetch.ts:334-336 | Something is dispatched exactly when there is a next page. |
| RemoteFetch.NextMovesForward | examples/with-nextjs-hooks/hooks/useRemoteFetch.ts:334-351 | With a next page, the begin moves the current page forward by one. |
| RemoteFetch.FetchPrev | examples/with-nextjs-hooks/hooks/useRemoteFetch.ts:339-341 | Something is dispatched exactly when there is a previous page. |
| RemoteFetch.NextThenPrev | examples/with-nextjs-hooks/hooks/useRemoteFetch.ts:334-356 | From a page past the first that has a next page, `fetchNext` then `fetchPrev` comes back to the starting page, and the previous page is always available. |
| RemoteFetch.PrevThenNext | examples/with-nextjs-hooks/hooks/useRemoteFetch.ts:334-356 | After `fetchPrev`, `hasNext` holds exactly when the page count reaches the starting page, and then `fetchNext` comes back to it. |
| RemoteFetch.PrevMovesBack | examples/with-nextjs-hooks/hooks/useRemoteFetch.ts:339-356 | With a previous page, the begin moves the current page back by one. |
| RemoteFetch.FetchAgain | examples/with-nextjs-hooks/hooks/useRemoteFetch.ts:344-346 | A refetch always dispatches. |
| RemoteFetch.OnMount | examples/with-nextjs-hooks/hooks/useRemoteFetch.ts:287-289 | With fetch-on-mount off, nothing is dispatched. |
| RemoteFetch.MountFetchesFirstPage | examples/with-nextjs-hooks/hooks/useRemoteFetch.ts:287-289 | From the initial state with fetch-on-mount on, the mount fetch makes page 1 current and fetching. |
| RemoteFetch.CreatePagination | examples/with-nextjs-hooks/hooks/useRemoteFetch.ts:393-402 | Two raw params, `page` and `per-page`, carrying the numbers as strings. |
| RemoteFetch.PaginationQuery | examples/with-nextjs-hooks/hooks/useRemoteFetch.ts:393-402 | The params render as `page=<n>` and `per-page=<size>`, and a nonzero page never renders as `0`. |

## Left out

- MobX reactivity is not modelled: observables, `computed`, `action`, patches and `triggerAction`. Every operation is a pure state transition, and the order of notifications is not represented.
- `View` is not modelled. Sorting, uniqueness, view contents and view mixins are out, and a view is represented by its name only.
- `getModelType` and `getModelId` are not part of this model. A model's type and id are read from its metadata, and a plain `{type, id}` reference's from its `type` and `id` fields. The patch helpers `modelToJSON` and `triggerAction` and the ownership update `updateModelCollection` are assumed not to throw on such a reference. If `getModelType` read model metadata instead, `removeOne` of a plain reference would throw a `TypeError` and change nothing, which `Collection.RemoveByRef` does not model.
- `upsertModel`, `initModels`, `updateModel`, `modelToJSON`, `flattenModel`, `initModelRef` and `getValue` are not part of this model. Each is represented by the behaviour the collection relies on, as stated on `Collection.Upsert`, `Collection.UpdateAttrs`, `Collection.ModelToJSON` and `JsonapiCollection.Flattened`. The `UnknownType` error is taken from test/collection.ts:52-60.
- `URL_REGEX` is not part of this model, so absoluteness is an `isAbsolute` parameter of `Url.PrefixUrl`. In the same way, prototype chains are explicit parameters of `Mixin` and `Storage`, and the per-collection `hasItem`/`findOne`/`findAll` calls are function parameters of `Storage`.
- Every type name is assumed non-empty. A class without a `type` in the code falls back to an empty name, which the invariant excludes.
- Types are strings. A numeric type is represented by its string form, and the numeric type `0` is out: the code treats it as falsy in `findAll` (PureCollection.ts:181) but as present in `__addSingle` (PureCollection.ts:300, 314).
- `find(type, id)` in decorateCollection.ts is read as the `(type, id)` lookup. `PureCollection.find` takes only a predicate.
- `super.remove(model)` in decorateCollection.ts:87 is read as `removeOne(model)`, since `PureCollection` has no `remove`.
- The network is not modelled. `fetch`, `fetchAll`, `request`, `read()` and the remote delete in `remove` are out, so only the response handling (`HandleErrors`, `Sync`) is modelled.
- `useRemotePersist` and the React wiring of `useRemoteFetch` are not modelled: effects, `dispatch`, `useReducer` and the view's `removeAll`. A fetch is represented by the action it would dispatch plus a `clearView` flag.
- `Date.now()` is a parameter of `RemoteFetch.Reduce`. Page numbers are integers, so `Number(page)` producing `NaN` is not modelled.
- JavaScript numbers are modelled as integers. Floating point ids and pages are out.
- `clear()` of the metadata store, WeakMap garbage collection and `extendObservable` are left out. A model's storage entry is created on first access.
- Url.Params has no contract of its own. `Url.BuildUrl` states the URL in terms of it, and `Url.PrepareFilters`, `Url.PrepareNamed`, `Url.PrepareFields` and `Url.PrepareRawParams` state its parts.
- Collection.ChangeModelId: the same-id case is stated as a lemma (`CollectionProofs.ChangeModelIdSameKeyDropsSlot`) rather than in the contract. It deletes the slot as written.
- Collection.RemoveEach: states only the heap frame. What it leaves is stated by `CollectionProofs.RemoveEachValid`.
- Collection.RemoveAll: states only the heap frame. What it leaves is stated by `CollectionProofs.RemoveAllValid`.
- Collection.InsertEach: states the frames only. The invariant and the landing of each model are stated by `CollectionProofs.InsertEachValid` and `CollectionProofs.InsertModelValid`.
- Collection.InitModels: states counts and frames only. What each model is comes from `Collection.Upsert`.
- Collection.Construct: its own contract states the count of models and the views. Validity and the round trip with `Collection.ToJSON` are stated by `CollectionProofs.ConstructValid` and `CollectionProofs.SnapshotRoundTrip`, the latter for snapshots whose models have truthy ids and declared types.
- Collection.ToJSON: its own contract states types, ids and views. The attributes are stated by `Collection.ModelToJSON`, and the round trip by `CollectionProofs.SnapshotRoundTrip`. View contents are not serialised, because views are names only.
- JsonapiCollection.Lookup: a falsy id finds nothing instead of throwing. `find(type, id)` is read as the `(type, id)` lookup, and `findOne` would throw "The identifier is missing" there. So `remove` of a model without an id and `__addRecord` of a record without an id are modelled as finding nothing.
- PureModel.GetAutoId: every class has its own counter. In the code a subclass reads its parent's static `autoIdValue` through static inheritance until it writes its own, which this model does not follow.
- RemoteFetch.HasNext and RemoteFetch.HasPrev: they are single comparisons with no contract of their own. Their meaning is stated by `RemoteFetch.FetchNext`, `RemoteFetch.FetchPrev`, `RemoteFetch.NextThenPrev` and `RemoteFetch.PrevThenNext`.
- Collection.AddView: the member names that make a view name taken are those of `PureCollection` and `Object.prototype`. On a JSON:API collection the subclass members added by decorateCollection.ts (`sync`, `fetch`, `fetchAll`, `request`, `remove` and the `__`-prefixed helpers) are taken too, so `addView("sync")` throws there; the model accepts it.
- Collection.ScanAsWritten: states the identity frame only. The effect on buckets is shown by `CollectionProofs.RemoveAsWrittenLeavesDangling`.
- Collection.Scan: states the identity frame only. The effect on buckets is stated by `CollectionProofs.RemoveModelNoDangling`.
- JsonapiCollection.UpdateRefs: states only the frame. The effect of each relationship is `JsonapiCollection.UpdateRef`'s.
- JsonapiCollection.Sync: does not restate the relationship wiring, which `JsonapiCollection.UpdateRef` states per relationship.
- Storage.GetModelsByType: the order of the result is not stated. Membership is stated by `Storage.ModelsByTypeIsUnion`.

## Findings

| source | as written | input that shows it | evidently intended | confidence | as-written member | corrected member |
|---|---|---|---|---|---|---|
| packages/datx/src/PureCollection.ts:362-365 | The reference scan after a removal tests each bucket against `item`, the model whose buckets are being scanned, instead of the removed `model`. | A post whose `author` bucket holds user 1; remove user 1. The post's author still points at the removed user. | Strip the removed model from every remaining bucket. | not executed | Collection.ScanAsWritten (`Collection.RemoveModel` with `AsWritten`), shown by CollectionProofs.RemoveAsWrittenKeepsMentions and CollectionProofs.RemoveAsWrittenLeavesDangling | Collection.Scan (`Collection.RemoveModel` with `AsIntended`), proved by CollectionProofs.RemoveModelNoDangling and CollectionProofs.RemoveClearsAuthor |

=== FILE: buckets.dfy ===
/**
 * The `ToOneOrMany` relationship bucket of packages/datx/src/buckets/ToOneOrMany.ts.
 * It composes a `ToOne` and a `ToMany` bucket and picks which one is active
 * from the shape of the value assigned to it.
 *
 * The inner `ToOne` and `ToMany` buckets are modelled as the items they store
 * and the collection they are bound to. Their resolution of stored items
 * against that collection is not part of this model.
 */
module Buckets {
  import opened Wrappers
  import opened Ident

  /** A `ToOne` bucket: at most one related item, and the collection it is bound to. */
  datatype ToOne<T> = ToOne(item: Option<T>, collection: Option<CollectionId>)

  /** A `ToMany` bucket: an ordered list of related items, and the collection it is bound to. */
  datatype ToMany<T> = ToMany(items: seq<T>, collection: Option<CollectionId>)

  /** A value read from or written to a bucket: one item or `null`, or an array. */
  datatype Assigned<T> = Single(item: Option<T>) | Multiple(items: seq<T>)

  /**
   * `isList` selects the active inner bucket. Either inner bucket may be
   * missing (it is created on first use); the inactive one is kept.
   */
  datatype ToOneOrMany<T> = ToOneOrMany(
    isList: bool,
    many: Option<ToMany<T>>,
    one: Option<ToOne<T>>,
    collection: Option<CollectionId>)

  /** The active inner bucket exists. */
  predicate Wellformed<T>(b: ToOneOrMany<T>) {
    (b.isList ==> b.many.Some?) && (!b.isList ==> b.one.Some?)
  }

  /** Every inner bucket that exists is bound to the bucket's own collection. */
  predicate Bound<T>(b: ToOneOrMany<T>) {
    (b.many.Some? ==> b.many.value.collection == b.collection)
    && (b.one.Some? ==> b.one.value.collection == b.collection)
  }

  /** The `value` getter: the active bucket's items. */
  function Value<T>(b: ToOneOrMany<T>): Assigned<T>
    requires Wellformed(b)
  {
    if b.isList then Multiple(b.many.value.items) else Single(b.one.value.item)
  }

  /** Applies `f` to every item of a value, keeping its shape. */
  function MapAssigned<T, R>(a: Assigned<T>, f: T -> R): Assigned<R> {
    match a
    case Single(None) => Single(None)
    case Single(Some(x)) => Single(Some(f(x)))
    case Multiple(xs) => Multiple(seq(|xs|, i requires 0 <= i < |xs| => f(xs[i])))
  }

  /**
   * The constructor: `isList` holds iff the data is an array, and only the
   * bucket of that cardinality is created, bound to the given collection.
   */
  function New<T>(data: Assigned<T>, collection: Option<CollectionId>): (b: ToOneOrMany<T>)
    ensures Wellformed(b) && Bound(b)
    ensures b.isList <==> data.Multiple?
    ensures b.many.Some? <==> data.Multiple?
    ensures b.one.Some? <==> data.Single?
    ensures b.collection == collection
    ensures Value(b) == data
  {
    match data
    case Multiple(xs) => ToOneOrMany(true, Some(ToMany(xs, collection)), None, collection)
    case Single(x) => ToOneOrMany(false, None, Some(ToOne(x, collection)), collection)
  }

  /**
   * The `value` setter: re-selects the cardinality from the shape of `data`,
   * writes into an existing bucket of that cardinality or creates one bound to
   * the current collection, and keeps the other bucket as it was.
   */
  function Set<T>(b: ToOneOrMany<T>, data: Assigned<T>): (r: ToOneOrMany<T>)
    ensures Wellformed(r)
    ensures r.isList <==> data.Multiple?
    ensures Value(r) == data
    ensures r.collection == b.collection
    ensures data.Multiple? ==> r.one == b.one
    ensures data.Single? ==> r.many == b.many
    ensures data.Multiple? ==> r.many.value.collection == (if b.many.Some? then b.many.value.collection else b.collection)
    ensures data.Single? ==> r.one.value.collection == (if b.one.Some? then b.one.value.collection else b.collection)
    ensures Bound(b) ==> Bound(r)
  {
    match data
    case Multiple(xs) =>
      var inner := if b.many.Some? then b.many.value.(items := xs) else ToMany(xs, b.collection);
      b.(isList := true, many := Some(inner))
    case Single(x) =>
      var inner := if b.one.Some? then b.one.value.(item := x) else ToOne(x, b.collection);
      b.(isList := false, one := Some(inner))
  }

  /**
   * `refValue`: the active bucket's items in identifier form, where `toRef`
   * projects an item to its identifier.
   */
  function RefValue<T, R>(b: ToOneOrMany<T>, toRef: T -> R): (r: Assigned<R>)
    requires Wellformed(b)
    ensures r == MapAssigned(Value(b), toRef)
  {
    if b.isList then
      var xs := b.many.value.items;
      var r := Multiple(seq(|xs|, i requires 0 <= i < |xs| => toRef(xs[i])));
      assert r.items == MapAssigned(Value(b), toRef).items;
      r
    else if b.one.value.item.Some? then
      Single(Some(toRef(b.one.value.item.value)))
    else
      Single(None)
  }

  /** `toJSON()`: the identifier form, never the live items. */
  function ToJSON<T, R>(b: ToOneOrMany<T>, toRef: T -> R): (r: Assigned<R>)
    requires Wellformed(b)
    ensures r == MapAssigned(Value(b), toRef)
  {
    RefValue(b, toRef)
  }

  /** `snapshot`: the same as `toJSON()`. */
  function Snapshot<T, R>(b: ToOneOrMany<T>, toRef: T -> R): (r: Assigned<R>)
    requires Wellformed(b)
    ensures r == MapAssigned(Value(b), toRef)
  {
    ToJSON(b, toRef)
  }

  /**
   * `setCollection(value)`: stores the collection and rebinds every inner
   * bucket that exists; which buckets exist and what they hold do not change.
   */
  function SetCollection<T>(b: ToOneOrMany<T>, c: Option<CollectionId>): (r: ToOneOrMany<T>)
    ensures Bound(r) && r.collection == c
    ensures r.isList == b.isList
    ensures r.many.Some? <==> b.many.Some?
    ensures r.one.Some? <==> b.one.Some?
    ensures Wellformed(b) ==> Wellformed(r) && Value(r) == Value(b)
  {
    var many := if b.many.Some? then Some(b.many.value.(collection := c)) else None;
    var one := if b.one.Some? then Some(b.one.value.(collection := c)) else None;
    b.(collection := c, many := many, one := one)
  }

  /** Writing a value of the other cardinality and back restores the first value and keeps both buckets. */
  lemma SwitchAndBack<T>(b: ToOneOrMany<T>, d: Assigned<T>, e: Assigned<T>)
    requires Wellformed(b)
    requires d.Multiple? != e.Multiple?
    ensures Value(Set(Set(b, d), e)) == e
    ensures Set(Set(b, d), e).many.Some? && Set(Set(b, d), e).one.Some?
  {
  }

  /** The serialised form after an assignment is the identifier form of what was assigned, whatever the cardinality before. */
  lemma SnapshotAfterSet<T, R>(b: ToOneOrMany<T>, d: Assigned<T>, toRef: T -> R)
    ensures Snapshot(Set(b, d), toRef) == MapAssigned(d, toRef)
    ensures ToJSON(Set(b, d), toRef) == Snapshot(Set(b, d), toRef)
  {
  }
}

=== FILE: collection.dfy ===
/**
 * The identity index and ownership engine of packages/datx/src/PureCollection.ts.
 *
 * A collection keeps three indices over the models it owns:
 *   - `data`: every owned model, in insertion order (`__data`);
 *   - `dataList`: per type, the owned models of that type (`__dataList`);
 *   - `dataMap`: per type and id key, the owned model (`__dataMap`).
 * Lookups write `null` placeholders into `dataMap` (and `findAll` writes empty
 * lists into `dataList`); a placeholder is the `None` of a slot. Every read
 * treats a placeholder like a missing key, which is what `Slot` and `ListOf`
 * express, but the placeholders decide whether removal finds the index
 * objects it writes into.
 *
 * The per-model hidden state (type, id, owning collection and fields) lives in
 * a heap keyed by model handle.
 */
module Collection {
  import opened Wrappers
  import opened Ident
  import Json
  import Buckets
  import PureModel
  import opened Seqs

  /** The errors the collection throws. */
  datatype Error =
    | TypeRequired            // raw data added without a type
    | UnknownType(modelType: string)   // no model class is declared for the type
    | AlreadyOwned            // "A model can be in a single collection at once"
    | IdentifierMissing       // "The identifier is missing"
    | NameTaken(name: string) // "The name is already taken"
    | TypeError               // an index object the code writes into does not exist

  /** A model field: a plain attribute, a relationship bucket, or a plain field holding related records. */
  datatype Field =
    | Attr(value: Json.Json)
    | Rel(targetType: string, bucket: Buckets.ToOneOrMany<Target>)
    | Linked(linked: Buckets.Assigned<Target>)

  /** The hidden state of one model. */
  datatype ModelMeta = ModelMeta(
    modelType: string,
    id: Identifier,
    owner: Option<CollectionId>,
    fields: map<string, Field>)

  /** One collection object: its identity, declared types, indices and view names. */
  datatype Coll = Coll(
    self: CollectionId,
    types: set<string>,
    data: seq<Handle>,
    dataList: map<string, seq<Handle>>,
    dataMap: map<string, map<string, Option<Handle>>>,
    views: seq<string>)

  /**
   * A collection together with the model heap it works on, the next free
   * model handle and the per-type model classes (their auto-id counters).
   */
  datatype State = State(
    coll: Coll,
    heap: map<Handle, ModelMeta>,
    nextHandle: Handle,
    classes: map<string, PureModel.ModelClass>)

  /**
   * What an operation leaves behind: the state reached and either its value
   * or the error it threw. A thrown error keeps the mutations made before it.
   */
  datatype Outcome<T> = Outcome(st: State, result: Result<T, Error>)

  /** Raw model data (`IRawModel`): its type, optional id and attribute values. */
  datatype RawModel = RawModel(modelType: string, id: Option<Identifier>, attrs: map<string, Json.Json>)

  /** The argument of `add`: what JavaScript may pass for one item. */
  datatype Datum =
    | Nullish              // null, undefined, false, NaN
    | Number(n: int)
    | Text(s: string)
    | RefObj(ref: Ref)     // a model reference `{type, id}`
    | Instance(h: Handle)  // a model instance
    | Raw(raw: RawModel)   // a plain data object

  /** `Boolean(d)`, used by the array form of `add` to drop falsy entries. */
  predicate DatumTruthy(d: Datum) {
    match d
    case Nullish => false
    case Number(n) => n != 0
    case Text(s) => s != ""
    case _ => true
  }

  /** `add(data)` or `add(array)`. */
  datatype AddInput = Single(item: Datum) | Array(items: seq<Datum>)

  /** The type-or-reference first argument of `findOne`. */
  datatype Query = ByType(modelType: string) | ByRef(ref: Ref)

  /** The second argument of `findOne`: absent, an id, or a model instance. */
  datatype IdArg = NoId | GivenId(id: Identifier) | GivenModel(h: Handle)

  /** The first argument of `removeOne`: a model instance, a model reference `{type, id}`, or a type. */
  datatype RemoveTarget = ModelObj(h: Handle) | ModelRef(ref: Ref) | TypeName(modelType: string)

  /**
   * Which reference scan `__removeModel` runs: the one the code writes
   * (`AsWritten`, each bucket tested against the model being scanned) or the
   * intended one (`AsIntended`, each bucket tested against the removed model).
   */
  datatype Scanning = AsWritten | AsIntended

  /** A collection snapshot (`IRawCollection`): raw models and view names. */
  datatype RawCollection = RawCollection(models: seq<RawModel>, views: seq<string>)

  // ---------------------------------------------------------------------
  // Reading the indices
  // ---------------------------------------------------------------------

  /** The model in the (type, key) slot of `__dataMap`; placeholders and missing keys read as `None`. */
  function Slot(c: Coll, t: string, k: string): Option<Handle> {
    if t in c.dataMap && k in c.dataMap[t] then c.dataMap[t][k] else None
  }

  /** The list of `__dataList` for a type; a missing list reads as empty. */
  function ListOf(c: Coll, t: string): seq<Handle> {
    if t in c.dataList then c.dataList[t] else []
  }

  /** The model class for a type, with its auto-id counter. */
  function ClassOf(st: State, t: string): PureModel.ModelClass {
    if t in st.classes then st.classes[t] else PureModel.NewClass(t)
  }

  /** `c2` differs from `c` at most by placeholders: every read gives the same answer. */
  ghost predicate SameIndex(c: Coll, c2: Coll) {
    && c2.self == c.self && c2.types == c.types && c2.data == c.data && c2.views == c.views
    && (forall t :: ListOf(c2, t) == ListOf(c, t))
    && (forall t, k :: Slot(c2, t, k) == Slot(c, t, k))
    && c.dataList.Keys <= c2.dataList.Keys
    && c.dataMap.Keys <= c2.dataMap.Keys
  }

  /** Two heaps hold the same models with the same type, id and owner. */
  ghost predicate SameIdentity(a: map<Handle, ModelMeta>, b: map<Handle, ModelMeta>) {
    a.Keys == b.Keys &&
    forall h :: h in a ==> b[h].modelType == a[h].modelType && b[h].id == a[h].id && b[h].owner == a[h].owner
  }

  // ---------------------------------------------------------------------
  // The invariant
  // ---------------------------------------------------------------------

  /** An owned model sits in all three indices under its own type and id, and names this collection as owner. */
  ghost predicate Indexed(st: State, h: Handle) {
    && h in st.heap
    && st.heap[h].owner == Some(st.coll.self)
    && h in ListOf(st.coll, st.heap[h].modelType)
    && Slot(st.coll, st.heap[h].modelType, Key(st.heap[h].id)) == Some(h)
  }

  /** A filled slot holds an owned model of that type and id key. */
  ghost predicate SlotSound(st: State, t: string, k: string) {
    Slot(st.coll, t, k).Some? ==>
      var h := Slot(st.coll, t, k).value;
      h in st.coll.data && h in st.heap && st.heap[h].modelType == t && Key(st.heap[h].id) == k
  }

  /** Every declared type and every model type is a non-empty name. */
  ghost predicate TypesNamed(st: State) {
    "" !in st.coll.types && forall h :: h in st.heap ==> st.heap[h].modelType != ""
  }

  /** Every model handle in use is below the next free one. */
  ghost predicate HandlesBounded(st: State) {
    forall h :: h in st.heap ==> h < st.nextHandle
  }

  ghost predicate MembersIndexed(st: State) {
    forall h :: h in st.coll.data ==> Indexed(st, h)
  }

  /** Each type's list holds owned models of that type, without repeats. */
  ghost predicate ListsSound(st: State) {
    && (forall t, h :: h in ListOf(st.coll, t) ==> h in st.coll.data && h in st.heap && st.heap[h].modelType == t)
    && (forall t :: NoDup(ListOf(st.coll, t)))
  }

  ghost predicate SlotsSound(st: State) {
    forall t, k :: SlotSound(st, t, k)
  }

  /** A model naming this collection as its owner is in `data`. */
  ghost predicate OwnedAreMembers(st: State) {
    forall h :: h in st.heap && st.heap[h].owner == Some(st.coll.self) ==> h in st.coll.data
  }

  /**
   * The collection invariant: every type is a non-empty name, the three
   * indices agree, (type, id) is unique, and a model is owned by this
   * collection exactly when it is in `data`.
   */
  ghost predicate Valid(st: State) {
    && TypesNamed(st)
    && HandlesBounded(st)
    && NoDup(st.coll.data)
    && MembersIndexed(st)
    && ListsSound(st)
    && SlotsSound(st)
    && OwnedAreMembers(st)
  }

  /** An empty collection over a heap. */
  function Empty(self: CollectionId, types: set<string>, heap: map<Handle, ModelMeta>, nextHandle: Handle,
                 classes: map<string, PureModel.ModelClass>): State {
    State(Coll(self, types, [], map[], map[], []), heap, nextHandle, classes)
  }

  // ---------------------------------------------------------------------
  // Lookups
  // ---------------------------------------------------------------------

  /**
   * `__findOneByType(type, id)`: a falsy type finds nothing; otherwise the
   * slot is read, after writing a `null` placeholder where there was none.
   */
  function FindByType(c: Coll, t: string, id: Identifier): (r: (Coll, Option<Handle>))
    ensures SameIndex(c, r.0)
    ensures t == "" ==> r.1 == None
    ensures t != "" ==> r.1 == Slot(c, t, Key(id))
  {
    if t == "" then (c, None)
    else
      var k := Key(id);
      var c2 :=
        if t !in c.dataMap then c.(dataMap := c.dataMap[t := map[k := None]])
        else if k !in c.dataMap[t] then c.(dataMap := c.dataMap[t := c.dataMap[t][k := None]])
        else c;
      (c2, Slot(c, t, k))
  }

  /**
   * `findOne(model, id)`: a model passed as id is returned as it is; a
   * reference is looked up by its own type and id; otherwise a missing or
   * falsy id throws, and a present one is looked up. A miss is `None`, never an error.
   */
  function FindOne(c: Coll, q: Query, id: IdArg): (r: (Coll, Result<Option<Handle>, Error>))
    ensures SameIndex(c, r.0)
    ensures id.GivenModel? ==> r.1 == Ok(Some(id.h))
    ensures r.1.Err? <==> !id.GivenModel? && q.ByType? && (id.NoId? || !Truthy(id.id))
    ensures r.1.Err? ==> r.1.error == IdentifierMissing && r.0 == c
    ensures !id.GivenModel? && q.ByRef? && q.ref.modelType != "" ==> r.1 == Ok(Slot(c, q.ref.modelType, Key(q.ref.id)))
    ensures id.GivenId? && q.ByType? && Truthy(id.id) && q.modelType != "" ==> r.1 == Ok(Slot(c, q.modelType, Key(id.id)))
  {
    if id.GivenModel? then (c, Ok(Some(id.h)))
    else if q.ByRef? then
      var (c2, m) := FindByType(c, q.ref.modelType, q.ref.id);
      (c2, Ok(m))
    else if id.NoId? || !Truthy(id.id) then (c, Err(IdentifierMissing))
    else
      var (c2, m) := FindByType(c, q.modelType, id.id);
      (c2, Ok(m))
  }

  /**
   * `hasItem(model)`: whether some model occupies the (type, id) slot of the
   * given model. A model with a falsy id makes the lookup throw.
   */
  function HasItem(st: State, h: Handle): (r: (Coll, Result<bool, Error>))
    requires h in st.heap
    ensures SameIndex(st.coll, r.0)
    ensures r.1.Err? <==> !Truthy(st.heap[h].id)
    ensures r.1.Ok? && st.heap[h].modelType != "" ==>
      (r.1.value <==> Slot(st.coll, st.heap[h].modelType, Key(st.heap[h].id)).Some?)
  {
    var m := st.heap[h];
    if !Truthy(m.id) then (st.coll, Err(IdentifierMissing))
    else
      var (c2, found) := FindByType(st.coll, m.modelType, m.id);
      (c2, Ok(found.Some?))
  }

  /**
   * `findAll(type)`: the list of a type (an empty list is written into
   * `__dataList` when there is none); with no type or a falsy one, all models.
   */
  function FindAll(c: Coll, t: Option<string>): (r: (Coll, seq<Handle>))
    ensures SameIndex(c, r.0)
    ensures t.None? || t.value == "" ==> r.1 == c.data
    ensures t.Some? && t.value != "" ==> r.1 == ListOf(c, t.value) && t.value in r.0.dataList
  {
    if t.None? || t.value == "" then (c, c.data)
    else if t.value in c.dataList then (c, c.dataList[t.value])
    else (c.(dataList := c.dataList[t.value := []]), [])
  }

  /** The `length` getter: as many as `findAll()` lists. */
  function Length(c: Coll): (n: nat)
    ensures n == |FindAll(c, None).1|
  {
    |c.data|
  }

  /** `filter(test)`: the owned models passing the test, in order. */
  function Filter(c: Coll, test: Handle -> bool): (r: seq<Handle>)
    ensures forall h :: h in r <==> h in c.data && test(h)
    ensures forall h :: multiset(r)[h] == if test(h) then multiset(c.data)[h] else 0
    ensures |r| <= |c.data|
  {
    KeepPassingCounts(c.data, test);
    KeepPassing(c.data, test)
  }

  /** `Array.prototype.filter` over a run of models: each model in turn, kept when it passes. */
  function KeepPassing(xs: seq<Handle>, test: Handle -> bool): seq<Handle>
  {
    if |xs| == 0 then [] else (if test(xs[0]) then [xs[0]] else []) + KeepPassing(xs[1..], test)
  }

  /** The filter keeps each passing model as often as it occurs and drops every failing one. */
  lemma {:induction false} KeepPassingCounts(xs: seq<Handle>, test: Handle -> bool)
    ensures forall h :: h in KeepPassing(xs, test) <==> h in xs && test(h)
    ensures forall h :: multiset(KeepPassing(xs, test))[h] == if test(h) then multiset(xs)[h] else 0
    ensures |KeepPassing(xs, test)| <= |xs|
    decreases |xs|
  {
    if |xs| > 0 {
      KeepPassingCounts(xs[1..], test);
      assert xs == [xs[0]] + xs[1..];
    }
  }

  /** `find(test)`: the first owned model passing the test, or `null`. */
  function Find(c: Coll, test: Handle -> bool): (r: Option<Handle>)
    ensures r.Some? ==> r.value in c.data && test(r.value)
    ensures r.Some? ==> exists i :: 0 <= i < |c.data| && c.data[i] == r.value && forall j :: 0 <= j < i ==> !test(c.data[j])
    ensures r.None? <==> forall i :: 0 <= i < |c.data| ==> !test(c.data[i])
    decreases |c.data|
  {
    if |c.data| == 0 then None
    else if test(c.data[0]) then Some(c.data[0])
    else
      var r := Find(c.(data := c.data[1..]), test);
      assert forall i :: 1 <= i < |c.data| ==> c.data[i] == c.data[1..][i - 1];
      r
  }

  // ---------------------------------------------------------------------
  // Inserting
  // ---------------------------------------------------------------------

  /** The attribute fields built from raw attribute values. */
  function AttrFields(attrs: map<string, Json.Json>): map<string, Field> {
    map k | k in attrs :: Attr(attrs[k])
  }

  /** The attribute fields of a model. */
  function AttrsOf(m: ModelMeta): map<string, Field> {
    map k | k in m.fields && m.fields[k].Attr? :: m.fields[k]
  }

  /**
   * `updateModel(existing, data)`: the given attributes overwrite the
   * existing model's fields of the same name; type, id and owner stay.
   */
  function UpdateAttrs(m: ModelMeta, attrs: map<string, Field>): (r: ModelMeta)
    ensures r.modelType == m.modelType && r.id == m.id && r.owner == m.owner
    ensures forall k :: k in attrs ==> k in r.fields && r.fields[k] == attrs[k]
    ensures forall k :: k in m.fields && k !in attrs ==> k in r.fields && r.fields[k] == m.fields[k]
  {
    m.(fields := m.fields + attrs)
  }

  /** The pushes of `__insertModel`: append to `data` and to the type's list, fill the slot, take ownership. */
  function Push(st: State, h: Handle, t: string): (r: State)
    requires h in st.heap
    ensures r.coll.data == st.coll.data + [h] && ListOf(r.coll, t) == ListOf(st.coll, t) + [h]
    ensures Slot(r.coll, t, Key(st.heap[h].id)) == Some(h)
    ensures r.heap.Keys == st.heap.Keys && r.heap[h].owner == Some(st.coll.self)
    ensures forall g :: g in st.heap && g != h ==> r.heap[g] == st.heap[g]
  {
    var c := st.coll;
    var k := Key(st.heap[h].id);
    var slots := if t in c.dataMap then c.dataMap[t] else map[];
    var c2 := c.(data := c.data + [h],
                 dataList := c.dataList[t := ListOf(c, t) + [h]],
                 dataMap := c.dataMap[t := slots[k := Some(h)]]);
    st.(coll := c2, heap := st.heap[h := st.heap[h].(owner := Some(c.self))])
  }

  /**
   * `__insertModel(model, type)`: refuses a model owned by another
   * collection before touching any index; a model with a falsy id makes the
   * lookup throw; when the (type, id) slot is taken the occupant is updated in
   * place and nothing is pushed; otherwise the model is pushed into all three
   * indices and becomes owned by this collection.
   */
  function InsertModel(st: State, h: Handle, t: Option<string>): (o: Outcome<()>)
    requires h in st.heap
    ensures o.result.Err? ==> o.st == st
    ensures o.result == Err(AlreadyOwned) <==> st.heap[h].owner.Some? && st.heap[h].owner.value != st.coll.self
    ensures o.result == Err(IdentifierMissing) <==>
      !(st.heap[h].owner.Some? && st.heap[h].owner.value != st.coll.self) && !Truthy(st.heap[h].id)
    ensures o.result.Ok? ==> o.st.coll.data == st.coll.data || o.st.coll.data == st.coll.data + [h]
    ensures st.heap.Keys == o.st.heap.Keys && o.st.nextHandle == st.nextHandle
    ensures o.result.Ok? && o.st.coll.data == st.coll.data + [h] ==> o.st.heap[h].owner == Some(st.coll.self)
    ensures o.st.coll.views == st.coll.views
    ensures o.st.coll.self == st.coll.self && o.st.coll.types == st.coll.types
  {
    var m := st.heap[h];
    if m.owner.Some? && m.owner.value != st.coll.self then Outcome(st, Err(AlreadyOwned))
    else if !Truthy(m.id) then Outcome(st, Err(IdentifierMissing))
    else
      var modelType := if t.Some? && t.value != "" then t.value else m.modelType;
      var (c1, existing) := FindByType(st.coll, modelType, m.id);
      var st1 := st.(coll := c1);
      if existing.Some? && existing.value in st.heap then
        var e := existing.value;
        Outcome(st1.(heap := st.heap[e := UpdateAttrs(st.heap[e], AttrsOf(m))]), Ok(()))
      else
        Outcome(Push(st1, h, modelType), Ok(()))
  }

  /**
   * `upsertModel(data, type, collection)`, whose body is not part of this
   * model, with the behaviour the collection relies on: a model already at
   * (type, id) is updated and returned; otherwise a declared type constructs a
   * new, unowned model (taking the id from the data or from the class's
   * auto-id counter); an undeclared type throws `UnknownType`.
   */
  function Upsert(st: State, raw: RawModel, t: string): (o: Outcome<Handle>)
    ensures o.result.Ok? ==> o.result.value in o.st.heap && o.st.heap[o.result.value].modelType == t
    ensures o.result.Err? <==> o.result == Err(UnknownType(t))
    ensures o.result.Err? ==> o.st == st
    ensures o.st.coll == st.coll
    ensures st.heap.Keys <= o.st.heap.Keys
    ensures o.result.Ok? && o.result.value !in st.heap ==>
      o.result.value == st.nextHandle && o.st.heap[o.result.value].owner.None?
  {
    var found := if raw.id.Some? then Slot(st.coll, t, Key(raw.id.value)) else None;
    if found.Some? && found.value in st.heap && st.heap[found.value].modelType == t then
      var e := found.value;
      Outcome(st.(heap := st.heap[e := UpdateAttrs(st.heap[e], AttrFields(raw.attrs))]), Ok(e))
    else if t !in st.coll.types then
      Outcome(st, Err(UnknownType(t)))
    else
      var cls := ClassOf(st, t);
      var (id, cls2) := if raw.id.Some? then (raw.id.value, cls) else PureModel.GetAutoId(cls);
      Outcome(WithModel(st, ModelMeta(t, id, None, AttrFields(raw.attrs))).(classes := st.classes[t := cls2]), Ok(st.nextHandle))
  }

  /** A new model allocated at the next free handle. */
  function WithModel(st: State, m: ModelMeta): State {
    st.(heap := st.heap[st.nextHandle := m], nextHandle := st.nextHandle + 1)
  }

  /**
   * `__addSingle(data, type)`: falsy values, numbers, strings and references
   * are returned untouched; a model instance is inserted unless `hasItem`
   * already reports it; raw data needs a type, is upserted and inserted.
   */
  function AddSingle(st: State, d: Datum, t: Option<string>): (o: Outcome<Datum>)
    requires d.Instance? ==> d.h in st.heap
    ensures (d.Nullish? || d.Number? || d.Text? || d.RefObj?) ==> o == Outcome(st, Ok(d))
    ensures d.Raw? && (t.None? || t.value == "") ==> o == Outcome(st, Err(TypeRequired))
    ensures d.Instance? && o.result.Ok? ==> o.result.value == d
    ensures d.Instance? && HasItem(st, d.h).1 == Ok(true) ==> o == Outcome(st.(coll := HasItem(st, d.h).0), Ok(d))
    ensures d.Raw? && o.result.Ok? ==> o.result.value.Instance? && o.result.value.h in o.st.heap
    ensures st.heap.Keys <= o.st.heap.Keys
    ensures o.st.coll.data == st.coll.data || (|o.st.coll.data| == |st.coll.data| + 1 && o.st.coll.data[..|st.coll.data|] == st.coll.data)
    ensures o.st.coll.self == st.coll.self && o.st.coll.types == st.coll.types
  {
    match d
    case Nullish => Outcome(st, Ok(d))
    case Number(_) => Outcome(st, Ok(d))
    case Text(_) => Outcome(st, Ok(d))
    case RefObj(_) => Outcome(st, Ok(d))
    case Instance(h) =>
      var (c1, has) := HasItem(st, h);
      if has.Err? then Outcome(st, Err(has.error))
      else if has.value then Outcome(st.(coll := c1), Ok(d))
      else
        var o := InsertModel(st.(coll := c1), h, None);
        Outcome(o.st, if o.result.Ok? then Ok(d) else Err(o.result.error))
    case Raw(raw) =>
      if t.None? || t.value == "" then Outcome(st, Err(TypeRequired))
      else
        var u := Upsert(st, raw, t.value);
        if u.result.Err? then Outcome(u.st, Err(u.result.error))
        else
          var o := InsertModel(u.st, u.result.value, t);
          Outcome(o.st, if o.result.Ok? then Ok(Instance(u.result.value)) else Err(o.result.error))
  }

  /** The entries of an array that `filter(Boolean)` keeps. */
  function TruthyOnly(ds: seq<Datum>): (r: seq<Datum>)
    ensures forall x :: x in r <==> x in ds && DatumTruthy(x)
    ensures forall x :: multiset(r)[x] == if DatumTruthy(x) then multiset(ds)[x] else 0
  {
    KeepTruthyCounts(ds);
    KeepTruthy(ds)
  }

  /** `filter(Boolean)` over the entries: each entry in turn, kept when it is truthy. */
  function KeepTruthy(ds: seq<Datum>): seq<Datum>
  {
    if |ds| == 0 then [] else (if DatumTruthy(ds[0]) then [ds[0]] else []) + KeepTruthy(ds[1..])
  }

  /** `filter(Boolean)` keeps each truthy entry as often as it occurs and drops every falsy one. */
  lemma {:induction false} KeepTruthyCounts(ds: seq<Datum>)
    ensures forall x :: x in KeepTruthy(ds) <==> x in ds && DatumTruthy(x)
    ensures forall x :: multiset(KeepTruthy(ds))[x] == if DatumTruthy(x) then multiset(ds)[x] else 0
    decreases |ds|
  {
    if |ds| > 0 {
      KeepTruthyCounts(ds[1..]);
      assert ds == [ds[0]] + ds[1..];
    }
  }

  /** Every model instance among the items exists. */
  ghost predicate InstancesIn(ds: seq<Datum>, heap: map<Handle, ModelMeta>) {
    forall i :: 0 <= i < |ds| ==> ds[i].Instance? ==> ds[i].h in heap
  }

  /**
   * `__addSingle` over a list, left to right: an error stops the walk and
   * keeps what the earlier items did.
   */
  function AddEach(st: State, ds: seq<Datum>, t: Option<string>): (o: Outcome<seq<Datum>>)
    requires InstancesIn(ds, st.heap)
    ensures st.heap.Keys <= o.st.heap.Keys
    ensures |st.coll.data| <= |o.st.coll.data| && o.st.coll.data[..|st.coll.data|] == st.coll.data
    ensures o.result.Ok? ==> |o.result.value| == |ds|
    decreases |ds|
  {
    if |ds| == 0 then Outcome(st, Ok([]))
    else
      var o := AddSingle(st, ds[0], t);
      assert o.st.coll.data[..|st.coll.data|] == st.coll.data;
      if o.result.Err? then Outcome(o.st, Err(o.result.error))
      else
        var rest := AddEach(o.st, ds[1..], t);
        assert rest.st.coll.data[..|st.coll.data|] == rest.st.coll.data[..|o.st.coll.data|][..|st.coll.data|];
        Outcome(rest.st, if rest.result.Ok? then Ok([o.result.value] + rest.result.value) else Err(rest.result.error))
  }

  /**
   * `add(data, type)`: an array has its falsy entries dropped and every
   * remaining entry added in order; anything else is added on its own.
   */
  function Add(st: State, input: AddInput, t: Option<string>): (o: Outcome<seq<Datum>>)
    requires input.Single? && input.item.Instance? ==> input.item.h in st.heap
    requires input.Array? ==> InstancesIn(input.items, st.heap)
    ensures |st.coll.data| <= |o.st.coll.data| && o.st.coll.data[..|st.coll.data|] == st.coll.data
    ensures input.Array? && o.result.Ok? ==> |o.result.value| == |TruthyOnly(input.items)|
  {
    match input
    case Single(d) =>
      var o := AddSingle(st, d, t);
      Outcome(o.st, if o.result.Ok? then Ok([o.result.value]) else Err(o.result.error))
    case Array(ds) =>
      var kept := TruthyOnly(ds);
      assert InstancesIn(kept, st.heap) by {
        forall i | 0 <= i < |kept| && kept[i].Instance?
          ensures kept[i].h in st.heap
        {
          assert kept[i] in ds;
        }
      }
      AddEach(st, kept, t)
  }

  /** `initModels`: upserts every raw model under its own type, in order. */
  function InitModels(st: State, raws: seq<RawModel>): (o: Outcome<seq<Handle>>)
    ensures o.st.coll == st.coll
    ensures st.heap.Keys <= o.st.heap.Keys
    ensures o.result.Ok? ==> |o.result.value| == |raws|
    ensures o.result.Ok? ==> forall i :: 0 <= i < |raws| ==> o.result.value[i] in o.st.heap
    decreases |raws|
  {
    if |raws| == 0 then Outcome(st, Ok([]))
    else
      var u := Upsert(st, raws[0], raws[0].modelType);
      if u.result.Err? then Outcome(u.st, Err(u.result.error))
      else
        var rest := InitModels(u.st, raws[1..]);
        Outcome(rest.st, if rest.result.Ok? then Ok([u.result.value] + rest.result.value) else Err(rest.result.error))
  }

  /** `__insertModel` over an array, in order; an error stops the walk. */
  function InsertEach(st: State, hs: seq<Handle>): (o: Outcome<()>)
    requires forall i :: 0 <= i < |hs| ==> hs[i] in st.heap
    ensures st.heap.Keys == o.st.heap.Keys
    ensures o.st.coll.views == st.coll.views
    decreases |hs|
  {
    if |hs| == 0 then Outcome(st, Ok(()))
    else
      var o := InsertModel(st, hs[0], None);
      if o.result.Err? then o else InsertEach(o.st, hs[1..])
  }

  /** `insert(data)`: builds every model first, then inserts them all. */
  function Insert(st: State, raws: seq<RawModel>): (o: Outcome<seq<Handle>>)
    ensures o.result.Ok? ==> |o.result.value| == |raws|
    ensures o.st.coll.views == st.coll.views
  {
    var init := InitModels(st, raws);
    if init.result.Err? then init
    else
      var ins := InsertEach(init.st, init.result.value);
      Outcome(ins.st, if ins.result.Ok? then Ok(init.result.value) else Err(ins.result.error))
  }

  // ---------------------------------------------------------------------
  // Removing
  // ---------------------------------------------------------------------

  /**
   * The bucket update of the reference scan: an array value that includes
   * `target` is replaced by the array without it; a single value equal to
   * `target` is replaced by `null`; any other field is left alone.
   */
  function StripField(f: Field, target: Target): Field {
    match f
    case Rel(tt, b) =>
      if !Buckets.Wellformed(b) then f
      else
        var v := Buckets.Value(b);
        if v.Multiple? then
          if target in v.items then Rel(tt, Buckets.Set(b, Buckets.Multiple(Without(v.items, target)))) else f
        else if v.item == Some(target) then Rel(tt, Buckets.Set(b, Buckets.Single(None)))
        else f
    case _ => f
  }

  /** `xs.filter((m) => m !== target)`. */
  function Without(xs: seq<Target>, target: Target): (r: seq<Target>)
    ensures target !in r
    ensures forall y :: y in r <==> y in xs && y != target
    ensures forall y :: multiset(r)[y] == if y != target then multiset(xs)[y] else 0
  {
    if |xs| == 0 then []
    else
      var rest := Without(xs[1..], target);
      assert forall y :: y in xs <==> y == xs[0] || y in xs[1..];
      assert xs == [xs[0]] + xs[1..];
      if xs[0] == target then rest else [xs[0]] + rest
  }

  /** Applies the bucket update to every field of one model. */
  function StripModel(m: ModelMeta, target: Target): (r: ModelMeta)
    ensures r.modelType == m.modelType && r.id == m.id && r.owner == m.owner
    ensures r.fields.Keys == m.fields.Keys
  {
    m.(fields := map k | k in m.fields :: StripField(m.fields[k], target))
  }

  /**
   * The reference scan of `__removeModel` as the code writes it: each
   * remaining `item` has its buckets stripped of `item` itself.
   */
  function ScanAsWritten(heap: map<Handle, ModelMeta>, data: seq<Handle>): (r: map<Handle, ModelMeta>)
    ensures r.Keys == heap.Keys
    ensures forall h :: h in heap ==> r[h].modelType == heap[h].modelType && r[h].id == heap[h].id && r[h].owner == heap[h].owner
  {
    map h | h in heap :: if h in data then StripModel(heap[h], ModelTarget(h)) else heap[h]
  }

  /** The reference scan as intended: each remaining model has its buckets stripped of the removed model. */
  function Scan(heap: map<Handle, ModelMeta>, data: seq<Handle>, removed: Handle): (r: map<Handle, ModelMeta>)
    ensures r.Keys == heap.Keys
    ensures forall h :: h in heap ==> r[h].modelType == heap[h].modelType && r[h].id == heap[h].id && r[h].owner == heap[h].owner
  {
    map h | h in heap :: if h in data then StripModel(heap[h], ModelTarget(removed)) else heap[h]
  }

  /**
   * The index part of `__removeModel`: the model leaves `data` and its
   * type's list, and its slot is set to `undefined`. A type with no list or
   * no slot map makes the code throw.
   */
  function Detach(st: State, h: Handle): (o: Outcome<()>)
    requires h in st.heap
    ensures o.st.heap == st.heap && o.st.nextHandle == st.nextHandle && o.st.classes == st.classes
    ensures o.st.coll.self == st.coll.self && o.st.coll.types == st.coll.types && o.st.coll.views == st.coll.views
    ensures o.st.coll.data == RemoveFirst(st.coll.data, h)
  {
    var t := st.heap[h].modelType;
    var k := Key(st.heap[h].id);
    var c := st.coll;
    var c1 := c.(data := RemoveFirst(c.data, h));
    if t !in c.dataList then Outcome(st.(coll := c1), Err(TypeError))
    else
      var c2 := c1.(dataList := c.dataList[t := RemoveFirst(c.dataList[t], h)]);
      if t !in c.dataMap then Outcome(st.(coll := c2), Err(TypeError))
      else
        var c3 := c2.(dataMap := c.dataMap[t := c.dataMap[t][k := None]]);
        Outcome(st.(coll := c3), Ok(()))
  }

  /** The reference scan that `scan` selects, after `removed` has left `data`. */
  function ScanBy(scan: Scanning, heap: map<Handle, ModelMeta>, data: seq<Handle>, removed: Handle): (r: map<Handle, ModelMeta>)
    ensures r.Keys == heap.Keys
    ensures forall h :: h in heap ==> r[h].modelType == heap[h].modelType && r[h].id == heap[h].id && r[h].owner == heap[h].owner
  {
    match scan
    case AsWritten => ScanAsWritten(heap, data)
    case AsIntended => Scan(heap, data, removed)
  }

  /**
   * `__removeModel(model)`: the model leaves every index, the remaining
   * models' buckets are scanned, and the model ends with no owner. A type
   * with no list or no slot map throws before the scan.
   */
  function RemoveModel(st: State, h: Handle, scan: Scanning): (o: Outcome<()>)
    requires h in st.heap
    ensures h in o.st.heap && o.st.heap.Keys == st.heap.Keys
    ensures o.st.coll.data == RemoveFirst(st.coll.data, h)
    ensures o.result.Ok? <==> st.heap[h].modelType in st.coll.dataList && st.heap[h].modelType in st.coll.dataMap
    ensures o.result.Ok? ==> o.st.heap[h].owner.None?
    ensures o.result.Ok? ==> Slot(o.st.coll, st.heap[h].modelType, Key(st.heap[h].id)).None?
  {
    var d := Detach(st, h);
    if d.result.Err? then d
    else
      var heap1 := ScanBy(scan, d.st.heap, d.st.coll.data, h);
      Outcome(d.st.(heap := heap1[h := heap1[h].(owner := None)]), Ok(()))
  }

  /**
   * `__removeModel(ref)` for a plain reference object: `__data.remove` and
   * the list's `remove` find nothing (they compare by identity), but the
   * slot of the reference's type and id is still set to `undefined`. The
   * scan that follows runs over every member; the intended scan strips
   * nothing, since no bucket holds the reference object itself.
   */
  function RemoveByRef(st: State, r: Ref, scan: Scanning): (o: Outcome<()>)
    ensures o.st.coll.data == st.coll.data && o.st.coll.dataList == st.coll.dataList
    ensures o.st.heap.Keys == st.heap.Keys
    ensures o.result.Ok? <==> r.modelType in st.coll.dataList && r.modelType in st.coll.dataMap
    ensures forall t, k :: Slot(o.st.coll, t, k) == (if t == r.modelType && k == Key(r.id) && o.result.Ok? then None else Slot(st.coll, t, k))
    ensures forall h :: h in st.heap ==> o.st.heap[h].modelType == st.heap[h].modelType && o.st.heap[h].id == st.heap[h].id && o.st.heap[h].owner == st.heap[h].owner
  {
    var c := st.coll;
    if r.modelType !in c.dataList || r.modelType !in c.dataMap then Outcome(st, Err(TypeError))
    else
      var st1 := st.(coll := c.(dataMap := c.dataMap[r.modelType := c.dataMap[r.modelType][Key(r.id) := None]]));
      match scan
      case AsWritten => Outcome(st1.(heap := ScanAsWritten(st.heap, c.data)), Ok(()))
      case AsIntended => Outcome(st1, Ok(()))
  }

  /**
   * `removeOne(model)` removes that model; `removeOne(ref)` runs the removal
   * on the reference object itself; `removeOne(type, id)` does nothing for a
   * missing or falsy id, and otherwise removes the model found there, if any.
   */
  function RemoveOne(st: State, target: RemoveTarget, id: Option<Identifier>, scan: Scanning): (o: Outcome<()>)
    requires target.ModelObj? ==> target.h in st.heap
    ensures target.TypeName? && (id.None? || !Truthy(id.value)) ==> o == Outcome(st, Ok(()))
    ensures target.ModelObj? ==> o.st.coll.data == RemoveFirst(st.coll.data, target.h)
    ensures target.ModelRef? ==> o.st.coll.data == st.coll.data
    ensures target.TypeName? && id.Some? && Truthy(id.value) ==>
      var found := if target.modelType != "" then Slot(st.coll, target.modelType, Key(id.value)) else None;
      o.st.coll.data == (if found.Some? && found.value in st.heap then RemoveFirst(st.coll.data, found.value) else st.coll.data)
    ensures st.heap.Keys == o.st.heap.Keys
  {
    match target
    case ModelObj(h) => RemoveModel(st, h, scan)
    case ModelRef(r) => RemoveByRef(st, r, scan)
    case TypeName(t) =>
      if id.None? || !Truthy(id.value) then Outcome(st, Ok(()))
      else
        var (c1, found) := FindOne(st.coll, ByType(t), GivenId(id.value));
        var st1 := st.(coll := c1);
        if found.Ok? && found.value.Some? && found.value.value in st.heap then RemoveModel(st1, found.value.value, scan)
        else Outcome(st1, Ok(()))
  }

  /** `__removeModel` over an array, in order; the first throw stops it. */
  function RemoveEach(st: State, hs: seq<Handle>, scan: Scanning): (o: Outcome<()>)
    requires forall i :: 0 <= i < |hs| ==> hs[i] in st.heap
    ensures st.heap.Keys == o.st.heap.Keys
    decreases |hs|
  {
    if |hs| == 0 then Outcome(st, Ok(()))
    else
      var o := RemoveModel(st, hs[0], scan);
      if o.result.Err? then o else RemoveEach(o.st, hs[1..], scan)
  }

  /** `removeAll(type)`: removes a copy of `findAll(type)` one model at a time (all models for a falsy type). */
  function RemoveAll(st: State, t: string, scan: Scanning): (o: Outcome<()>)
    requires forall h :: h in st.coll.data ==> h in st.heap
    requires forall h :: h in ListOf(st.coll, t) ==> h in st.heap
    ensures st.heap.Keys == o.st.heap.Keys
  {
    var (c1, list) := FindAll(st.coll, Some(t));
    RemoveEach(st.(coll := c1), list, scan)
  }

  /** `reset()`: every owned model loses its owner and all three indices become empty. */
  function Reset(st: State): (r: State)
    ensures r.coll.data == [] && r.coll.dataList == map[] && r.coll.dataMap == map[]
    ensures r.heap.Keys == st.heap.Keys
    ensures forall h :: h in st.heap && h in st.coll.data ==> r.heap[h].owner.None?
    ensures forall h :: h in st.heap && h !in st.coll.data ==> r.heap[h] == st.heap[h]
  {
    var heap := map h | h in st.heap :: if h in st.coll.data then st.heap[h].(owner := None) else st.heap[h];
    st.(coll := st.coll.(data := [], dataList := map[], dataMap := map[]), heap := heap)
  }

  // ---------------------------------------------------------------------
  // Views, serialisation, id changes, construction
  // ---------------------------------------------------------------------

  /** The instance members of a collection object, each truthy (`length` aside, handled separately). */
  const MemberNames: set<string> := {
    "constructor", "addView", "insert", "hasItem", "add", "filter", "findOne", "findAll", "find",
    "removeOne", "removeAll", "reset", "toJSON", "snapshot", "getAllModels",
    "__findOneByType", "__addArray", "__addSingle", "__removeModel", "__insertModel",
    "__changeModelId", "__data", "__views", "__dataMap", "__dataList",
    "toString", "toLocaleString", "valueOf", "hasOwnProperty", "isPrototypeOf",
    "propertyIsEnumerable", "__proto__", "__defineGetter__", "__defineSetter__",
    "__lookupGetter__", "__lookupSetter__"}

  /** `name in this && this[name]`: a member, a registered view, or `length` of a non-empty collection. */
  predicate NameTakenIn(c: Coll, name: string) {
    name in MemberNames || name in c.views || (name == "length" && |c.data| > 0)
  }

  /** `addView(name, ...)`: throws when the name is taken, otherwise registers the view name. */
  function AddView(st: State, name: string): (o: Outcome<()>)
    ensures o.result.Err? <==> NameTakenIn(st.coll, name)
    ensures o.result.Err? ==> o.st == st && o.result.error == NameTaken(name)
    ensures o.result.Ok? ==> o.st == st.(coll := st.coll.(views := st.coll.views + [name]))
  {
    if NameTakenIn(st.coll, name) then Outcome(st, Err(NameTaken(name)))
    else Outcome(st.(coll := st.coll.(views := st.coll.views + [name])), Ok(()))
  }

  /** `modelToJSON`, reduced to the model's type, id and attributes. */
  function ModelToJSON(m: ModelMeta): (r: RawModel)
    ensures r.modelType == m.modelType && r.id == Some(m.id)
    ensures forall k :: k in r.attrs <==> k in m.fields && m.fields[k].Attr?
  {
    RawModel(m.modelType, Some(m.id), map k | k in m.fields && m.fields[k].Attr? :: m.fields[k].value)
  }

  /** `toJSON()`: every owned model in `data` order, and the view names. */
  function ToJSON(st: State): (r: RawCollection)
    requires forall h :: h in st.coll.data ==> h in st.heap
    ensures |r.models| == Length(st.coll)
    ensures forall i :: 0 <= i < |r.models| ==>
      r.models[i].modelType == st.heap[st.coll.data[i]].modelType && r.models[i].id == Some(st.heap[st.coll.data[i]].id)
    ensures r.views == st.coll.views
  {
    RawCollection(seq(|st.coll.data|, i requires 0 <= i < |st.coll.data| => ModelToJSON(st.heap[st.coll.data[i]])),
                  st.coll.views)
  }

  /**
   * `__changeModelId(oldId, newId, type)`: the slot under the new key takes
   * whatever the old key held (`undefined` if nothing), then the old key is
   * deleted. A type with no slot map makes the code throw.
   */
  function ChangeModelId(st: State, oldId: Identifier, newId: Identifier, t: string): (o: Outcome<()>)
    ensures o.result.Err? <==> t !in st.coll.dataMap
    ensures o.result.Err? ==> o.st == st
    ensures o.result.Ok? && Key(newId) != Key(oldId) ==>
      Slot(o.st.coll, t, Key(newId)) == Slot(st.coll, t, Key(oldId)) && Slot(o.st.coll, t, Key(oldId)).None?
    ensures o.result.Ok? ==> forall t2, k :: t2 != t || (k != Key(newId) && k != Key(oldId)) ==>
      Slot(o.st.coll, t2, k) == Slot(st.coll, t2, k)
    ensures o.st.coll.data == st.coll.data && o.st.coll.dataList == st.coll.dataList && o.st.heap == st.heap
  {
    if t !in st.coll.dataMap then Outcome(st, Err(TypeError))
    else
      var slots := st.coll.dataMap[t];
      var moved := if Key(oldId) in slots then slots[Key(oldId)] else None;
      var slots2 := slots[Key(newId) := moved] - {Key(oldId)};
      Outcome(st.(coll := st.coll.(dataMap := st.coll.dataMap[t := slots2])), Ok(()))
  }

  /** `addView` for each static view name, in order. */
  function AddViews(st: State, names: seq<string>): (o: Outcome<()>)
    ensures o.st == st.(coll := st.coll.(views := o.st.coll.views))
    ensures o.result.Err? ==> o.result.error.NameTaken? && o.result.error.name in names
    ensures o.result.Ok? ==> o.st.coll.views == st.coll.views + names
    ensures o.result.Ok? ==> forall i :: 0 <= i < |names| ==> !NameTakenIn(st.coll, names[i]) && names[i] !in names[..i]
    decreases |names|
  {
    if |names| == 0 then Outcome(st, Ok(()))
    else
      var o := AddView(st, names[0]);
      if o.result.Err? then o
      else
        assert st.coll.views + [names[0]] + names[1..] == st.coll.views + names;
        AddViews(o.st, names[1..])
  }

  /**
   * A collection as its constructor finds it: no member, no index entry, no
   * view, and no model in the heap claiming it.
   */
  ghost predicate IsNew(st: State) {
    && st.coll.data == [] && st.coll.dataList == map[] && st.coll.dataMap == map[] && st.coll.views == []
    && forall h :: h in st.heap ==> st.heap[h].owner != Some(st.coll.self)
  }

  /** `new PureCollection(raw)`: inserts the snapshot's models, then registers the static views. */
  function Construct(empty: State, raw: RawCollection, staticViews: seq<string>): (o: Outcome<seq<Handle>>)
    requires IsNew(empty)
    ensures o.result.Ok? ==> |o.result.value| == |raw.models|
    ensures o.result.Ok? ==> o.st.coll.views == staticViews
  {
    var ins := Insert(empty, raw.models);
    if ins.result.Err? then ins
    else
      var v := AddViews(ins.st, staticViews);
      Outcome(v.st, if v.result.Ok? then ins.result else Err(v.result.error))
  }
}

=== FILE: collection_proofs.dfy ===
/**
 * Properties of the collection engine of module `Collection`: every public
 * operation keeps the invariant, (type, id) is unique, and removal leaves no
 * remaining model pointing at the removed one.
 */
module CollectionProofs {
  import opened Wrappers
  import opened Ident
  import opened Collection
  import Json
  import Buckets
  import opened Seqs

  /** Placeholder writes do not disturb the invariant. */
  lemma SameIndexValid(st: State, c2: Coll)
    requires Valid(st) && SameIndex(st.coll, c2)
    ensures Valid(st.(coll := c2))
  {
    var st2 := st.(coll := c2);
    forall h | h in c2.data ensures Indexed(st2, h) { assert Indexed(st, h); }
    forall t, k ensures SlotSound(st2, t, k) { assert SlotSound(st, t, k); }
  }

  /** Changing fields only (never type, id or owner) does not disturb the invariant. */
  lemma HeapFrameValid(st: State, heap2: map<Handle, ModelMeta>)
    requires Valid(st) && SameIdentity(st.heap, heap2)
    ensures Valid(st.(heap := heap2))
  {
    var st2 := st.(heap := heap2);
    forall h | h in st.coll.data ensures Indexed(st2, h) { assert Indexed(st, h); }
    forall t, k ensures SlotSound(st2, t, k) { assert SlotSound(st, t, k); }
  }

  /** Under the invariant a model belongs to the collection exactly when it is in `data`. */
  lemma OwnershipIsMembership(st: State, h: Handle)
    requires Valid(st) && h in st.heap
    ensures st.heap[h].owner == Some(st.coll.self) <==> h in st.coll.data
  {
    if h in st.coll.data { assert Indexed(st, h); }
  }

  /** No two owned models share a type and an id key. */
  lemma UniqueIdentity(st: State, a: Handle, b: Handle)
    requires Valid(st) && a in st.coll.data && b in st.coll.data
    requires st.heap[a].modelType == st.heap[b].modelType && Key(st.heap[a].id) == Key(st.heap[b].id)
    ensures a == b
  {
    assert Indexed(st, a);
    assert Indexed(st, b);
  }

  /** `c2` agrees with `c` on every slot except (t0, k0), which holds `v`. */
  ghost predicate SlotsExcept(c: Coll, c2: Coll, t0: string, k0: string, v: Option<Handle>) {
    forall t, k :: Slot(c2, t, k) == (if t == t0 && k == k0 then v else Slot(c, t, k))
  }

  /** `c2` agrees with `c` on every type list except that of `t0`, which is `l`. */
  ghost predicate ListsExcept(c: Coll, c2: Coll, t0: string, l: seq<Handle>) {
    forall t :: ListOf(c2, t) == (if t == t0 then l else ListOf(c, t))
  }

  /** How `Push` changes the slots and lists: only the pushed model's own slot and type list. */
  lemma PushIndices(st: State, h: Handle)
    requires h in st.heap
    ensures SlotsExcept(st.coll, Push(st, h, st.heap[h].modelType).coll, st.heap[h].modelType, Key(st.heap[h].id), Some(h))
    ensures ListsExcept(st.coll, Push(st, h, st.heap[h].modelType).coll, st.heap[h].modelType,
                        ListOf(st.coll, st.heap[h].modelType) + [h])
  {
  }

  lemma PushMembersIndexed(st: State, st2: State, h: Handle)
    requires MembersIndexed(st) && h in st.heap && h !in st.coll.data
    requires Slot(st.coll, st.heap[h].modelType, Key(st.heap[h].id)).None?
    requires st2.coll.self == st.coll.self && st2.coll.data == st.coll.data + [h]
    requires st2.heap == st.heap[h := st.heap[h].(owner := Some(st.coll.self))]
    requires SlotsExcept(st.coll, st2.coll, st.heap[h].modelType, Key(st.heap[h].id), Some(h))
    requires ListsExcept(st.coll, st2.coll, st.heap[h].modelType, ListOf(st.coll, st.heap[h].modelType) + [h])
    ensures MembersIndexed(st2)
  {
    forall g | g in st2.coll.data ensures Indexed(st2, g) {
      if g != h {
        assert g in st.coll.data;
        assert Indexed(st, g);
      }
    }
  }

  lemma PushListsSound(st: State, st2: State, h: Handle)
    requires ListsSound(st) && h in st.heap && h !in st.coll.data
    requires st2.coll.data == st.coll.data + [h]
    requires st2.heap == st.heap[h := st.heap[h].(owner := Some(st.coll.self))]
    requires ListsExcept(st.coll, st2.coll, st.heap[h].modelType, ListOf(st.coll, st.heap[h].modelType) + [h])
    ensures ListsSound(st2)
  {
    forall t ensures NoDup(ListOf(st2.coll, t)) {
      assert NoDup(ListOf(st.coll, t));
      assert h !in ListOf(st.coll, t);
    }
  }

  lemma PushSlotsSound(st: State, st2: State, h: Handle)
    requires SlotsSound(st) && h in st.heap && h !in st.coll.data
    requires st2.coll.data == st.coll.data + [h]
    requires st2.heap == st.heap[h := st.heap[h].(owner := Some(st.coll.self))]
    requires SlotsExcept(st.coll, st2.coll, st.heap[h].modelType, Key(st.heap[h].id), Some(h))
    ensures SlotsSound(st2)
  {
    forall t, k ensures SlotSound(st2, t, k) {
      assert SlotSound(st, t, k);
    }
  }

  /** Pushing a model whose slot is free keeps the invariant. */
  lemma PushValid(st: State, h: Handle)
    requires Valid(st) && h in st.heap && h !in st.coll.data
    requires Slot(st.coll, st.heap[h].modelType, Key(st.heap[h].id)).None?
    ensures Valid(Push(st, h, st.heap[h].modelType))
  {
    var st2 := Push(st, h, st.heap[h].modelType);
    PushIndices(st, h);
    PushMembersIndexed(st, st2, h);
    PushListsSound(st, st2, h);
    PushSlotsSound(st, st2, h);
    assert NoDup(st2.coll.data) by {
      forall i, j | 0 <= i < j < |st2.coll.data| ensures st2.coll.data[i] != st2.coll.data[j] {
        if j == |st.coll.data| { assert st2.coll.data[i] in st.coll.data; }
      }
    }
  }

  /**
   * `__insertModel` keeps the invariant for a model with its own type. When
   * the (type, id) slot was free the model is appended and owned; when it was
   * taken, `data` is unchanged and the slot keeps its occupant.
   */
  lemma InsertModelValid(st: State, h: Handle, t: Option<string>)
    requires Valid(st) && h in st.heap
    requires t.Some? && t.value != "" ==> t.value == st.heap[h].modelType
    ensures Valid(InsertModel(st, h, t).st)
    ensures var o := InsertModel(st, h, t);
            var T := st.heap[h].modelType;
            var k := Key(st.heap[h].id);
            o.result.Ok? ==>
              && Slot(o.st.coll, T, k).Some?
              && (Slot(st.coll, T, k).None? ==> o.st.coll.data == st.coll.data + [h] && Slot(o.st.coll, T, k) == Some(h))
              && (Slot(st.coll, T, k).Some? ==> o.st.coll.data == st.coll.data && Slot(o.st.coll, T, k) == Slot(st.coll, T, k))
  {
    var m := st.heap[h];
    if m.owner.Some? && m.owner.value != st.coll.self {
    } else if !Truthy(m.id) {
    } else {
      var (c1, existing) := FindByType(st.coll, m.modelType, m.id);
      var st1 := st.(coll := c1);
      SameIndexValid(st, c1);
      if existing.Some? && existing.value in st.heap {
        var e := existing.value;
        HeapFrameValid(st1, st.heap[e := UpdateAttrs(st.heap[e], AttrsOf(m))]);
      } else {
        assert m.modelType != "";
        assert SlotSound(st, m.modelType, Key(m.id));
        PushValid(st1, h);
      }
    }
  }

  /** A fresh, unowned model of a named type joins the heap without breaking the invariant. */
  lemma FreshModelValid(st: State, m: ModelMeta)
    requires Valid(st) && m.owner.None? && m.modelType != ""
    ensures Valid(WithModel(st, m))
  {
    var st2 := WithModel(st, m);
    assert st.nextHandle !in st.heap;
    forall h | h in st.coll.data ensures Indexed(st2, h) { assert Indexed(st, h); }
    forall t, k ensures SlotSound(st2, t, k) { assert SlotSound(st, t, k); }
  }

  /** The auto-id counters play no part in the invariant. */
  lemma ClassesFrameValid(st: State, classes: map<string, PureModel.ModelClass>)
    requires Valid(st)
    ensures Valid(st.(classes := classes))
  {
    var st2 := st.(classes := classes);
    forall h | h in st.coll.data ensures Indexed(st2, h) { assert Indexed(st, h); }
    forall t, k ensures SlotSound(st2, t, k) { assert SlotSound(st, t, k); }
  }

  /** `upsertModel` keeps the invariant: it only updates fields or adds an unowned model under a fresh handle. */
  lemma UpsertValid(st: State, raw: RawModel, t: string)
    requires Valid(st)
    ensures Valid(Upsert(st, raw, t).st)
  {
    var found := if raw.id.Some? then Slot(st.coll, t, Key(raw.id.value)) else None;
    if found.Some? && found.value in st.heap && st.heap[found.value].modelType == t {
      var e := found.value;
      HeapFrameValid(st, st.heap[e := UpdateAttrs(st.heap[e], AttrFields(raw.attrs))]);
    } else if t !in st.coll.types {
    } else {
      var cls := ClassOf(st, t);
      var (id, cls2) := if raw.id.Some? then (raw.id.value, cls) else PureModel.GetAutoId(cls);
      var m := ModelMeta(t, id, None, AttrFields(raw.attrs));
      FreshModelValid(st, m);
      ClassesFrameValid(WithModel(st, m), st.classes[t := cls2]);
      assert Upsert(st, raw, t).st == WithModel(st, m).(classes := st.classes[t := cls2]);
    }
  }

  /** `__addSingle` keeps the invariant. */
  lemma AddSingleValid(st: State, d: Datum, t: Option<string>)
    requires Valid(st)
    requires d.Instance? ==> d.h in st.heap
    ensures Valid(AddSingle(st, d, t).st)
  {
    match d
    case Instance(h) => AddInstanceValid(st, h, t);
    case Raw(raw) => AddRawValid(st, raw, t);
    case _ =>
  }

  lemma AddInstanceValid(st: State, h: Handle, t: Option<string>)
    requires Valid(st) && h in st.heap
    ensures Valid(AddSingle(st, Instance(h), t).st)
  {
    var (c1, has) := HasItem(st, h);
    SameIndexValid(st, c1);
    if has.Ok? && !has.value {
      InsertModelValid(st.(coll := c1), h, None);
    }
  }

  lemma AddRawValid(st: State, raw: RawModel, t: Option<string>)
    requires Valid(st)
    ensures Valid(AddSingle(st, Raw(raw), t).st)
  {
    if t.Some? && t.value != "" {
      UpsertValid(st, raw, t.value);
      var u := Upsert(st, raw, t.value);
      if u.result.Ok? {
        InsertModelValid(u.st, u.result.value, t);
      }
    }
  }

  /** Adding a list of items keeps the invariant, whether or not it stops on an error. */
  lemma {:induction false} AddEachValid(st: State, ds: seq<Datum>, t: Option<string>)
    requires Valid(st) && InstancesIn(ds, st.heap)
    ensures Valid(AddEach(st, ds, t).st)
    decreases |ds|
  {
    if |ds| > 0 {
      AddSingleValid(st, ds[0], t);
      var o := AddSingle(st, ds[0], t);
      if o.result.Ok? {
        assert InstancesIn(ds[1..], o.st.heap) by {
          forall i | 0 <= i < |ds[1..]| && ds[1..][i].Instance? ensures ds[1..][i].h in o.st.heap {
            assert ds[1..][i] == ds[i + 1];
          }
        }
        AddEachValid(o.st, ds[1..], t);
      }
    }
  }

  /** `add` keeps the invariant. */
  lemma AddValid(st: State, input: AddInput, t: Option<string>)
    requires Valid(st)
    requires input.Single? && input.item.Instance? ==> input.item.h in st.heap
    requires input.Array? ==> InstancesIn(input.items, st.heap)
    ensures Valid(Add(st, input, t).st)
  {
    match input
    case Single(d) => AddSingleValid(st, d, t);
    case Array(ds) =>
      var kept := TruthyOnly(ds);
      assert InstancesIn(kept, st.heap) by {
        forall i | 0 <= i < |kept| && kept[i].Instance? ensures kept[i].h in st.heap {
          assert kept[i] in ds;
        }
      }
      AddEachValid(st, kept, t);
  }

  /** `initModels` keeps the invariant. */
  lemma {:induction false} InitModelsValid(st: State, raws: seq<RawModel>)
    requires Valid(st)
    ensures Valid(InitModels(st, raws).st)
    decreases |raws|
  {
    if |raws| > 0 {
      UpsertValid(st, raws[0], raws[0].modelType);
      var u := Upsert(st, raws[0], raws[0].modelType);
      if u.result.Ok? {
        InitModelsValid(u.st, raws[1..]);
      }
    }
  }

  /** Inserting models one after the other keeps the invariant. */
  lemma {:induction false} InsertEachValid(st: State, hs: seq<Handle>)
    requires Valid(st) && forall i :: 0 <= i < |hs| ==> hs[i] in st.heap
    ensures Valid(InsertEach(st, hs).st)
    decreases |hs|
  {
    if |hs| > 0 {
      InsertModelValid(st, hs[0], None);
      var o := InsertModel(st, hs[0], None);
      if o.result.Ok? {
        InsertEachValid(o.st, hs[1..]);
      }
    }
  }

  /** `insert` keeps the invariant. */
  lemma InsertValid(st: State, raws: seq<RawModel>)
    requires Valid(st)
    ensures Valid(Insert(st, raws).st)
  {
    InitModelsValid(st, raws);
    var init := InitModels(st, raws);
    if init.result.Ok? {
      InsertEachValid(init.st, init.result.value);
    }
  }

  // ---------------------------------------------------------------------
  // Construction and the snapshot round trip
  // ---------------------------------------------------------------------

  /** A new collection over a heap with named types and bounded handles satisfies the invariant. */
  lemma NewValid(st: State)
    requires IsNew(st) && TypesNamed(st) && HandlesBounded(st)
    ensures Valid(st)
  {
    forall t ensures ListOf(st.coll, t) == [] { }
    forall t, k ensures SlotSound(st, t, k) { assert Slot(st.coll, t, k) == None; }
  }

  /** Only models already there or inserted end in `data`. */
  lemma {:induction false} InsertEachMembers(st: State, hs: seq<Handle>)
    requires forall i :: 0 <= i < |hs| ==> hs[i] in st.heap
    ensures forall g :: g in InsertEach(st, hs).st.coll.data ==> g in st.coll.data || g in hs
    decreases |hs|
  {
    if |hs| > 0 {
      var o := InsertModel(st, hs[0], None);
      if o.result.Ok? {
        InsertEachMembers(o.st, hs[1..]);
        forall g | g in InsertEach(st, hs).st.coll.data ensures g in st.coll.data || g in hs {
          assert g in o.st.coll.data || g in hs[1..];
        }
      }
    }
  }

  /**
   * Constructing a collection from any snapshot gives a valid collection
   * whose members are all among the models built from the snapshot.
   */
  lemma ConstructValid(empty: State, raw: RawCollection, staticViews: seq<string>)
    requires IsNew(empty) && TypesNamed(empty) && HandlesBounded(empty)
    ensures var o := Construct(empty, raw, staticViews);
            && Valid(o.st)
            && (o.result.Ok? ==> forall h :: h in o.st.coll.data ==> h in o.result.value)
  {
    NewValid(empty);
    InsertValid(empty, raw.models);
    var init := InitModels(empty, raw.models);
    if init.result.Ok? {
      InsertEachMembers(init.st, init.result.value);
    }
    var ins := Insert(empty, raw.models);
    if ins.result.Ok? {
      ViewsFrameValid(ins.st, AddViews(ins.st, staticViews).st.coll.views);
    }
  }

  /** The view names play no part in the invariant. */
  lemma ViewsFrameValid(st: State, views: seq<string>)
    requires Valid(st)
    ensures Valid(st.(coll := st.coll.(views := views)))
  {
    var st2 := st.(coll := st.coll.(views := views));
    forall t ensures ListOf(st2.coll, t) == ListOf(st.coll, t) { }
    forall h | h in st2.coll.data ensures Indexed(st2, h) { assert Indexed(st, h); }
    forall t, k ensures SlotSound(st2, t, k) { assert SlotSound(st, t, k); }
  }

  /** The attributes a model is built from are the attributes it serialises to. */
  lemma ModelToJSONAttrs(t: string, id: Identifier, owner: Option<CollectionId>, attrs: map<string, Json.Json>)
    ensures ModelToJSON(ModelMeta(t, id, owner, AttrFields(attrs))) == RawModel(t, Some(id), attrs)
  {
    var r := ModelToJSON(ModelMeta(t, id, owner, AttrFields(attrs)));
    assert r.attrs.Keys == attrs.Keys;
  }

  /** The model `upsertModel` builds for raw data with an id, before any collection owns it. */
  function Built(raw: RawModel): ModelMeta
    requires raw.id.Some?
  {
    ModelMeta(raw.modelType, raw.id.value, None, AttrFields(raw.attrs))
  }

  /**
   * Initialising raw models with ids and declared types against an empty
   * index builds each one afresh, at consecutive handles, leaving the rest
   * of the heap alone.
   */
  lemma {:induction false} InitModelsFresh(st: State, raws: seq<RawModel>)
    requires st.coll.dataMap == map[] && HandlesBounded(st)
    requires forall i :: 0 <= i < |raws| ==> raws[i].modelType in st.coll.types && raws[i].id.Some?
    ensures var o := InitModels(st, raws);
            && o.result.Ok?
            && |o.result.value| == |raws|
            && o.st.nextHandle == st.nextHandle + |raws|
            && HandlesBounded(o.st)
            && (forall h :: h in st.heap ==> h in o.st.heap && o.st.heap[h] == st.heap[h])
            && (forall i :: 0 <= i < |raws| ==>
                  o.result.value[i] == st.nextHandle + i && o.result.value[i] in o.st.heap
                  && o.st.heap[o.result.value[i]] == Built(raws[i]))
    decreases |raws|
  {
    if |raws| > 0 {
      var n := st.nextHandle;
      UpsertBuilds(st, raws[0]);
      var u := Upsert(st, raws[0], raws[0].modelType);
      var rest := raws[1..];
      forall i | 0 <= i < |rest| ensures rest[i].modelType in u.st.coll.types && rest[i].id.Some? {
        assert rest[i] == raws[i + 1];
      }
      InitModelsFresh(u.st, rest);
      var r := InitModels(u.st, rest);
      assert InitModels(st, raws) == Outcome(r.st, Ok([n] + r.result.value));
      forall h | h in st.heap ensures h in r.st.heap && r.st.heap[h] == st.heap[h] {
        assert u.st.heap[h] == st.heap[h];
      }
      assert n in u.st.heap && u.st.heap[n] == Built(raws[0]);
      BuiltCons(n, raws, r.result.value, r.st.heap);
    }
  }

  /** Upserting raw data with an id and a declared type against an empty index builds it at the next handle. */
  lemma UpsertBuilds(st: State, raw: RawModel)
    requires st.coll.dataMap == map[] && HandlesBounded(st)
    requires raw.modelType in st.coll.types && raw.id.Some?
    ensures var u := Upsert(st, raw, raw.modelType);
            && u.result == Ok(st.nextHandle)
            && u.st.coll == st.coll
            && u.st.heap == st.heap[st.nextHandle := Built(raw)]
            && u.st.nextHandle == st.nextHandle + 1
            && st.nextHandle !in st.heap
            && HandlesBounded(u.st)
  {
    assert Slot(st.coll, raw.modelType, Key(raw.id.value)) == None;
  }

  /** The handles built for a head and for a tail of raw models, put together. */
  lemma BuiltCons(n: nat, raws: seq<RawModel>, rs: seq<Handle>, heap: map<Handle, ModelMeta>)
    requires |raws| > 0 && |rs| == |raws| - 1
    requires forall i :: 0 <= i < |raws| ==> raws[i].id.Some?
    requires n in heap && heap[n] == Built(raws[0])
    requires forall i :: 0 <= i < |rs| ==> rs[i] == n + 1 + i && rs[i] in heap && heap[rs[i]] == Built(raws[1..][i])
    ensures forall i :: 0 <= i < |raws| ==>
              ([n] + rs)[i] == n + i && ([n] + rs)[i] in heap && heap[([n] + rs)[i]] == Built(raws[i])
  {
    forall i | 0 <= i < |raws| ensures ([n] + rs)[i] == n + i && ([n] + rs)[i] in heap && heap[([n] + rs)[i]] == Built(raws[i]) {
      if i > 0 {
        assert raws[1..][i - 1] == raws[i] && ([n] + rs)[i] == rs[i - 1];
      }
    }
  }

  /** The (type, id key) pair under which a collection indexes a model. */
  function IdentityOf(m: ModelMeta): (string, string) {
    (m.modelType, Key(m.id))
  }

  /**
   * Models an insertion pushes one after the other: unowned, with truthy
   * ids and free slots, and no two with the same identity.
   */
  ghost predicate Pushable(st: State, hs: seq<Handle>) {
    && (forall i :: 0 <= i < |hs| ==>
          && hs[i] in st.heap && st.heap[hs[i]].owner.None? && Truthy(st.heap[hs[i]].id)
          && Slot(st.coll, st.heap[hs[i]].modelType, Key(st.heap[hs[i]].id)).None?)
    && (forall i, j :: 0 <= i < j < |hs| ==> IdentityOf(st.heap[hs[i]]) != IdentityOf(st.heap[hs[j]]))
  }

  /** Two heaps hold the same models with the same type, id and fields; owners may differ. */
  ghost predicate SameContent(a: map<Handle, ModelMeta>, b: map<Handle, ModelMeta>) {
    a.Keys == b.Keys &&
    forall h :: h in a ==> b[h].modelType == a[h].modelType && b[h].id == a[h].id && b[h].fields == a[h].fields
  }

  /** Inserting an unowned model with a truthy id into its free slot appends it and changes nothing else it could. */
  lemma InsertPushes(st: State, h: Handle)
    requires Valid(st) && h in st.heap && st.heap[h].owner.None? && Truthy(st.heap[h].id)
    requires Slot(st.coll, st.heap[h].modelType, Key(st.heap[h].id)).None?
    ensures var o := InsertModel(st, h, None);
            && o.result.Ok?
            && Valid(o.st)
            && o.st.coll.data == st.coll.data + [h]
            && SlotsExcept(st.coll, o.st.coll, st.heap[h].modelType, Key(st.heap[h].id), Some(h))
            && SameContent(st.heap, o.st.heap)
            && (forall g :: g in st.heap && g != h ==> o.st.heap[g] == st.heap[g])
  {
    var m := st.heap[h];
    var (c1, existing) := FindByType(st.coll, m.modelType, m.id);
    var st1 := st.(coll := c1);
    assert InsertModel(st, h, None) == Outcome(Push(st1, h, m.modelType), Ok(()));
    InsertModelValid(st, h, None);
    PushIndices(st1, h);
  }

  /** After the first model is pushed, the rest are still pushable. */
  lemma PushableRest(st: State, hs: seq<Handle>)
    requires Valid(st) && Pushable(st, hs) && |hs| > 0
    ensures Pushable(InsertModel(st, hs[0], None).st, hs[1..])
  {
    var h := hs[0];
    InsertPushes(st, h);
    var o1 := InsertModel(st, h, None);
    var rest := hs[1..];
    forall i | 0 <= i < |rest|
      ensures && rest[i] in o1.st.heap && o1.st.heap[rest[i]] == st.heap[rest[i]]
              && Slot(o1.st.coll, st.heap[rest[i]].modelType, Key(st.heap[rest[i]].id)).None?
    {
      assert rest[i] == hs[i + 1];
      assert IdentityOf(st.heap[hs[0]]) != IdentityOf(st.heap[hs[i + 1]]);
    }
    forall i, j | 0 <= i < j < |rest| ensures IdentityOf(o1.st.heap[rest[i]]) != IdentityOf(o1.st.heap[rest[j]]) {
      assert rest[i] == hs[i + 1] && rest[j] == hs[j + 1];
    }
  }

  /** Inserting pushable models appends every one of them, in order, and changes no model's contents. */
  lemma {:induction false} InsertEachPushesAll(st: State, hs: seq<Handle>)
    requires Valid(st) && Pushable(st, hs)
    ensures var o := InsertEach(st, hs);
            && o.result.Ok?
            && Valid(o.st)
            && o.st.coll.data == st.coll.data + hs
            && SameContent(st.heap, o.st.heap)
    decreases |hs|
  {
    if |hs| > 0 {
      var h := hs[0];
      InsertPushes(st, h);
      PushableRest(st, hs);
      var o1 := InsertModel(st, h, None);
      var rest := hs[1..];
      InsertEachPushesAll(o1.st, rest);
      var o2 := InsertEach(o1.st, rest);
      assert InsertEach(st, hs) == o2;
      AppendHeadTail(st.coll.data, hs);
    }
  }

  /** Models built from raw data serialise back to that data, whoever owns them. */
  lemma BuiltSerialise(heap1: map<Handle, ModelMeta>, heap2: map<Handle, ModelMeta>, hs: seq<Handle>, raws: seq<RawModel>)
    requires SameContent(heap1, heap2) && |hs| == |raws|
    requires forall i :: 0 <= i < |hs| ==> raws[i].id.Some? && hs[i] in heap1 && heap1[hs[i]] == Built(raws[i])
    ensures forall i :: 0 <= i < |hs| ==> hs[i] in heap2 && ModelToJSON(heap2[hs[i]]) == raws[i]
  {
    forall i | 0 <= i < |hs| ensures hs[i] in heap2 && ModelToJSON(heap2[hs[i]]) == raws[i] {
      var b := heap2[hs[i]];
      assert b == ModelMeta(raws[i].modelType, raws[i].id.value, b.owner, AttrFields(raws[i].attrs));
      ModelToJSONAttrs(raws[i].modelType, raws[i].id.value, b.owner, raws[i].attrs);
    }
  }

  /** Members of a valid collection with truthy ids and types declared in `blank`. */
  ghost predicate Portable(st: State, blank: State) {
    forall h :: h in st.coll.data ==> h in st.heap && Truthy(st.heap[h].id) && st.heap[h].modelType in blank.coll.types
  }

  /**
   * The snapshot of such a collection lists raw models with declared types
   * and truthy ids, no two with the same identity.
   */
  lemma SnapshotKeys(st: State, blank: State)
    requires Valid(st) && Portable(st, blank)
    ensures DistinctRaws(ToJSON(st).models, blank.coll.types)
  {
    var raws := ToJSON(st).models;
    var d := st.coll.data;
    forall i, j | 0 <= i < j < |raws| && raws[i].id.Some? && raws[j].id.Some?
      ensures IdentityOf(Built(raws[i])) != IdentityOf(Built(raws[j]))
    {
      assert d[i] != d[j];
      assert Indexed(st, d[i]) && Indexed(st, d[j]);
    }
  }

  /** Raw models with declared types and truthy ids, no two with the same identity. */
  ghost predicate DistinctRaws(raws: seq<RawModel>, types: set<string>) {
    && (forall i :: 0 <= i < |raws| ==> raws[i].modelType in types && raws[i].id.Some? && Truthy(raws[i].id.value))
    && (forall i, j :: 0 <= i < j < |raws| && raws[i].id.Some? && raws[j].id.Some? ==>
          IdentityOf(Built(raws[i])) != IdentityOf(Built(raws[j])))
  }

  /** Models built from such raw models, unowned and against an empty slot map, are pushable. */
  lemma BuiltPushable(st: State, hs: seq<Handle>, raws: seq<RawModel>)
    requires st.coll.dataMap == map[] && |hs| == |raws|
    requires DistinctRaws(raws, st.coll.types)
    requires forall i :: 0 <= i < |raws| ==> raws[i].id.Some? && hs[i] in st.heap && st.heap[hs[i]] == Built(raws[i])
    ensures Pushable(st, hs)
  {
    forall i | 0 <= i < |hs|
      ensures Slot(st.coll, st.heap[hs[i]].modelType, Key(st.heap[hs[i]].id)).None?
    {
    }
    forall i, j | 0 <= i < j < |hs| ensures IdentityOf(st.heap[hs[i]]) != IdentityOf(st.heap[hs[j]]) {
      assert st.heap[hs[i]] == Built(raws[i]) && st.heap[hs[j]] == Built(raws[j]);
    }
  }

  /**
   * Inserting the models built from such raw models into a valid collection
   * with no members and no slots, then naming the views, gives a valid
   * collection that serialises to exactly those raw models.
   */
  lemma PushBuilt(st: State, hs: seq<Handle>, raws: seq<RawModel>, staticViews: seq<string>)
    requires Valid(st) && st.coll.data == [] && st.coll.dataMap == map[] && |hs| == |raws|
    requires DistinctRaws(raws, st.coll.types)
    requires forall i :: 0 <= i < |raws| ==> raws[i].id.Some? && hs[i] in st.heap && st.heap[hs[i]] == Built(raws[i])
    ensures var ins := InsertEach(st, hs);
            var v := AddViews(ins.st, staticViews);
            && ins.result.Ok?
            && Valid(v.st)
            && ToJSON(v.st).models == raws
  {
    BuiltPushable(st, hs, raws);
    InsertEachPushesAll(st, hs);
    var ins := InsertEach(st, hs);
    var v := AddViews(ins.st, staticViews);
    ViewsFrameValid(ins.st, v.st.coll.views);
    BuiltSerialise(st.heap, v.st.heap, hs, raws);
  }

  /**
   * The snapshot of a valid collection whose members have truthy ids and
   * declared types, read into a new collection, gives a valid collection
   * that serialises to the same models; the only possible error is a taken
   * view name.
   */
  lemma SnapshotRoundTrip(st: State, blank: State, staticViews: seq<string>)
    requires Valid(st) && Portable(st, blank)
    requires IsNew(blank) && TypesNamed(blank) && HandlesBounded(blank)
    ensures var o := Construct(blank, ToJSON(st), staticViews);
            && Valid(o.st)
            && (o.result.Err? ==> o.result.error.NameTaken?)
            && ToJSON(o.st).models == ToJSON(st).models
  {
    var raws := ToJSON(st).models;
    SnapshotKeys(st, blank);
    InitModelsFresh(blank, raws);
    NewValid(blank);
    InitModelsValid(blank, raws);
    var init := InitModels(blank, raws);
    var hs := init.result.value;
    PushBuilt(init.st, hs, raws, staticViews);
    assert Insert(blank, raws) == Outcome(InsertEach(init.st, hs).st, Ok(hs));
  }

  /** `h2` is `h1` with model `h` unowned; every other model keeps its owner, and all keep type and id. */
  ghost predicate Disowned(h1: map<Handle, ModelMeta>, h2: map<Handle, ModelMeta>, h: Handle) {
    && (forall g :: g in h1 <==> g in h2)
    && forall g :: g in h1 ==>
         && h2[g].modelType == h1[g].modelType && h2[g].id == h1[g].id
         && h2[g].owner == (if g == h then None else h1[g].owner)
  }

  /** A disowning keeps every model, with its type. */
  lemma DisownedKeeps(h1: map<Handle, ModelMeta>, h2: map<Handle, ModelMeta>, h: Handle)
    requires Disowned(h1, h2, h)
    ensures forall g :: g in h1 ==> g in h2 && h2[g].modelType == h1[g].modelType
  {
  }

  /** How removal changes the indices, when the model's list and slot map exist. */
  lemma DetachIndices(st: State, h: Handle)
    requires h in st.heap && st.heap[h].modelType in st.coll.dataList && st.heap[h].modelType in st.coll.dataMap
    ensures var d := Detach(st, h);
            var T := st.heap[h].modelType;
            && d.result.Ok?
            && SlotsExcept(st.coll, d.st.coll, T, Key(st.heap[h].id), None)
            && ListsExcept(st.coll, d.st.coll, T, RemoveFirst(ListOf(st.coll, T), h))
  {
  }

  /** Removal changes no model's type or id, and unowns only the removed model. */
  lemma RemoveDisowns(st: State, h: Handle, scan: Scanning)
    requires h in st.heap
    ensures var o := RemoveModel(st, h, scan);
            o.result.Ok? ==> o.st.coll == Detach(st, h).st.coll && Disowned(st.heap, o.st.heap, h)
  {
  }

  lemma RemoveMembersIndexed(st: State, st2: State, h: Handle)
    requires MembersIndexed(st) && h in st.coll.data && ListsSound(st)
    requires h !in st2.coll.data && forall g :: g in st2.coll.data ==> g in st.coll.data
    requires st2.coll.self == st.coll.self
    requires SlotsExcept(st.coll, st2.coll, st.heap[h].modelType, Key(st.heap[h].id), None)
    requires ListsExcept(st.coll, st2.coll, st.heap[h].modelType, RemoveFirst(ListOf(st.coll, st.heap[h].modelType), h))
    requires Disowned(st.heap, st2.heap, h)
    ensures MembersIndexed(st2)
  {
    assert Indexed(st, h);
    forall g | g in st2.coll.data ensures Indexed(st2, g) {
      assert Indexed(st, g);
    }
  }

  /** Removal keeps every type list pointing at members of that type. */
  lemma RemoveListsSound(st: State, st2: State, h: Handle)
    requires forall t, g :: g in ListOf(st.coll, t) ==> g in st.coll.data && g in st.heap && st.heap[g].modelType == t
    requires h in st.heap && NoDup(ListOf(st.coll, st.heap[h].modelType))
    requires forall g :: g in st.coll.data && g != h ==> g in st2.coll.data
    requires ListsExcept(st.coll, st2.coll, st.heap[h].modelType, RemoveFirst(ListOf(st.coll, st.heap[h].modelType), h))
    requires forall g :: g in st.heap ==> g in st2.heap && st2.heap[g].modelType == st.heap[g].modelType
    ensures forall t, g :: g in ListOf(st2.coll, t) ==> g in st2.coll.data && g in st2.heap && st2.heap[g].modelType == t
  {
    var th := st.heap[h].modelType;
    RemainingMembers(ListOf(st.coll, th), h);
    forall t, g | g in ListOf(st2.coll, t) ensures g in st2.coll.data && g in st2.heap && st2.heap[g].modelType == t {
      if t == th {
        assert g in RemoveFirst(ListOf(st.coll, th), h);
      } else {
        assert g in ListOf(st.coll, t);
      }
      assert g in ListOf(st.coll, t) && g != h;
      assert g in st.heap && st.heap[g].modelType == t;
    }
  }

  /** What is left after removing `h` from a duplicate-free list was there before and is not `h`. */
  lemma RemainingMembers(l: seq<Handle>, h: Handle)
    requires NoDup(l)
    ensures forall g :: g in RemoveFirst(l, h) ==> g in l && g != h
  {
    RemoveFirstNoDup(l, h);
  }

  lemma RemoveListsNoDup(st: State, st2: State, h: Handle)
    requires forall t :: NoDup(ListOf(st.coll, t))
    requires h in st.heap
    requires ListsExcept(st.coll, st2.coll, st.heap[h].modelType, RemoveFirst(ListOf(st.coll, st.heap[h].modelType), h))
    ensures forall t :: NoDup(ListOf(st2.coll, t))
    ensures NoDup(ListOf(st.coll, st.heap[h].modelType))
  {
    forall t ensures NoDup(ListOf(st2.coll, t)) {
      assert NoDup(ListOf(st.coll, t));
      if t == st.heap[h].modelType {
        RemoveFirstNoDup(ListOf(st.coll, t), h);
      }
    }
  }

  lemma RemoveSlotsSound(st: State, st2: State, h: Handle)
    requires SlotsSound(st) && h in st.heap
    requires forall g :: g in st.coll.data && g != h ==> g in st2.coll.data
    requires SlotsExcept(st.coll, st2.coll, st.heap[h].modelType, Key(st.heap[h].id), None)
    requires Disowned(st.heap, st2.heap, h)
    ensures SlotsSound(st2)
  {
    forall t, k ensures SlotSound(st2, t, k) {
      assert SlotSound(st, t, k);
    }
  }

  /**
   * Removing an owned model succeeds, keeps the invariant, shortens `data`
   * by one, and leaves the model unowned.
   */
  lemma RemoveModelValid(st: State, h: Handle, scan: Scanning)
    requires Valid(st) && h in st.heap && h in st.coll.data
    ensures var o := RemoveModel(st, h, scan);
            && o.result.Ok?
            && Valid(o.st)
            && h !in o.st.coll.data
            && |o.st.coll.data| == |st.coll.data| - 1
            && o.st.heap[h].owner.None?
  {
    var T := st.heap[h].modelType;
    assert Indexed(st, h);
    assert T in st.coll.dataList;
    assert T in st.coll.dataMap;
    DetachIndices(st, h);
    RemoveDisowns(st, h, scan);
    RemoveFirstNoDup(st.coll.data, h);
    RemovalValid(st, RemoveModel(st, h, scan).st, h);
  }

  /** Any state that differs from a valid one as a removal does is valid. */
  lemma RemovalValid(st: State, st2: State, h: Handle)
    requires Valid(st) && h in st.heap && h in st.coll.data
    requires st2.coll.self == st.coll.self && st2.coll.types == st.coll.types && st2.nextHandle == st.nextHandle
    requires st2.coll.data == RemoveFirst(st.coll.data, h)
    requires h !in st2.coll.data && NoDup(st2.coll.data)
    requires forall g :: g in st2.coll.data <==> g in st.coll.data && g != h
    requires SlotsExcept(st.coll, st2.coll, st.heap[h].modelType, Key(st.heap[h].id), None)
    requires ListsExcept(st.coll, st2.coll, st.heap[h].modelType, RemoveFirst(ListOf(st.coll, st.heap[h].modelType), h))
    requires Disowned(st.heap, st2.heap, h)
    ensures Valid(st2)
  {
    assert RemovedFrom(st, st2, h);
    RemovalKeepsLists(st, st2, h);
    RemovalKeepsRest(st, st2, h);
    ValidOfParts(st2);
  }

  /** How `st2` differs from `st` after `h` is removed. */
  ghost predicate RemovedFrom(st: State, st2: State, h: Handle) {
    && h in st.heap && h in st.coll.data
    && st2.coll.self == st.coll.self && st2.coll.types == st.coll.types && st2.nextHandle == st.nextHandle
    && h !in st2.coll.data
    && (forall g :: g in st2.coll.data <==> g in st.coll.data && g != h)
    && SlotsExcept(st.coll, st2.coll, st.heap[h].modelType, Key(st.heap[h].id), None)
    && ListsExcept(st.coll, st2.coll, st.heap[h].modelType, RemoveFirst(ListOf(st.coll, st.heap[h].modelType), h))
    && Disowned(st.heap, st2.heap, h)
  }

  /** The type lists stay sound across a removal. */
  lemma RemovalKeepsLists(st: State, st2: State, h: Handle)
    requires ListsSound(st) && RemovedFrom(st, st2, h)
    ensures ListsSound(st2)
  {
    RemoveListsNoDup(st, st2, h);
    DisownedKeeps(st.heap, st2.heap, h);
    RemoveListsSound(st, st2, h);
  }

  /** The frame, the member index and the id slots stay sound across a removal. */
  lemma RemovalKeepsRest(st: State, st2: State, h: Handle)
    requires Valid(st) && RemovedFrom(st, st2, h)
    ensures TypesNamed(st2) && HandlesBounded(st2) && OwnedAreMembers(st2)
    ensures MembersIndexed(st2) && SlotsSound(st2)
  {
    RemovalFrame(st, st2, h);
    RemoveMembersIndexed(st, st2, h);
    RemoveSlotsSound(st, st2, h);
  }

  /** The invariant, assembled from its parts. */
  lemma ValidOfParts(st: State)
    requires TypesNamed(st) && HandlesBounded(st) && NoDup(st.coll.data) && MembersIndexed(st)
    requires ListsSound(st) && SlotsSound(st) && OwnedAreMembers(st)
    ensures Valid(st)
  {
  }

  lemma RemovalFrame(st: State, st2: State, h: Handle)
    requires TypesNamed(st) && HandlesBounded(st) && OwnedAreMembers(st)
    requires st2.coll.self == st.coll.self && st2.coll.types == st.coll.types && st2.nextHandle == st.nextHandle
    requires forall g :: g in st2.coll.data <==> g in st.coll.data && g != h
    requires Disowned(st.heap, st2.heap, h)
    ensures TypesNamed(st2) && HandlesBounded(st2) && OwnedAreMembers(st2)
  {
  }

  /**
   * Removing a list of distinct members one by one keeps the invariant and
   * leaves exactly the members not in the list.
   */
  lemma {:induction false} RemoveEachValid(st: State, hs: seq<Handle>, scan: Scanning)
    requires Valid(st) && NoDup(hs) && forall i :: 0 <= i < |hs| ==> hs[i] in st.coll.data
    ensures forall i :: 0 <= i < |hs| ==> hs[i] in st.heap
    ensures var o := RemoveEach(st, hs, scan);
            && o.result.Ok?
            && Valid(o.st)
            && |o.st.coll.data| == |st.coll.data| - |hs|
            && (forall g :: g in o.st.coll.data <==> g in st.coll.data && g !in hs)
    decreases |hs|
  {
    if |hs| > 0 {
      var h := hs[0];
      assert Indexed(st, h);
      RemoveModelValid(st, h, scan);
      RemoveFirstNoDup(st.coll.data, h);
      var o1 := RemoveModel(st, h, scan);
      var rest := hs[1..];
      NoDupTail(hs);
      forall i | 0 <= i < |rest| ensures rest[i] in o1.st.coll.data {
        assert rest[i] == hs[i + 1];
      }
      RemoveEachValid(o1.st, rest, scan);
      var o2 := RemoveEach(o1.st, rest, scan);
      assert RemoveEach(st, hs, scan) == o2;
      forall i | 0 <= i < |hs| ensures hs[i] in st.heap {
        if i > 0 { assert hs[i] == rest[i - 1]; }
      }
      forall g ensures g in o2.st.coll.data <==> g in st.coll.data && g !in hs {
        assert g in hs <==> g == h || g in rest;
      }
    }
  }

  /**
   * `removeAll(type)` keeps the invariant and leaves exactly the members of
   * other types; with a falsy type it removes every member.
   */
  lemma RemoveAllValid(st: State, t: string, scan: Scanning)
    requires Valid(st)
    ensures var o := RemoveAll(st, t, scan);
            && o.result.Ok?
            && Valid(o.st)
            && (t != "" ==> forall g :: g in o.st.coll.data <==> g in st.coll.data && g in st.heap && st.heap[g].modelType != t)
            && (t == "" ==> o.st.coll.data == [])
  {
    var (c1, list) := FindAll(st.coll, Some(t));
    SameIndexValid(st, c1);
    var st1 := st.(coll := c1);
    assert forall g :: g in st.coll.data ==> Indexed(st, g);
    RemoveEachValid(st1, list, scan);
  }

  /**
   * `removeOne(ref)` naming a member's own type and id clears the member's
   * slot but leaves it in `data` and owned, so the invariant no longer holds.
   */
  lemma RemoveByRefKeepsMember(st: State, h: Handle, scan: Scanning)
    requires Valid(st) && h in st.heap && h in st.coll.data
    ensures var o := RemoveOne(st, ModelRef(Ref(st.heap[h].modelType, st.heap[h].id)), None, scan);
            && o.result.Ok?
            && h in o.st.coll.data
            && o.st.heap[h].owner == Some(st.coll.self)
            && Slot(o.st.coll, st.heap[h].modelType, Key(st.heap[h].id)).None?
            && !Valid(o.st)
  {
    assert Indexed(st, h);
  }

  /** `reset()` keeps the invariant and leaves no model owned by the collection. */
  lemma ResetValid(st: State)
    requires Valid(st)
    ensures Valid(Reset(st))
    ensures forall h :: h in Reset(st).heap ==> Reset(st).heap[h].owner != Some(st.coll.self)
  {
  }

  /** A relationship field whose bucket still holds `target`. */
  ghost predicate Mentions(f: Field, target: Target) {
    && f.Rel?
    && Buckets.Wellformed(f.bucket)
    && var v := Buckets.Value(f.bucket);
       (v.Multiple? && target in v.items) || (v.Single? && v.item == Some(target))
  }

  /** After removal (as intended), no model left in the collection points at the removed model. */
  lemma RemoveModelNoDangling(st: State, h: Handle)
    requires h in st.heap
    ensures var o := RemoveModel(st, h, AsIntended);
            o.result.Ok? ==>
              forall g, name :: g in o.st.coll.data && g in o.st.heap && name in o.st.heap[g].fields ==>
                !Mentions(o.st.heap[g].fields[name], ModelTarget(h))
  {
    var d := Detach(st, h);
    var o := RemoveModel(st, h, AsIntended);
    if o.result.Ok? {
      forall g, name | g in o.st.coll.data && g in o.st.heap && name in o.st.heap[g].fields
        ensures !Mentions(o.st.heap[g].fields[name], ModelTarget(h))
      {
        assert g in d.st.coll.data;
        assert o.st.heap[g].fields == StripModel(st.heap[g], ModelTarget(h)).fields;
        StripFieldClears(st.heap[g].fields[name], ModelTarget(h));
      }
    }
  }

  // ---------------------------------------------------------------------
  // The order kept by the filters: each distributes over concatenation
  // ---------------------------------------------------------------------

  /** `filter(test)` over two runs of members is the filter of the first run, then of the second. */
  lemma FilterAppend(c: Coll, a: seq<Handle>, b: seq<Handle>, test: Handle -> bool)
    ensures Filter(c.(data := a + b), test) == Filter(c.(data := a), test) + Filter(c.(data := b), test)
  {
    KeepPassingAppend(a, b, test);
  }

  lemma {:induction false} KeepPassingAppend(a: seq<Handle>, b: seq<Handle>, test: Handle -> bool)
    ensures KeepPassing(a + b, test) == KeepPassing(a, test) + KeepPassing(b, test)
    decreases |a|
  {
    if |a| > 0 {
      assert (a + b)[1..] == a[1..] + b;
      KeepPassingAppend(a[1..], b, test);
    } else {
      assert a + b == b;
    }
  }

  /** `filter(Boolean)` distributes over concatenation. */
  lemma TruthyOnlyAppend(a: seq<Datum>, b: seq<Datum>)
    ensures TruthyOnly(a + b) == TruthyOnly(a) + TruthyOnly(b)
  {
    KeepTruthyAppend(a, b);
  }

  lemma {:induction false} KeepTruthyAppend(a: seq<Datum>, b: seq<Datum>)
    ensures KeepTruthy(a + b) == KeepTruthy(a) + KeepTruthy(b)
    decreases |a|
  {
    if |a| > 0 {
      assert (a + b)[1..] == a[1..] + b;
      KeepTruthyAppend(a[1..], b);
    } else {
      assert a + b == b;
    }
  }

  /** Dropping a target from a to-many bucket distributes over concatenation. */
  lemma {:induction false} WithoutAppend(a: seq<Target>, b: seq<Target>, target: Target)
    ensures Without(a + b, target) == Without(a, target) + Without(b, target)
    decreases |a|
  {
    if |a| > 0 {
      assert (a + b)[1..] == a[1..] + b;
      WithoutAppend(a[1..], b, target);
    } else {
      assert a + b == b;
    }
  }

  /** A stripped field no longer mentions the target. */
  lemma StripFieldClears(f: Field, target: Target)
    ensures !Mentions(StripField(f, target), target)
  {
  }

  /** Stripping one target leaves every other target a field mentions in place. */
  lemma StripFieldKeepsOthers(f: Field, target: Target, other: Target)
    requires other != target && Mentions(f, other)
    ensures Mentions(StripField(f, target), other)
  {
    var v := Buckets.Value(f.bucket);
    if v.Multiple? && target in v.items {
      assert other in Without(v.items, target);
    }
  }

  /**
   * After removal as written, every remaining model other than the removed
   * one still mentions the removed model wherever it did before: the scan
   * strips each model's buckets of that model itself, never of the removed one.
   */
  lemma RemoveAsWrittenKeepsMentions(st: State, h: Handle)
    requires h in st.heap
    ensures var o := RemoveModel(st, h, AsWritten);
            forall g, name :: g in o.st.coll.data && g in st.heap && g != h && name in st.heap[g].fields &&
                              Mentions(st.heap[g].fields[name], ModelTarget(h)) ==>
              name in o.st.heap[g].fields && Mentions(o.st.heap[g].fields[name], ModelTarget(h))
  {
    var d := Detach(st, h);
    var o := RemoveModel(st, h, AsWritten);
    forall g, name | g in o.st.coll.data && g in st.heap && g != h && name in st.heap[g].fields &&
                     Mentions(st.heap[g].fields[name], ModelTarget(h))
      ensures name in o.st.heap[g].fields && Mentions(o.st.heap[g].fields[name], ModelTarget(h))
    {
      if d.result.Ok? {
        assert g in d.st.coll.data;
        assert o.st.heap[g].fields == StripModel(st.heap[g], ModelTarget(g)).fields;
        StripFieldKeepsOthers(st.heap[g].fields[name], ModelTarget(g), ModelTarget(h));
      }
    }
  }

  /** A concrete collection: post 0 has author user 1; both are owned by collection 1. */
  function AuthorExample(): State {
    var author := Buckets.New(Buckets.Single(Some(ModelTarget(1))), Some(1));
    var post := ModelMeta("post", StrId("1"), Some(1), map["author" := Rel("user", author)]);
    var user := ModelMeta("user", StrId("1"), Some(1), map[]);
    State(
      Coll(1, {"post", "user"}, [0, 1],
           map["post" := [0], "user" := [1]],
           map["post" := map["1" := Some(0)], "user" := map["1" := Some(1)]],
           []),
      map[0 := post, 1 := user], 2, map[])
  }

  /** The example satisfies the invariant. */
  lemma AuthorExampleValid()
    ensures Valid(AuthorExample())
  {
    AuthorSlotsSound();
    AuthorMembersIndexed();
    AuthorListsSound();
  }

  lemma AuthorSlotsSound()
    ensures SlotsSound(AuthorExample())
  {
    var st := AuthorExample();
    forall t, k ensures SlotSound(st, t, k) {
      if t == "post" {
        assert Slot(st.coll, t, k) == (if k == "1" then Some(0) else None);
      } else if t == "user" {
        assert Slot(st.coll, t, k) == (if k == "1" then Some(1) else None);
      } else {
        assert Slot(st.coll, t, k) == None;
      }
    }
  }

  lemma AuthorMembersIndexed()
    ensures MembersIndexed(AuthorExample())
  {
    var st := AuthorExample();
    assert Indexed(st, 0);
    assert Indexed(st, 1);
  }

  lemma AuthorListsSound()
    ensures ListsSound(AuthorExample())
  {
    var st := AuthorExample();
    forall t ensures NoDup(ListOf(st.coll, t)) && forall g :: g in ListOf(st.coll, t) ==> g in st.coll.data && g in st.heap && st.heap[g].modelType == t {
      if t == "post" {
        assert ListOf(st.coll, t) == [0];
      } else if t == "user" {
        assert ListOf(st.coll, t) == [1];
      } else {
        assert ListOf(st.coll, t) == [];
      }
    }
  }

  /**
   * The reference scan as written strips each remaining model of references
   * to itself, so removing the user leaves the post pointing at it.
   */
  lemma RemoveAsWrittenLeavesDangling()
    ensures var o := RemoveModel(AuthorExample(), 1, AsWritten);
            o.result.Ok? && 0 in o.st.coll.data && 0 in o.st.heap && "author" in o.st.heap[0].fields &&
            Mentions(o.st.heap[0].fields["author"], ModelTarget(1))
  {
    var st := AuthorExample();
    var d := Detach(st, 1);
    assert d.st.coll.data == [0];
  }

  /** With the scan as intended, the same removal clears the post's author. */
  lemma RemoveClearsAuthor()
    ensures var o := RemoveModel(AuthorExample(), 1, AsIntended);
            o.result.Ok? && 0 in o.st.coll.data && 0 in o.st.heap && "author" in o.st.heap[0].fields &&
            !Mentions(o.st.heap[0].fields["author"], ModelTarget(1))
  {
    AuthorExampleValid();
    RemoveModelValid(AuthorExample(), 1, AsIntended);
    RemoveModelNoDangling(AuthorExample(), 1);
    var st := AuthorExample();
    var d := Detach(st, 1);
    assert d.st.coll.data == [0];
  }

  /**
   * Renaming a model's id to a free key keeps the invariant once the model
   * carries the new id.
   */
  lemma ChangeModelIdValid(st: State, h: Handle, newId: Identifier)
    requires Valid(st) && h in st.heap && h in st.coll.data
    requires Key(newId) != Key(st.heap[h].id)
    requires Slot(st.coll, st.heap[h].modelType, Key(newId)).None?
    ensures var o := ChangeModelId(st, st.heap[h].id, newId, st.heap[h].modelType);
            o.result.Ok? && Valid(o.st.(heap := o.st.heap[h := o.st.heap[h].(id := newId)]))
  {
    var T := st.heap[h].modelType;
    var oldK := Key(st.heap[h].id);
    var newK := Key(newId);
    assert Indexed(st, h);
    var o := ChangeModelId(st, st.heap[h].id, newId, T);
    var st2 := o.st.(heap := o.st.heap[h := o.st.heap[h].(id := newId)]);
    var mid := st.coll.(dataMap := st.coll.dataMap[T := st.coll.dataMap[T][newK := Some(h)]]);
    assert SlotsExcept(st.coll, mid, T, newK, Some(h));
    assert SlotsExcept(mid, st2.coll, T, oldK, None);
    RenameValid(st, st2, mid, h, newId);
  }

  /** Any state that differs from a valid one as a rename does, through the intermediate slots `mid`, is valid. */
  lemma RenameValid(st: State, st2: State, mid: Coll, h: Handle, newId: Identifier)
    requires Valid(st) && h in st.heap && h in st.coll.data
    requires Key(newId) != Key(st.heap[h].id)
    requires Slot(st.coll, st.heap[h].modelType, Key(newId)).None?
    requires st2.coll.data == st.coll.data && st2.coll.self == st.coll.self && st2.coll.dataList == st.coll.dataList
    requires st2.coll.types == st.coll.types && st2.nextHandle == st.nextHandle
    requires st2.heap == st.heap[h := st.heap[h].(id := newId)]
    requires SlotsExcept(st.coll, mid, st.heap[h].modelType, Key(newId), Some(h))
    requires SlotsExcept(mid, st2.coll, st.heap[h].modelType, Key(st.heap[h].id), None)
    ensures Valid(st2)
  {
    ChangeIdMembersIndexed(st, st2, mid, h, newId);
    ChangeIdSlotsSound(st, st2, mid, h, newId);
    assert ListsSound(st2) by {
      assert forall t :: ListOf(st2.coll, t) == ListOf(st.coll, t);
    }
  }

  lemma ChangeIdMembersIndexed(st: State, st2: State, mid: Coll, h: Handle, newId: Identifier)
    requires MembersIndexed(st) && h in st.heap && h in st.coll.data
    requires Key(newId) != Key(st.heap[h].id)
    requires Slot(st.coll, st.heap[h].modelType, Key(newId)).None?
    requires st2.coll.data == st.coll.data && st2.coll.self == st.coll.self && st2.coll.dataList == st.coll.dataList
    requires st2.heap == st.heap[h := st.heap[h].(id := newId)]
    requires SlotsExcept(st.coll, mid, st.heap[h].modelType, Key(newId), Some(h))
    requires SlotsExcept(mid, st2.coll, st.heap[h].modelType, Key(st.heap[h].id), None)
    ensures MembersIndexed(st2)
  {
    assert Indexed(st, h);
    forall g | g in st2.coll.data ensures Indexed(st2, g) {
      assert Indexed(st, g);
    }
  }

  lemma ChangeIdSlotsSound(st: State, st2: State, mid: Coll, h: Handle, newId: Identifier)
    requires SlotsSound(st) && MembersIndexed(st) && h in st.coll.data && h in st.heap
    requires Key(newId) != Key(st.heap[h].id)
    requires st2.coll.data == st.coll.data
    requires st2.heap == st.heap[h := st.heap[h].(id := newId)]
    requires SlotsExcept(st.coll, mid, st.heap[h].modelType, Key(newId), Some(h))
    requires SlotsExcept(mid, st2.coll, st.heap[h].modelType, Key(st.heap[h].id), None)
    ensures SlotsSound(st2)
  {
    assert Indexed(st, h);
    forall t, k ensures SlotSound(st2, t, k) {
      assert SlotSound(st, t, k);
    }
  }

  /** Renaming an id to one with the same key deletes the slot: the model can no longer be found by id. */
  lemma ChangeModelIdSameKeyDropsSlot(st: State, oldId: Identifier, newId: Identifier, t: string)
    requires t in st.coll.dataMap && Key(oldId) == Key(newId)
    ensures var o := ChangeModelId(st, oldId, newId, t);
            o.result.Ok? && Slot(o.st.coll, t, Key(newId)).None?
  {
  }
}

=== FILE: ident.dfy ===
/**
 * Model identity: identifiers, the string keys the collection indexes them
 * by, and the handles that stand for model and collection objects.
 */
module Ident {
  import Strings

  /** An opaque handle standing for one model object (object identity). */
  type Handle = nat

  /** An opaque handle standing for one collection object. */
  type CollectionId = nat

  /** A model id is a number or a string (`IIdentifier`). */
  datatype Identifier = NumId(n: int) | StrId(s: string)

  /** `id.toString()`: the key under which the collection indexes a model. */
  function Key(id: Identifier): string {
    match id
    case NumId(n) => Strings.IntToString(n)
    case StrId(s) => s
  }

  /** JavaScript truthiness of an id: `0` and `""` are falsy. */
  predicate Truthy(id: Identifier) {
    match id
    case NumId(n) => n != 0
    case StrId(s) => s != ""
  }

  /** A model reference `{type, id}` (`IModelRef`). */
  datatype Ref = Ref(modelType: string, id: Identifier)

  /**
   * What a relationship bucket stores for one related record: a live model,
   * or the bare id of a record that could not be found.
   */
  datatype Target = ModelTarget(h: Handle) | BareId(id: Identifier)
}

=== FILE: json.dfy ===
/**
 * JavaScript values as they reach the modelled code: raw field data, filter
 * trees and response metadata. Objects keep their members in `Object.keys`
 * order, which is the order every serialiser below walks them in.
 */
module Json {
  import Strings

  datatype Json =
    | Undefined
    | Null
    | Bool(b: bool)
    | Num(n: int)
    | Str(s: string)
    | Arr(items: seq<Json>)
    | Obj(members: seq<Member>)

  datatype Member = Member(key: string, value: Json)

  /** `null` or `undefined`. */
  predicate IsNullish(v: Json) {
    v.Undefined? || v.Null?
  }

  /** JavaScript truthiness: `Boolean(v)`. Arrays and objects are truthy even when empty. */
  predicate Truthy(v: Json) {
    match v
    case Undefined => false
    case Null => false
    case Bool(b) => b
    case Num(n) => n != 0
    case Str(s) => s != ""
    case Arr(_) => true
    case Obj(_) => true
  }

  /** `String(v)`, which is also what a template literal `${v}` produces. */
  function Render(v: Json): string
  {
    match v
    case Undefined => "undefined"
    case Null => "null"
    case Bool(b) => if b then "true" else "false"
    case Num(n) => Strings.IntToString(n)
    case Str(s) => s
    case Arr(items) => JoinValues(items, ",")
    case Obj(_) => "[object Object]"
  }

  /** `items.join(sep)`: nullish elements contribute the empty string. */
  function JoinValues(items: seq<Json>, sep: string): string
  {
    if |items| == 0 then ""
    else
      var head := if IsNullish(items[0]) then "" else Render(items[0]);
      if |items| == 1 then head else head + sep + JoinValues(items[1..], sep)
  }

  /** The strings held by an array of string values. */
  function Strs(items: seq<Json>): seq<string>
    requires forall i :: 0 <= i < |items| ==> items[i].Str?
  {
    seq(|items|, i requires 0 <= i < |items| => items[i].s)
  }

  /** Joining string values is joining their strings. */
  lemma {:induction false} JoinValuesOfStrings(items: seq<Json>, sep: string)
    requires forall i :: 0 <= i < |items| ==> items[i].Str?
    ensures JoinValues(items, sep) == Strings.Join(Strs(items), sep)
  {
    if |items| > 1 {
      JoinValuesOfStrings(items[1..], sep);
      assert Strs(items[1..]) == Strs(items)[1..];
    }
  }
}

=== FILE: jsonapi.dfy ===
/**
 * The JSON:API collection of packages/datx-jsonapi/src/decorateCollection.ts:
 * normalising a response document into the collection (`sync`), the older
 * request-URL builder of the class, error handling of a response and the
 * local (non-remote) `remove`.
 *
 * The class looks records up with `this.find(type, id)`. That is read here as
 * the (type, id) index lookup: a falsy id finds nothing, otherwise the slot
 * of the type and id key is read (writing a placeholder, as `findOne` does).
 */
module JsonapiCollection {
  import opened Wrappers
  import opened Ident
  import Json
  import Utils
  import Buckets
  import opened Collection
  import Url
  import Strings

  /** A resource identifier object `{type, id}` (`IDefinition`). */
  datatype ResourceId = ResourceId(modelType: string, id: Identifier)

  /** One member of a resource's `relationships`: its name and its `data` (null, one identifier or a list). */
  datatype Relationship = Relationship(name: string, data: Utils.Items<ResourceId>)

  /** A resource object (`IRecord`): type, id, attributes and relationships in key order. */
  datatype Record = Record(
    modelType: string,
    id: Identifier,
    attrs: map<string, Json.Json>,
    relationships: seq<Relationship>)

  /** A response document (`IResponse`): the primary `data` (null, one resource or a list) and `included`. */
  datatype Document = Document(data: Utils.Items<Record>, included: seq<Record>)

  /** A network response: its `error` (`undefined` when there is none) and its document. */
  datatype Response = Response(error: Json.Json, document: Option<Document>)

  // ---------------------------------------------------------------------
  // Lookup
  // ---------------------------------------------------------------------

  /** `this.find(type, id)`: the model at the (type, id) slot, if any. */
  function Lookup(c: Coll, t: string, id: Identifier): (r: (Coll, Option<Handle>))
    ensures SameIndex(c, r.0)
    ensures !Truthy(id) || t == "" ==> r.1 == None
    ensures Truthy(id) && t != "" ==> r.1 == Slot(c, t, Key(id))
  {
    if !Truthy(id) then (c, None) else FindByType(c, t, id)
  }

  /** The model a lookup of `(t, id)` finds in the heap, read from the index of `st`. */
  function Occupant(st: State, t: string, id: Identifier): Option<Handle> {
    if Truthy(id) && t != "" && Slot(st.coll, t, Key(id)).Some? && Slot(st.coll, t, Key(id)).value in st.heap
    then Slot(st.coll, t, Key(id))
    else None
  }

  // ---------------------------------------------------------------------
  // Pass 1: records
  // ---------------------------------------------------------------------

  /** `flattenModel(obj)`: the raw model of a resource (its type, id and attributes). */
  function Flattened(rec: Record): RawModel {
    RawModel(rec.modelType, Some(rec.id), rec.attrs)
  }

  /**
   * `__addRecord(obj)`: a record already at (type, id) is updated in place;
   * otherwise a declared type is added as raw data of that type, and any
   * other type becomes a generic model that is added as it is. The handle of
   * the record's model is returned.
   */
  function AddRecord(st: State, rec: Record): (o: Outcome<Handle>)
    ensures st.heap.Keys <= o.st.heap.Keys
    ensures |st.coll.data| <= |o.st.coll.data| && o.st.coll.data[..|st.coll.data|] == st.coll.data
    ensures o.result.Ok? ==> o.result.value in o.st.heap
    ensures o.st.coll.self == st.coll.self && o.st.coll.types == st.coll.types
    ensures Occupant(st, rec.modelType, rec.id).Some? ==>
      var e := Occupant(st, rec.modelType, rec.id).value;
      && o.result == Ok(e)
      && o.st.coll.data == st.coll.data
      && o.st.heap == st.heap[e := UpdateAttrs(st.heap[e], AttrFields(rec.attrs))]
  {
    var (c1, found) := Lookup(st.coll, rec.modelType, rec.id);
    var st1 := st.(coll := c1);
    if found.Some? && found.value in st.heap then
      var e := found.value;
      Outcome(st1.(heap := st.heap[e := UpdateAttrs(st.heap[e], AttrFields(rec.attrs))]), Ok(e))
    else if rec.modelType in st.coll.types then AddDeclared(st1, rec)
    else AddGeneric(st1, rec)
  }

  /** `this.add(flattened, obj.type)`: a record of a declared type is added as raw data of that type. */
  function AddDeclared(st: State, rec: Record): (o: Outcome<Handle>)
    ensures st.heap.Keys <= o.st.heap.Keys
    ensures |st.coll.data| <= |o.st.coll.data| && o.st.coll.data[..|st.coll.data|] == st.coll.data
    ensures o.result.Ok? ==> o.result.value in o.st.heap
    ensures o.st.coll.self == st.coll.self && o.st.coll.types == st.coll.types
  {
    var o := AddSingle(st, Raw(Flattened(rec)), Some(rec.modelType));
    Outcome(o.st, if o.result.Ok? then Ok(o.result.value.h) else Err(o.result.error))
  }

  /** `new PureModel(flattened)`: the record's type, id and attributes as an unowned model. */
  function GenericOf(rec: Record): ModelMeta {
    ModelMeta(rec.modelType, rec.id, None, AttrFields(rec.attrs))
  }

  /** `this.add(new PureModel(flattened))`: any other record becomes a fresh model that is added as it is. */
  function AddGeneric(st: State, rec: Record): (o: Outcome<Handle>)
    ensures st.heap.Keys <= o.st.heap.Keys
    ensures |st.coll.data| <= |o.st.coll.data| && o.st.coll.data[..|st.coll.data|] == st.coll.data
    ensures o.result.Ok? ==> o.result.value in o.st.heap
    ensures o.st.coll.self == st.coll.self && o.st.coll.types == st.coll.types
  {
    var o := AddSingle(WithModel(st, GenericOf(rec)), Instance(st.nextHandle), None);
    Outcome(o.st, if o.result.Ok? then Ok(st.nextHandle) else Err(o.result.error))
  }

  /** `mapItems(list, addRecord)`: the records in order; an error stops the walk. */
  function AddRecords(st: State, recs: seq<Record>): (o: Outcome<seq<Handle>>)
    ensures st.heap.Keys <= o.st.heap.Keys
    ensures |st.coll.data| <= |o.st.coll.data| && o.st.coll.data[..|st.coll.data|] == st.coll.data
    ensures o.st.coll.self == st.coll.self && o.st.coll.types == st.coll.types
    ensures o.result.Ok? ==> |o.result.value| == |recs|
    ensures o.result.Ok? ==> forall i :: 0 <= i < |recs| ==> o.result.value[i] in o.st.heap
    decreases |recs|
  {
    if |recs| == 0 then Outcome(st, Ok([]))
    else
      var o := AddRecord(st, recs[0]);
      if o.result.Err? then Outcome(o.st, Err(o.result.error))
      else
        var rest := AddRecords(o.st, recs[1..]);
        assert rest.st.coll.data[..|st.coll.data|] == rest.st.coll.data[..|o.st.coll.data|][..|st.coll.data|];
        Outcome(rest.st, if rest.result.Ok? then Ok([o.result.value] + rest.result.value) else Err(rest.result.error))
  }

  /** The entries of a `data` member as `(data || [])` walks them: none for `null`, one for a single item. */
  function Entries<T>(data: Utils.Items<T>): (r: seq<T>)
    ensures data.Nothing? ==> r == []
    ensures data.One? ==> r == [data.item]
    ensures data.Many? ==> r == data.items
  {
    match data
    case Nothing => []
    case One(x) => [x]
    case Many(xs) => xs
  }

  /**
   * `mapItems(body.data || [], addRecord)`: one record gives one model, a list
   * (or a missing `data`, read as `[]`) gives a list of the same length.
   */
  function AddPass(st: State, data: Utils.Items<Record>): (o: Outcome<Utils.Items<Handle>>)
    ensures st.heap.Keys <= o.st.heap.Keys
    ensures |st.coll.data| <= |o.st.coll.data| && o.st.coll.data[..|st.coll.data|] == st.coll.data
    ensures o.st.coll.self == st.coll.self && o.st.coll.types == st.coll.types
    ensures o.result.Ok? ==> (data.One? <==> o.result.value.One?) && !o.result.value.Nothing?
    ensures o.result.Ok? && o.result.value.Many? ==> |o.result.value.items| == |Entries(data)|
  {
    match data
    case One(x) =>
      var o := AddRecord(st, x);
      Outcome(o.st, if o.result.Ok? then Ok(Utils.One(o.result.value)) else Err(o.result.error))
    case Nothing => Outcome(st, Ok(Utils.Many([])))
    case Many(xs) =>
      var o := AddRecords(st, xs);
      Outcome(o.st, if o.result.Ok? then Ok(Utils.Many(o.result.value)) else Err(o.result.error))
  }

  // ---------------------------------------------------------------------
  // Pass 2: relationships
  // ---------------------------------------------------------------------

  /** What one identifier resolves to against an index: the model found there, or else its bare id. */
  function TargetOf(c: Coll, def: ResourceId): Target {
    var s := if Truthy(def.id) && def.modelType != "" then Slot(c, def.modelType, Key(def.id)) else None;
    if s.Some? then ModelTarget(s.value) else BareId(def.id)
  }

  /** `this.find(def.type, def.id) || def.id` for one identifier. */
  function ResolveOne(c: Coll, def: ResourceId): (r: (Coll, Target))
    ensures SameIndex(c, r.0)
    ensures r.1 == TargetOf(c, def)
  {
    var (c1, found) := Lookup(c, def.modelType, def.id);
    (c1, if found.Some? then ModelTarget(found.value) else BareId(def.id))
  }

  /** The identifiers of a list, resolved in order; each lookup may add a placeholder. */
  function ResolveEach(c: Coll, defs: seq<ResourceId>): (r: (Coll, seq<Target>))
    ensures SameIndex(c, r.0)
    ensures |r.1| == |defs|
    ensures forall i :: 0 <= i < |defs| ==> r.1[i] == TargetOf(c, defs[i])
    decreases |defs|
  {
    if |defs| == 0 then (c, [])
    else
      var (c1, first) := ResolveOne(c, defs[0]);
      var (c2, rest) := ResolveEach(c1, defs[1..]);
      assert forall i :: 1 <= i < |defs| ==> rest[i - 1] == TargetOf(c1, defs[i]) == TargetOf(c, defs[i]);
      (c2, [first] + rest)
  }

  /** `mapItems(items, (def) => this.find(def.type, def.id) || def.id)`. */
  function Resolve(c: Coll, data: Utils.Items<ResourceId>): (r: (Coll, Utils.Items<Target>))
    ensures SameIndex(c, r.0)
    ensures r.1 == Utils.MapItems(data, (d: ResourceId) => TargetOf(c, d))
  {
    match data
    case Nothing => (c, Utils.Nothing)
    case One(d) =>
      var (c1, x) := ResolveOne(c, d);
      (c1, Utils.One(x))
    case Many(ds) =>
      var (c1, xs) := ResolveEach(c, ds);
      (c1, Utils.Many(xs))
  }

  /** The resolved items as the value assigned to a field: one item, or a list. */
  function ToAssigned(items: Utils.Items<Target>): (r: Buckets.Assigned<Target>)
    ensures items.Many? <==> r.Multiple?
    ensures items.Many? ==> r.items == items.items
    ensures items.One? ==> r == Buckets.Single(Some(items.item))
    ensures items.Nothing? ==> r == Buckets.Single(None)
  {
    match items
    case Nothing => Buckets.Single(None)
    case One(x) => Buckets.Single(Some(x))
    case Many(xs) => Buckets.Multiple(xs)
  }

  /** The type a new reference is declared with: the single item's type, or the first list item's. */
  function ItemType(data: Utils.Items<ResourceId>): string
    requires data.One? || (data.Many? && |data.items| > 0)
  {
    if data.One? then data.item.modelType else data.items[0].modelType
  }

  /** A field holds the value `v`: a reference whose active bucket reads `v`, or a plain property set to `v`. */
  predicate Holds(f: Field, v: Buckets.Assigned<Target>) {
    (f.Rel? && Buckets.Wellformed(f.bucket) && Buckets.Value(f.bucket) == v) || f == Linked(v)
  }

  /**
   * `record[ref] = models` when the field exists (a reference goes through its
   * bucket, any other property is overwritten), else `initModelRef` with a
   * to-one-or-many reference of `itemType` bound to the collection.
   */
  function AssignField(prior: Option<Field>, v: Buckets.Assigned<Target>, itemType: string, self: CollectionId): (f: Field)
    ensures Holds(f, v)
    ensures prior.None? ==> f.Rel? && f.targetType == itemType && f.bucket.collection == Some(self)
    ensures prior.Some? && prior.value.Rel? ==>
      f.Rel? && f.targetType == prior.value.targetType && f.bucket.collection == prior.value.bucket.collection
    ensures prior.Some? && !prior.value.Rel? ==> f == Linked(v)
  {
    match prior
    case None => Rel(itemType, Buckets.New(v, Some(self)))
    case Some(Rel(tt, b)) => Rel(tt, Buckets.Set(b, v))
    case Some(_) => Linked(v)
  }

  /** A relationship that `__updateRelationships` acts on: its data is a single identifier or a non-empty list. */
  predicate Wires(rel: Relationship) {
    rel.data.One? || (rel.data.Many? && |rel.data.items| > 0)
  }

  /**
   * One relationship of `__updateRelationships`: skipped for an empty list,
   * for `null` data and when the record was not found; otherwise every
   * identifier is resolved and the field of that name is assigned.
   */
  function UpdateRef(st: State, record: Option<Handle>, rel: Relationship): (r: State)
    ensures SameIndex(st.coll, r.coll) && SameIdentity(st.heap, r.heap)
    ensures r.nextHandle == st.nextHandle && r.classes == st.classes
    ensures !Wires(rel) || record.None? || record.value !in st.heap ==> r == st
    ensures Wires(rel) && record.Some? && record.value in st.heap ==>
      var h := record.value;
      var v := ToAssigned(Utils.MapItems(rel.data, (d: ResourceId) => TargetOf(st.coll, d)));
      && rel.name in r.heap[h].fields
      && Holds(r.heap[h].fields[rel.name], v)
      && (rel.name !in st.heap[h].fields ==> r.heap[h].fields[rel.name].Rel?)
      && (forall k :: k in st.heap[h].fields && k != rel.name ==> k in r.heap[h].fields && r.heap[h].fields[k] == st.heap[h].fields[k])
      && (forall g :: g in st.heap && g != h ==> r.heap[g] == st.heap[g])
  {
    if !Wires(rel) || record.None? || record.value !in st.heap then st
    else
      var h := record.value;
      var (c1, targets) := Resolve(st.coll, rel.data);
      var m := st.heap[h];
      var prior := if rel.name in m.fields then Some(m.fields[rel.name]) else None;
      var f := AssignField(prior, ToAssigned(targets), ItemType(rel.data), st.coll.self);
      st.(coll := c1, heap := st.heap[h := m.(fields := m.fields[rel.name := f])])
  }

  /** The relationships of one record, in key order. */
  function UpdateRefs(st: State, record: Option<Handle>, rels: seq<Relationship>): (r: State)
    ensures SameIndex(st.coll, r.coll) && SameIdentity(st.heap, r.heap)
    ensures r.nextHandle == st.nextHandle && r.classes == st.classes
    decreases |rels|
  {
    if |rels| == 0 then st else UpdateRefs(UpdateRef(st, record, rels[0]), record, rels[1..])
  }

  /** `__updateRelationships(obj)`: looks the record up, then wires each of its relationships. */
  function UpdateRelationships(st: State, rec: Record): (r: State)
    ensures SameIndex(st.coll, r.coll) && SameIdentity(st.heap, r.heap)
    ensures r.nextHandle == st.nextHandle && r.classes == st.classes
  {
    var (c1, found) := Lookup(st.coll, rec.modelType, rec.id);
    UpdateRefs(st.(coll := c1), found, rec.relationships)
  }

  /** `mapItems(list, updateRelationships)`. */
  function UpdateRecords(st: State, recs: seq<Record>): (r: State)
    ensures SameIndex(st.coll, r.coll) && SameIdentity(st.heap, r.heap)
    ensures r.nextHandle == st.nextHandle && r.classes == st.classes
    decreases |recs|
  {
    if |recs| == 0 then st else UpdateRecords(UpdateRelationships(st, recs[0]), recs[1..])
  }

  // ---------------------------------------------------------------------
  // sync
  // ---------------------------------------------------------------------

  /**
   * `sync(body)`: no body gives `null`. Otherwise every record is added,
   * `included` first and then `data`; then the relationships of the same
   * records are wired in the same order; the models of `data` are returned.
   */
  function Sync(st: State, body: Option<Document>): (o: Outcome<Utils.Items<Handle>>)
    ensures body.None? ==> o == Outcome(st, Ok(Utils.Nothing))
    ensures body.Some? && o.result.Ok? ==> !o.result.value.Nothing? && (body.value.data.One? <==> o.result.value.One?)
    ensures body.Some? && o.result.Ok? && o.result.value.Many? ==> |o.result.value.items| == |Entries(body.value.data)|
    ensures |st.coll.data| <= |o.st.coll.data| && o.st.coll.data[..|st.coll.data|] == st.coll.data
    ensures st.heap.Keys <= o.st.heap.Keys
  {
    if body.None? then Outcome(st, Ok(Utils.Nothing))
    else
      var doc := body.value;
      var inc := AddRecords(st, doc.included);
      if inc.result.Err? then Outcome(inc.st, Err(inc.result.error))
      else
        var main := AddPass(inc.st, doc.data);
        assert main.st.coll.data[..|st.coll.data|] == main.st.coll.data[..|inc.st.coll.data|][..|st.coll.data|];
        if main.result.Err? then Outcome(main.st, Err(main.result.error))
        else
          var wired := UpdateRecords(main.st, doc.included + Entries(doc.data));
          Outcome(wired, Ok(main.result.value))
  }

  // ---------------------------------------------------------------------
  // Responses, removal and the older URL builder
  // ---------------------------------------------------------------------

  /** `__handleErrors(response)`: throws the response's error when there is one, else passes the response on. */
  function HandleErrors(resp: Response): (r: Result<Response, Json.Json>)
    ensures r.Err? <==> Json.Truthy(resp.error)
    ensures r.Err? ==> r.error == resp.error
    ensures r.Ok? ==> r.value == resp
  {
    if Json.Truthy(resp.error) then Err(resp.error) else Ok(resp)
  }

  /**
   * The local `remove(type, id)`: the model found at (type, id), if any, is
   * removed from the collection with `removeOne`; a missing id finds nothing.
   */
  function Remove(st: State, t: string, id: Option<Identifier>, scan: Scanning): (o: Outcome<()>)
    ensures o.st.heap.Keys == st.heap.Keys
    ensures id.None? || Occupant(st, t, id.value).None? ==>
      o.result.Ok? && o.st.heap == st.heap && SameIndex(st.coll, o.st.coll)
    ensures id.Some? && Occupant(st, t, id.value).Some? ==>
      o.st.coll.data == Seqs.RemoveFirst(st.coll.data, Occupant(st, t, id.value).value)
  {
    if id.None? then Outcome(st, Ok(()))
    else
      var (c1, found) := Lookup(st.coll, t, id.value);
      if found.Some? && found.value in st.heap then RemoveOne(st.(coll := c1), ModelObj(found.value), None, scan)
      else Outcome(st.(coll := c1), Ok(()))
  }

  /** The older `__appendParams`: `?` and the parameters joined by `&`, whether or not the URL already has a `?`. */
  function LegacyAppendParams(url: string, params: seq<string>): (r: string)
    ensures |params| == 0 ==> r == url
    ensures |params| > 0 ==> |r| > |url| && r[..|url|] == url && r[|url|] == '?'
    ensures |params| > 0 ==> r[|url| + 1..] == Strings.Join(params, "&")
  {
    if |params| == 0 then url
    else
      var r := url + "?" + Strings.Join(params, "&");
      assert r[..|url|] == url;
      r
  }

  /**
   * The older `__prepareQuery(type, id, data, options)`: the path of the
   * first declared type with that type name, the id segment, then the same
   * parameter groups as `buildUrl`; the base URL is always put in front.
   */
  function LegacyPrepareQuery(t: string, id: Option<Identifier>, options: Option<Url.RequestOptions>,
                              types: seq<Url.ModelInfo>, config: Url.Config): (r: Result<Url.Query, string>)
    ensures r.Ok? <==> Url.Params(options, config.arrayStyle).Ok?
    ensures r.Ok? ==> |r.value.url| >= |config.baseUrl| && r.value.url[..|config.baseUrl|] == config.baseUrl
    ensures r.Ok? ==>
      var path := config.baseUrl + Url.RequestPath(t, id, Url.FirstOfType(types, t));
      r.value.url == LegacyAppendParams(path, Url.Params(options, config.arrayStyle).value)
  {
    var params :- Url.Params(options, config.arrayStyle);
    var headers := if options.Some? then Url.OrEmpty(options.value.headers) else Json.Obj([]);
    var path := config.baseUrl + Url.RequestPath(t, id, Url.FirstOfType(types, t));
    AppendParamsKeepsPrefix(config.baseUrl, Url.RequestPath(t, id, Url.FirstOfType(types, t)), params);
    Ok(Url.Query(LegacyAppendParams(path, params), headers))
  }

  /** Appending the parameters keeps any prefix of the URL in place. */
  lemma AppendParamsKeepsPrefix(base: string, rest: string, params: seq<string>)
    ensures var u := LegacyAppendParams(base + rest, params); |u| >= |base| && u[..|base|] == base
  {
    var p := base + rest;
    var u := LegacyAppendParams(p, params);
    assert p[..|base|] == base;
    assert u[..|base|] == u[..|p|][..|base|];
  }
}

=== FILE: jsonapi_proofs.dfy ===
/**
 * Properties of the JSON:API collection of module `JsonapiCollection`:
 * normalising a document keeps the collection invariant and never drops a
 * record, relationships resolve against the records added in the same
 * document, local removal removes the model found, and the older URL builder
 * agrees with `prepareQuery` exactly when the base URL is relative and free of `?`.
 */
module JsonapiProofs {
  import opened Wrappers
  import opened Ident
  import Utils
  import Buckets
  import opened Collection
  import opened CollectionProofs
  import opened JsonapiCollection
  import Url
  import Strings

  /** Every record names a type. */
  predicate TypesGiven(recs: seq<Record>) {
    forall i :: 0 <= i < |recs| ==> recs[i].modelType != ""
  }

  /** Every record has a truthy id. */
  predicate IdsGiven(recs: seq<Record>) {
    forall i :: 0 <= i < |recs| ==> Truthy(recs[i].id)
  }


  /** Adding a record of a named type keeps the invariant, whether or not it throws. */
  lemma AddRecordValid(st: State, rec: Record)
    requires Valid(st) && rec.modelType != ""
    ensures Valid(AddRecord(st, rec).st)
  {
    var (c1, found) := Lookup(st.coll, rec.modelType, rec.id);
    var st1 := st.(coll := c1);
    SameIndexValid(st, c1);
    if found.Some? && found.value in st.heap {
      var e := found.value;
      HeapFrameValid(st1, st.heap[e := UpdateAttrs(st.heap[e], AttrFields(rec.attrs))]);
    } else if rec.modelType in st.coll.types {
      AddDeclaredValid(st1, rec);
    } else {
      AddGenericValid(st1, rec);
    }
  }

  lemma AddDeclaredValid(st: State, rec: Record)
    requires Valid(st) && rec.modelType != ""
    ensures Valid(AddDeclared(st, rec).st)
  {
    AddSingleValid(st, Raw(Flattened(rec)), Some(rec.modelType));
  }

  lemma AddGenericValid(st: State, rec: Record)
    requires Valid(st) && rec.modelType != ""
    ensures Valid(AddGeneric(st, rec).st)
  {
    FreshModelValid(st, GenericOf(rec));
    AddSingleValid(WithModel(st, GenericOf(rec)), Instance(st.nextHandle), None);
  }

  /**
   * A record with a type and a truthy id always lands: its model is owned by
   * the collection and sits in the (type, id) slot, whether it was there
   * before, is of a declared type, or becomes a generic model.
   */
  lemma AddRecordLands(st: State, rec: Record)
    requires Valid(st) && rec.modelType != "" && Truthy(rec.id)
    ensures var o := AddRecord(st, rec);
      && o.result.Ok?
      && o.result.value in o.st.coll.data
      && Slot(o.st.coll, rec.modelType, Key(rec.id)) == Some(o.result.value)
  {
    var t := rec.modelType;
    var k := Key(rec.id);
    var (c1, found) := Lookup(st.coll, t, rec.id);
    var st1 := st.(coll := c1);
    SameIndexValid(st, c1);
    assert SlotSound(st, t, k);
    if found.Some? && found.value in st.heap {
      AddRecordValid(st, rec);
    } else if t in st.coll.types {
      DeclaredRecordLands(st1, rec);
    } else {
      GenericRecordLands(st1, rec);
    }
  }

  /** A record of a declared type that is not in the index is upserted and pushed. */
  lemma DeclaredRecordLands(st: State, rec: Record)
    requires Valid(st) && rec.modelType != "" && Truthy(rec.id) && rec.modelType in st.coll.types
    requires Slot(st.coll, rec.modelType, Key(rec.id)).None?
    ensures var o := AddSingle(st, Raw(Flattened(rec)), Some(rec.modelType));
      && o.result.Ok? && o.result.value.Instance?
      && o.result.value.h in o.st.coll.data
      && Slot(o.st.coll, rec.modelType, Key(rec.id)) == Some(o.result.value.h)
  {
    var t := rec.modelType;
    var n := st.nextHandle;
    UpsertFresh(st, rec);
    var u := Upsert(st, Flattened(rec), t);
    FreeKeyInserted(u.st, n, t);
    var o := InsertModel(u.st, n, Some(t));
    assert AddSingle(st, Raw(Flattened(rec)), Some(t)) == Outcome(o.st, Ok(Instance(n)));
  }

  /** Inserting an unowned model with a truthy id whose key is free pushes it and fills its slot. */
  lemma FreeKeyInserted(st: State, n: Handle, t: string)
    requires Valid(st) && n in st.heap && st.heap[n].modelType == t && t != ""
    requires st.heap[n].owner.None? && Truthy(st.heap[n].id)
    requires Slot(st.coll, t, Key(st.heap[n].id)).None?
    ensures var o := InsertModel(st, n, Some(t));
      o.result.Ok? && n in o.st.coll.data && Slot(o.st.coll, t, Key(st.heap[n].id)) == Some(n)
  {
    InsertModelValid(st, n, Some(t));
  }

  /** Upserting a record whose key is free makes a fresh, unowned model of its type and id at the next handle. */
  lemma UpsertFresh(st: State, rec: Record)
    requires Valid(st) && rec.modelType != "" && Truthy(rec.id) && rec.modelType in st.coll.types
    requires Slot(st.coll, rec.modelType, Key(rec.id)).None?
    ensures var u := Upsert(st, Flattened(rec), rec.modelType);
      var n := st.nextHandle;
      && u.result == Ok(n) && n in u.st.heap && Valid(u.st)
      && u.st.heap[n].modelType == rec.modelType && u.st.heap[n].id == rec.id && u.st.heap[n].owner.None?
      && Slot(u.st.coll, rec.modelType, Key(rec.id)).None?
  {
    UpsertValid(st, Flattened(rec), rec.modelType);
  }

  /** A record of an undeclared type becomes a generic model, which is then pushed. */
  lemma GenericRecordLands(st: State, rec: Record)
    requires Valid(st) && rec.modelType != "" && Truthy(rec.id)
    requires Slot(st.coll, rec.modelType, Key(rec.id)).None?
    ensures var n := st.nextHandle;
      var o := AddSingle(WithModel(st, GenericOf(rec)), Instance(n), None);
      && o.result.Ok?
      && n in o.st.coll.data
      && Slot(o.st.coll, rec.modelType, Key(rec.id)) == Some(n)
  {
    var n := st.nextHandle;
    var st2 := WithModel(st, GenericOf(rec));
    FreshModelValid(st, GenericOf(rec));
    var (c1, has) := HasItem(st2, n);
    assert has == Ok(false);
    SameIndexValid(st2, c1);
    InsertModelValid(st2.(coll := c1), n, None);
  }

  /** Adding records of named types keeps the invariant. */
  lemma {:induction false} AddRecordsValid(st: State, recs: seq<Record>)
    requires Valid(st) && TypesGiven(recs)
    ensures Valid(AddRecords(st, recs).st)
    decreases |recs|
  {
    if |recs| > 0 {
      var o := AddRecord(st, recs[0]);
      AddRecordValid(st, recs[0]);
      if o.result.Ok? {
        var tail := recs[1..];
        assert TypesGiven(tail) by {
          forall i | 0 <= i < |tail| ensures tail[i].modelType != "" { assert tail[i] == recs[i + 1]; }
        }
        AddRecordsValid(o.st, tail);
        assert AddRecords(st, recs).st == AddRecords(o.st, tail).st;
      }
    }
  }

  /** Records with types and ids are all added, and every returned model is a member. */
  lemma {:induction false} AddRecordsLand(st: State, recs: seq<Record>)
    requires Valid(st) && TypesGiven(recs) && IdsGiven(recs)
    ensures var o := AddRecords(st, recs);
      o.result.Ok? && forall i :: 0 <= i < |recs| ==> o.result.value[i] in o.st.coll.data
    decreases |recs|
  {
    if |recs| > 0 {
      var first := recs[0];
      var tail := recs[1..];
      var o := AddRecord(st, first);
      AddRecordValid(st, first);
      AddRecordLands(st, first);
      assert TypesGiven(tail) && IdsGiven(tail) by {
        forall i | 0 <= i < |tail| ensures tail[i].modelType != "" && Truthy(tail[i].id) { assert tail[i] == recs[i + 1]; }
      }
      var rest := AddRecords(o.st, tail);
      AddRecordsLand(o.st, tail);
      assert AddRecords(st, recs) == Outcome(rest.st, Ok([o.result.value] + rest.result.value));
      ConsMembers(o.st.coll.data, rest.st.coll.data, o.result.value, rest.result.value);
    }
  }

  /** A member of a prefix, followed by members, are all members. */
  lemma ConsMembers(prefix: seq<Handle>, data: seq<Handle>, h: Handle, hs: seq<Handle>)
    requires h in prefix && |prefix| <= |data| && data[..|prefix|] == prefix
    requires forall i :: 0 <= i < |hs| ==> hs[i] in data
    ensures forall i :: 0 <= i < |hs| + 1 ==> ([h] + hs)[i] in data
  {
    assert h in data[..|prefix|];
    forall i | 0 <= i < |hs| + 1 ensures ([h] + hs)[i] in data {
      if i > 0 { assert ([h] + hs)[i] == hs[i - 1]; }
    }
  }

  /** The relationship pass keeps the invariant and the models of the collection. */
  lemma UpdateRecordsValid(st: State, recs: seq<Record>)
    requires Valid(st)
    ensures Valid(UpdateRecords(st, recs))
    ensures UpdateRecords(st, recs).coll.data == st.coll.data
  {
    var r := UpdateRecords(st, recs);
    SameIndexValid(st, r.coll);
    HeapFrameValid(st.(coll := r.coll), r.heap);
    assert r == st.(coll := r.coll).(heap := r.heap);
  }

  /**
   * `sync` keeps the collection invariant; when every record has a type and
   * a truthy id it succeeds and every model it returns is in the collection.
   */
  lemma SyncValid(st: State, doc: Document)
    requires Valid(st) && TypesGiven(doc.included + Entries(doc.data))
    ensures Valid(Sync(st, Some(doc)).st)
    ensures IdsGiven(doc.included + Entries(doc.data)) ==>
      var o := Sync(st, Some(doc));
      o.result.Ok? && forall h :: h in Entries(o.result.value) ==> h in o.st.coll.data
  {
    GivenSplit(doc.included, Entries(doc.data));
    SyncKeepsValid(st, doc);
    if IdsGiven(doc.included + Entries(doc.data)) {
      SyncLands(st, doc);
    }
  }

  /** A property of every record of a concatenation holds of every record of each part. */
  lemma GivenSplit(a: seq<Record>, b: seq<Record>)
    ensures TypesGiven(a + b) ==> TypesGiven(a) && TypesGiven(b)
    ensures IdsGiven(a + b) ==> IdsGiven(a) && IdsGiven(b)
  {
    assert forall i :: 0 <= i < |a| ==> a[i] == (a + b)[i];
    assert forall i :: 0 <= i < |b| ==> b[i] == (a + b)[|a| + i];
  }

  lemma SyncKeepsValid(st: State, doc: Document)
    requires Valid(st) && TypesGiven(doc.included) && TypesGiven(Entries(doc.data))
    ensures Valid(Sync(st, Some(doc)).st)
  {
    AddRecordsValid(st, doc.included);
    var inc := AddRecords(st, doc.included);
    if inc.result.Ok? {
      AddPassValid(inc.st, doc.data);
      var main := AddPass(inc.st, doc.data);
      if main.result.Ok? {
        UpdateRecordsValid(main.st, doc.included + Entries(doc.data));
      }
    }
  }

  lemma SyncLands(st: State, doc: Document)
    requires Valid(st) && TypesGiven(doc.included) && TypesGiven(Entries(doc.data))
    requires IdsGiven(doc.included) && IdsGiven(Entries(doc.data))
    ensures var o := Sync(st, Some(doc));
            o.result.Ok? && forall h :: h in Entries(o.result.value) ==> h in o.st.coll.data
  {
    AddRecordsValid(st, doc.included);
    AddRecordsLand(st, doc.included);
    var inc := AddRecords(st, doc.included);
    AddPassValid(inc.st, doc.data);
    var main := AddPass(inc.st, doc.data);
    UpdateRecordsValid(main.st, doc.included + Entries(doc.data));
    assert Sync(st, Some(doc)) == Outcome(UpdateRecords(main.st, doc.included + Entries(doc.data)), Ok(main.result.value));
  }

  /** The primary-data pass keeps the invariant; with types and truthy ids it succeeds and returns models of the collection. */
  lemma AddPassValid(st: State, data: Utils.Items<Record>)
    requires Valid(st) && TypesGiven(Entries(data))
    ensures Valid(AddPass(st, data).st)
    ensures IdsGiven(Entries(data)) ==>
      var o := AddPass(st, data);
      o.result.Ok? && forall h :: h in Entries(o.result.value) ==> h in o.st.coll.data
  {
    match data
    case One(x) =>
      assert Entries(data)[0] == x;
      AddRecordValid(st, x);
      if IdsGiven(Entries(data)) {
        AddRecordLands(st, x);
      }
    case Nothing =>
    case Many(xs) =>
      AddRecordsValid(st, xs);
      if IdsGiven(xs) {
        AddRecordsLand(st, xs);
      }
  }

  /** Removing the model found at (type, id) takes it out of the collection and keeps the invariant. */
  lemma RemoveFound(st: State, t: string, id: Identifier, scan: Scanning)
    requires Valid(st) && Occupant(st, t, id).Some?
    ensures var h := Occupant(st, t, id).value;
      var o := Remove(st, t, Some(id), scan);
      && o.result.Ok?
      && Valid(o.st)
      && h !in o.st.coll.data
      && |o.st.coll.data| == |st.coll.data| - 1
      && o.st.heap[h].owner.None?
  {
    var h := Occupant(st, t, id).value;
    var (c1, found) := Lookup(st.coll, t, id);
    assert SlotSound(st, t, Key(id));
    SameIndexValid(st, c1);
    RemoveModelValid(st.(coll := c1), h, scan);
  }

  // ---------------------------------------------------------------------
  // The older URL builder against `prepareQuery`
  // ---------------------------------------------------------------------

  /** The path the older builder and `prepareQuery` (given the collection's types) both start from. */
  function PathOf(t: string, id: Option<Identifier>, types: seq<Url.ModelInfo>): string {
    Url.RequestPath(t, id, Url.FirstOfType(types, t))
  }

  /** With a relative path and no `?` in the prefixed URL, the older builder gives what `prepareQuery` gives. */
  lemma LegacyAgrees(t: string, id: Option<Identifier>, options: Option<Url.RequestOptions>,
                     types: seq<Url.ModelInfo>, config: Url.Config, isAbsolute: string -> bool)
    requires !isAbsolute(PathOf(t, id, types)) && '?' !in config.baseUrl + PathOf(t, id, types)
    ensures LegacyPrepareQuery(t, id, options, types, config) == Url.PrepareQuery(t, id, options, Some(types), None, config, isAbsolute)
  {
  }

  /** With a `?` already in the prefixed URL, the older builder still writes `?` where `prepareQuery` writes `&`. */
  lemma LegacyRepeatsQuestionMark(t: string, id: Option<Identifier>, options: Option<Url.RequestOptions>,
                                  types: seq<Url.ModelInfo>, config: Url.Config, isAbsolute: string -> bool)
    requires !isAbsolute(PathOf(t, id, types)) && '?' in config.baseUrl + PathOf(t, id, types)
    requires Url.Params(options, config.arrayStyle).Ok? && |Url.Params(options, config.arrayStyle).value| > 0
    ensures var legacy := LegacyPrepareQuery(t, id, options, types, config);
      var current := Url.PrepareQuery(t, id, options, Some(types), None, config, isAbsolute);
      var n := |config.baseUrl + PathOf(t, id, types)|;
      && legacy.Ok? && current.Ok?
      && |legacy.value.url| > n && |current.value.url| > n
      && legacy.value.url[n] == '?' && current.value.url[n] == '&'
  {
    var path := config.baseUrl + PathOf(t, id, types);
    var params := Url.Params(options, config.arrayStyle).value;
    assert (path + "&" + Strings.Join(params, "&"))[|path|] == '&';
  }

  /** The older builder prefixes the base URL even to an absolute URL, which `prepareQuery` keeps as it is. */
  lemma LegacyPrefixesAbsolute(t: string, id: Option<Identifier>, options: Option<Url.RequestOptions>,
                               types: seq<Url.ModelInfo>, config: Url.Config, isAbsolute: string -> bool)
    requires isAbsolute(PathOf(t, id, types)) && config.baseUrl != ""
    requires Url.Params(options, config.arrayStyle).Ok?
    ensures var legacy := LegacyPrepareQuery(t, id, options, types, config);
      var current := Url.PrepareQuery(t, id, options, Some(types), None, config, isAbsolute);
      legacy.Ok? && current.Ok? && |legacy.value.url| == |current.value.url| + |config.baseUrl|
  {
  }
}

=== FILE: mixin.dfy ===
/**
 * The class-hierarchy tests of packages/datx/src/helpers/mixin.ts. A class is
 * an opaque object handle; `Object.getPrototypeOf` of a class is its parent
 * class, and is `null` past the root.
 */
module Mixin {
  import opened Wrappers

  /** An opaque handle standing for a class (a constructor function). */
  type Obj = nat

  /** The prototype links: `proto[o]` is `Object.getPrototypeOf(o)`; a missing key means `null`. */
  datatype Heap = Heap(proto: map<Obj, Obj>)

  /** The class `PureModel`. */
  const PureModelClass: Obj := 1

  /** The class `PureCollection`. */
  const PureCollectionClass: Obj := 2

  /**
   * `chain` is the complete prototype chain starting at `o`: each entry's
   * prototype is the next one and the last has a `null` prototype. JavaScript
   * guarantees every prototype chain is finite, so such a chain always exists.
   */
  ghost predicate ChainOf(heap: Heap, o: Obj, chain: seq<Obj>) {
    && |chain| >= 1
    && chain[0] == o
    && (forall i :: 0 <= i < |chain| - 1 ==> chain[i] in heap.proto && heap.proto[chain[i]] == chain[i + 1])
    && chain[|chain| - 1] !in heap.proto
  }

  /**
   * `isOfType(obj, type)`: walks the prototype chain from `obj` and reports
   * whether `type` is met. A falsy `obj` gives false at once.
   */
  method IsOfType(heap: Heap, obj: Option<Obj>, t: Obj, ghost chain: seq<Obj>) returns (r: bool)
    requires obj.Some? ==> ChainOf(heap, obj.value, chain)
    ensures obj.Some? && obj.value == t ==> r
    ensures r <==> obj.Some? && t in chain
  {
    var model := obj;
    ghost var i := 0;
    while model.Some?
      invariant obj.Some? ==> 0 <= i <= |chain|
      invariant obj.None? ==> model.None?
      invariant obj.Some? ==> (model.Some? <==> i < |chain|)
      invariant model.Some? ==> model.value == chain[i]
      invariant obj.Some? ==> t !in chain[..i]
      decreases if obj.Some? then |chain| - i else 0
    {
      if model.value == t {
        return true;
      }
      if model.value in heap.proto {
        model := Some(heap.proto[model.value]);
      } else {
        model := None;
      }
      i := i + 1;
    }
    assert obj.Some? ==> chain[..i] == chain;
    return false;
  }

  /** `isModel(obj)`: `obj` is `PureModel` or a class derived from it. */
  method IsModel(heap: Heap, obj: Option<Obj>, ghost chain: seq<Obj>) returns (r: bool)
    requires obj.Some? ==> ChainOf(heap, obj.value, chain)
    ensures r <==> obj.Some? && PureModelClass in chain
  {
    r := IsOfType(heap, obj, PureModelClass, chain);
  }

  /** `isCollection(obj)`: `obj` is `PureCollection` or a class derived from it. */
  method IsCollection(heap: Heap, obj: Option<Obj>, ghost chain: seq<Obj>) returns (r: bool)
    requires obj.Some? ==> ChainOf(heap, obj.value, chain)
    ensures r <==> obj.Some? && PureCollectionClass in chain
  {
    r := IsOfType(heap, obj, PureCollectionClass, chain);
  }
}

=== FILE: pure_model.dfy ===
/**
 * The static side of packages/datx/src/PureModel.ts: the class's type tag,
 * its auto-id counter and the default `preprocess` hook.
 */
module PureModel {
  import opened Ident
  import opened Wrappers
  import Json

  /** The static fields of a model class that the modelled code reads. */
  datatype ModelClass = ModelClass(modelType: string, autoIdValue: Identifier)

  /** A fresh class: `autoIdValue` starts at 0. */
  function NewClass(modelType: string): ModelClass {
    ModelClass(modelType, NumId(0))
  }

  /**
   * `getAutoId()`: a numeric counter is pre-decremented and its new value
   * returned; any other value is returned as it is and left alone.
   * Returns the id and the class with its updated counter.
   */
  function GetAutoId(c: ModelClass): (r: (Identifier, ModelClass))
    ensures c.autoIdValue.NumId? ==> r.0 == NumId(c.autoIdValue.n - 1)
    ensures c.autoIdValue.StrId? ==> r.0 == c.autoIdValue && r.1 == c
    ensures r.1.modelType == c.modelType && r.1.autoIdValue == r.0
  {
    match c.autoIdValue
    case NumId(n) => (NumId(n - 1), c.(autoIdValue := NumId(n - 1)))
    case StrId(_) => (c.autoIdValue, c)
  }

  /** The ids handed out by `k` successive calls of `getAutoId`, and the class afterwards. */
  function AutoIds(c: ModelClass, k: nat): (seq<Identifier>, ModelClass)
    decreases k
  {
    if k == 0 then ([], c)
    else
      var (id, c1) := GetAutoId(c);
      var (rest, c2) := AutoIds(c1, k - 1);
      ([id] + rest, c2)
  }

  /** From a numeric counter `n`, `k` calls give n-1, n-2, ..., n-k and leave the counter at n-k. */
  lemma {:induction false} AutoIdsCountDown(c: ModelClass, k: nat)
    requires c.autoIdValue.NumId?
    ensures |AutoIds(c, k).0| == k
    ensures forall i :: 0 <= i < k ==> AutoIds(c, k).0[i] == NumId(c.autoIdValue.n - (i + 1))
    ensures AutoIds(c, k).1 == c.(autoIdValue := NumId(c.autoIdValue.n - k))
    decreases k
  {
    if k > 0 {
      var (id, c1) := GetAutoId(c);
      AutoIdsCountDown(c1, k - 1);
    }
  }

  /** Starting from the default counter 0 the ids are -1, -2, ... and never repeat. */
  lemma AutoIdsFromZeroDistinct(t: string, k: nat)
    ensures |AutoIds(NewClass(t), k).0| == k
    ensures forall i :: 0 <= i < k ==> AutoIds(NewClass(t), k).0[i] == NumId(-(i + 1))
    ensures forall i, j :: 0 <= i < j < k ==> AutoIds(NewClass(t), k).0[i] != AutoIds(NewClass(t), k).0[j]
  {
    AutoIdsCountDown(NewClass(t), k);
  }

  /** With a non-numeric counter every call returns that same value and the class is unchanged. */
  lemma {:induction false} AutoIdsConstant(c: ModelClass, k: nat)
    requires c.autoIdValue.StrId?
    ensures |AutoIds(c, k).0| == k
    ensures forall i :: 0 <= i < k ==> AutoIds(c, k).0[i] == c.autoIdValue
    ensures AutoIds(c, k).1 == c
    decreases k
  {
    if k > 0 {
      AutoIdsConstant(c, k - 1);
    }
  }

  /** The default `preprocess(data, collection)`: the input data, untouched. */
  function Preprocess(data: map<string, Json.Json>, collection: Option<CollectionId>): (r: map<string, Json.Json>)
    ensures r == data
  {
    data
  }

  /** Static `toJSON()`: a class serialises as its type tag. */
  function ClassToJSON(c: ModelClass): (r: string)
    ensures r == c.modelType
  {
    c.modelType
  }
}

=== FILE: remote_fetch.dfy ===
/**
 * The paging fetch state machine of examples/with-nextjs-hooks/hooks/useRemoteFetch.ts:
 * the `stateReducer` that records each page's fetch status and attempt
 * count, the `fetchPage` guard and the calls built on it, the pagination
 * parameters sent with each request, and the status helpers.
 *
 * `Date.now()` is a parameter of the reducer; the React wiring (effects,
 * `dispatch`) and the request itself are not modelled.
 */
module RemoteFetch {
  import opened Wrappers
  import Strings
  import Url

  /** `RemoteFetchRequestStatus`. */
  datatype Status = Idle | Fetching | Succeed | Failed

  /** The action type names (`RemoteFetchActionType`). */
  const FetchBegin: string := "FETCH_BEGIN"
  const FetchEnd: string := "FETCH_END"

  /** The `meta` counts of a response; each may be missing. */
  datatype Meta = Meta(totalCount: Option<int>, pageCount: Option<int>)

  /** A parsed response: only its `meta` is read. */
  datatype Response = Response(meta: Option<Meta>)

  /** An action payload: the page, and optionally a status and a response. */
  datatype Payload = Payload(page: int, status: Option<Status>, response: Option<Response>)

  /** A reducer action; `kind` is the action type, `""` when missing. */
  datatype Action = Action(kind: string, payload: Payload)

  /**
   * One page's entry. Status and time are always written; `attempts` is
   * written only by FETCH_BEGIN, so a page first seen by FETCH_END lacks it.
   */
  datatype PageData = PageData(status: Status, updatedAt: int, attempts: Option<int>)

  /** The fetcher options (`request` is passed through to the network layer unread). */
  datatype Options = Options(fetchOnMount: bool, infinite: bool, pageSize: int)

  /** Caller options: each may be left out. */
  datatype PartialOptions = PartialOptions(fetchOnMount: Option<bool>, infinite: Option<bool>, pageSize: Option<int>)

  /** `RemoteFetchState`. */
  datatype State = State(
    currentPage: int,
    countTotal: int,
    countPages: int,
    options: Options,
    pagination: map<int, PageData>,
    lastResponse: Option<Response>)

  // ---------------------------------------------------------------------
  // Initial state
  // ---------------------------------------------------------------------

  /** `initialOptions`: fetch on mount, infinite, 25 per page. */
  const InitialOptions: Options := Options(true, true, 25)

  function Merge<T>(given: Option<T>, default: T): T {
    if given.Some? then given.value else default
  }

  /** The reducer's starting state: page 0, no counts, no pages, the caller's options over the defaults. */
  function Initial(given: PartialOptions): (s: State)
    ensures s.currentPage == 0 && s.countTotal == 0 && s.countPages == 0
    ensures s.pagination == map[] && s.lastResponse.None?
    ensures given.pageSize.Some? ==> s.options.pageSize == given.pageSize.value
    ensures given.pageSize.None? ==> s.options.pageSize == 25
    ensures s.options.fetchOnMount <==> given.fetchOnMount != Some(false)
    ensures s.options.infinite <==> given.infinite != Some(false)
  {
    State(0, 0, 0,
          Options(Merge(given.fetchOnMount, InitialOptions.fetchOnMount),
                  Merge(given.infinite, InitialOptions.infinite),
                  Merge(given.pageSize, InitialOptions.pageSize)),
          map[], None)
  }

  // ---------------------------------------------------------------------
  // The reducer
  // ---------------------------------------------------------------------

  /** `pageData.attempts || 0`: a missing entry or count reads as 0. */
  function AttemptsOf(s: State, page: int): int {
    if page in s.pagination && s.pagination[page].attempts.Some? then s.pagination[page].attempts.value else 0
  }

  /** `_.get(response, ['meta', key], current)`: the response's count when it has one. */
  function CountOr(response: Option<Response>, pick: Meta -> Option<int>, current: int): int {
    if response.Some? && response.value.meta.Some? && pick(response.value.meta.value).Some?
    then pick(response.value.meta.value).value
    else current
  }

  /**
   * `stateReducer(state, action)`. A missing type or a falsy page (0) leaves
   * the state as it is, as does an unknown type. FETCH_BEGIN makes the page
   * current and marks it as fetching with one more attempt; FETCH_END records
   * the payload's status (Idle when it has none), the response and its counts.
   */
  function Reduce(s: State, a: Action, now: int): (r: State)
    ensures a.kind == "" || a.payload.page == 0 ==> r == s
    ensures a.kind != FetchBegin && a.kind != FetchEnd ==> r == s
    ensures r.options == s.options
    ensures r.pagination.Keys <= s.pagination.Keys + {a.payload.page}
    ensures forall p :: p in s.pagination && p != a.payload.page ==> p in r.pagination && r.pagination[p] == s.pagination[p]
    ensures a.kind == FetchBegin && a.payload.page != 0 ==>
      && r.currentPage == a.payload.page
      && r.countTotal == s.countTotal && r.countPages == s.countPages
      && r.lastResponse == s.lastResponse
      && a.payload.page in r.pagination
      && r.pagination[a.payload.page] == PageData(Fetching, now, Some(AttemptsOf(s, a.payload.page) + 1))
    ensures a.kind == FetchEnd && a.payload.page != 0 ==>
      && r.currentPage == s.currentPage
      && r.lastResponse == a.payload.response
      && a.payload.page in r.pagination
      && r.pagination[a.payload.page].status == Merge(a.payload.status, Idle)
      && r.pagination[a.payload.page].updatedAt == now
      && AttemptsOf(r, a.payload.page) == AttemptsOf(s, a.payload.page)
    ensures a.kind == FetchEnd && a.payload.page != 0 && a.payload.response.Some? && a.payload.response.value.meta.Some? ==>
      && r.countTotal == Merge(a.payload.response.value.meta.value.totalCount, s.countTotal)
      && r.countPages == Merge(a.payload.response.value.meta.value.pageCount, s.countPages)
    ensures a.kind == FetchEnd && a.payload.page != 0 && (a.payload.response.None? || a.payload.response.value.meta.None?) ==>
      r.countTotal == s.countTotal && r.countPages == s.countPages
  {
    var page := a.payload.page;
    if a.kind == "" || page == 0 then s
    else if a.kind == FetchBegin then
      var entry := PageData(Fetching, now, Some(AttemptsOf(s, page) + 1));
      s.(currentPage := page, pagination := s.pagination[page := entry])
    else if a.kind == FetchEnd then
      var status := Merge(a.payload.status, Idle);
      var entry := if page in s.pagination then s.pagination[page].(updatedAt := now, status := status)
                   else PageData(status, now, None);
      s.(countTotal := CountOr(a.payload.response, (m: Meta) => m.totalCount, s.countTotal),
         countPages := CountOr(a.payload.response, (m: Meta) => m.pageCount, s.countPages),
         pagination := s.pagination[page := entry],
         lastResponse := a.payload.response)
    else s
  }

  /** The state after dispatching `actions` in order, all at time `now`. */
  function Run(s: State, actions: seq<Action>, now: int): State
    decreases |actions|
  {
    if |actions| == 0 then s else Run(Reduce(s, actions[0], now), actions[1..], now)
  }

  /** `n` copies of one action. */
  function Repeat(a: Action, n: nat): (r: seq<Action>)
    ensures |r| == n
    ensures forall i :: 0 <= i < n ==> r[i] == a
  {
    if n == 0 then [] else [a] + Repeat(a, n - 1)
  }

  /** A FETCH_BEGIN for a page, as `fetchPage` dispatches it. */
  function Begin(page: int): Action {
    Action(FetchBegin, Payload(page, Some(Fetching), None))
  }

  /** The FETCH_END of `onSuccess` / `onFail`. */
  function End(page: int, response: Response, ok: bool): Action {
    Action(FetchEnd, Payload(page, Some(if ok then Succeed else Failed), Some(response)))
  }

  // ---------------------------------------------------------------------
  // Status and navigation
  // ---------------------------------------------------------------------

  /** The hook's status: the current page's status, Idle when the page has no entry. */
  function CurrentStatus(s: State): (r: Status)
    ensures s.currentPage !in s.pagination ==> r == Idle
  {
    if s.currentPage in s.pagination then s.pagination[s.currentPage].status else Idle
  }

  predicate IsIdle(status: Status) { status == Idle }
  predicate IsFetching(status: Status) { status == Fetching }
  predicate IsSucceed(status: Status) { status == Succeed }
  predicate IsFailed(status: Status) { status == Failed }

  /** `hasNext()`: the server reported more pages than the current one. */
  predicate HasNext(s: State) { s.countPages > s.currentPage }

  /** `hasPrev()`: the current page is past the first. */
  predicate HasPrev(s: State) { s.currentPage > 1 }

  /** What one call of `fetchPage` does: whether it empties the view, and the action it dispatches. */
  datatype FetchCall = FetchCall(clearView: bool, action: Option<Action>)

  /**
   * `fetchPage(page, force)`: nothing happens when not forced and the page is
   * already current; otherwise a non-infinite fetcher empties its view and a
   * FETCH_BEGIN for `page || 1` is dispatched.
   */
  function FetchPage(s: State, page: int, force: bool): (r: FetchCall)
    ensures r.action.None? <==> !force && page == s.currentPage
    ensures r.action.None? ==> !r.clearView
    ensures r.action.Some? ==> r.clearView == !s.options.infinite
    ensures r.action.Some? ==> r.action.value == Begin(if page == 0 then 1 else page)
  {
    if !force && page == s.currentPage then FetchCall(false, None)
    else FetchCall(!s.options.infinite, Some(Begin(if page == 0 then 1 else page)))
  }

  /** The state after a `fetchPage` call at time `now`. */
  function AfterFetch(s: State, call: FetchCall, now: int): State {
    if call.action.Some? then Reduce(s, call.action.value, now) else s
  }

  /** `fetchNext()`: `fetchPage(currentPage + 1)` when there is a next page. */
  function FetchNext(s: State): (r: FetchCall)
    ensures r.action.Some? <==> HasNext(s)
  {
    if HasNext(s) then FetchPage(s, s.currentPage + 1, false) else FetchCall(false, None)
  }

  /** `fetchPrev()`: `fetchPage(currentPage - 1)` when there is a previous page. */
  function FetchPrev(s: State): (r: FetchCall)
    ensures r.action.Some? <==> HasPrev(s)
  {
    if HasPrev(s) then FetchPage(s, s.currentPage - 1, false) else FetchCall(false, None)
  }

  /** `fetchAgain()`: a forced fetch of the current page. */
  function FetchAgain(s: State): (r: FetchCall)
    ensures r.action.Some?
  {
    FetchPage(s, s.currentPage, true)
  }

  /** The mount effect: `fetchPage(1)` when `fetchOnMount` is set. */
  function OnMount(s: State): (r: FetchCall)
    ensures !s.options.fetchOnMount ==> r.action.None?
  {
    if s.options.fetchOnMount then FetchPage(s, 1, false) else FetchCall(false, None)
  }

  // ---------------------------------------------------------------------
  // Request parameters
  // ---------------------------------------------------------------------

  /** `createPagination(page, size)`: the `page` and `per-page` parameters; a falsy page asks for page 1. */
  function CreatePagination(page: int, size: int): (r: seq<Url.RawParam>)
    ensures |r| == 2 && r[0].RawPair? && r[1].RawPair?
    ensures r[0].key == "page" && r[1].key == "per-page"
  {
    [Url.RawPair("page", Strings.IntToString(if page == 0 then 1 else page)),
     Url.RawPair("per-page", Strings.IntToString(size))]
  }

  // ---------------------------------------------------------------------
  // Properties
  // ---------------------------------------------------------------------

  /** A state the reducer leaves unchanged: it is unchanged by any number of repeats too. */
  lemma {:induction false} NoOpRepeats(s: State, a: Action, n: nat, now: int)
    requires a.kind == "" || a.payload.page == 0 || (a.kind != FetchBegin && a.kind != FetchEnd)
    ensures Run(s, Repeat(a, n), now) == s
    decreases n
  {
    if n > 0 {
      assert Repeat(a, n)[1..] == Repeat(a, n - 1);
      NoOpRepeats(s, a, n - 1, now);
    }
  }

  /**
   * `n` FETCH_BEGINs of page `p` count `n` attempts on top of what the page
   * had, leave it current and fetching, and touch no other page.
   */
  lemma {:induction false} BeginsCountAttempts(s: State, p: int, n: nat, now: int)
    requires p != 0 && n > 0
    ensures var r := Run(s, Repeat(Begin(p), n), now);
      && r.currentPage == p
      && p in r.pagination
      && r.pagination[p] == PageData(Fetching, now, Some(AttemptsOf(s, p) + n))
      && (forall q :: q in s.pagination && q != p ==> q in r.pagination && r.pagination[q] == s.pagination[q])
      && r.countPages == s.countPages && r.countTotal == s.countTotal
    decreases n
  {
    var s1 := Reduce(s, Begin(p), now);
    assert Repeat(Begin(p), n)[1..] == Repeat(Begin(p), n - 1);
    if n > 1 {
      BeginsCountAttempts(s1, p, n - 1, now);
    }
  }

  /** Attempt counts never go down, and no page entry ever disappears. */
  lemma {:induction false} AttemptsNeverDecrease(s: State, actions: seq<Action>, now: int, p: int)
    requires p in s.pagination
    ensures p in Run(s, actions, now).pagination
    ensures AttemptsOf(Run(s, actions, now), p) >= AttemptsOf(s, p)
    decreases |actions|
  {
    if |actions| > 0 {
      var s1 := Reduce(s, actions[0], now);
      assert AttemptsOf(s1, p) >= AttemptsOf(s, p);
      AttemptsNeverDecrease(s1, actions[1..], now, p);
    }
  }

  /**
   * A fetch that completes: after its FETCH_BEGIN and the FETCH_END of
   * `onSuccess`/`onFail`, the page is current with the outcome's status and
   * exactly one more attempt.
   */
  lemma CompletedFetch(s: State, p: int, response: Response, ok: bool, t0: int, t1: int)
    requires p != 0
    ensures var r := Reduce(Reduce(s, Begin(p), t0), End(p, response, ok), t1);
      && r.currentPage == p
      && CurrentStatus(r) == (if ok then Succeed else Failed)
      && AttemptsOf(r, p) == AttemptsOf(s, p) + 1
      && r.lastResponse == Some(response)
  {
    var s1 := Reduce(s, Begin(p), t0);
    assert AttemptsOf(s1, p) == AttemptsOf(s, p) + 1;
  }

  /**
   * `fetchPage` never dispatches an action the reducer would ignore: every
   * dispatched fetch makes a non-zero page current and marks it as fetching.
   */
  lemma FetchPageTakesEffect(s: State, page: int, force: bool, now: int)
    requires force || page != s.currentPage
    ensures var target := if page == 0 then 1 else page;
            var r := AfterFetch(s, FetchPage(s, page, force), now);
      && r.currentPage == target != 0
      && CurrentStatus(r) == Fetching
      && AttemptsOf(r, target) == AttemptsOf(s, target) + 1
  {
  }

  /** `fetchNext` moves exactly one page forward when there is a next page, and does nothing otherwise. */
  lemma NextMovesForward(s: State, now: int)
    ensures HasNext(s) && s.currentPage != -1 ==> AfterFetch(s, FetchNext(s), now).currentPage == s.currentPage + 1
    ensures !HasNext(s) ==> AfterFetch(s, FetchNext(s), now) == s
  {
  }

  /** `fetchPrev` moves exactly one page back when there is a previous one; it never reaches page 0. */
  lemma PrevMovesBack(s: State, now: int)
    ensures HasPrev(s) ==> AfterFetch(s, FetchPrev(s), now).currentPage == s.currentPage - 1 >= 1
    ensures !HasPrev(s) ==> AfterFetch(s, FetchPrev(s), now) == s
  {
  }

  /**
   * From a page past the first, `fetchNext` then `fetchPrev` comes back to
   * where it started: the next page always has a previous one.
   */
  lemma NextThenPrev(s: State, now: int)
    requires HasNext(s) && s.currentPage >= 1
    ensures var s1 := AfterFetch(s, FetchNext(s), now);
      && HasPrev(s1)
      && AfterFetch(s1, FetchPrev(s1), now).currentPage == s.currentPage
  {
  }

  /** `fetchPrev` then `fetchNext` comes back too, unless the page count had already shrunk below the page. */
  lemma PrevThenNext(s: State, now: int)
    requires HasPrev(s)
    ensures var s1 := AfterFetch(s, FetchPrev(s), now);
      && (HasNext(s1) <==> s.countPages >= s.currentPage)
      && (HasNext(s1) ==> AfterFetch(s1, FetchNext(s1), now).currentPage == s.currentPage)
  {
  }

  /** A fetcher mounted with `fetchOnMount` starts on page 1, fetching, with one attempt. */
  lemma MountFetchesFirstPage(given: PartialOptions, now: int)
    requires given.fetchOnMount != Some(false)
    ensures var s := Initial(given);
            var r := AfterFetch(s, OnMount(s), now);
      && r.currentPage == 1
      && IsFetching(CurrentStatus(r))
      && r.pagination == map[1 := PageData(Fetching, now, Some(1))]
  {
  }

  /**
   * The pagination parameters as they reach the query string: `page=<n>`
   * and `per-page=<size>`, where the page is never `0`.
   */
  lemma PaginationQuery(page: int, size: int)
    ensures var q := Url.PrepareRawParams(CreatePagination(page, size));
      && q == ["page=" + Strings.IntToString(if page == 0 then 1 else page), "per-page=" + Strings.IntToString(size)]
      && Strings.IntToString(if page == 0 then 1 else page) != "0"
  {
    Strings.IntToStringZero(if page == 0 then 1 else page);
    var q := Url.PrepareRawParams(CreatePagination(page, size));
    assert q[0] == "page=" + Strings.IntToString(if page == 0 then 1 else page);
    assert q[1] == "per-page=" + Strings.IntToString(size);
  }
}

=== FILE: seqs.dfy ===
/**
 * Sequence operations shared by the collection and the storage registry:
 * MobX's `array.remove`, and `uniq`.
 */
module Seqs {

  ghost predicate NoDup<T>(s: seq<T>) {
    forall i, j :: 0 <= i < j < |s| ==> s[i] != s[j]
  }

  /** `array.remove(x)` of an observable array: drops the first occurrence, if any. */
  function RemoveFirst<T(==,!new)>(s: seq<T>, x: T): (r: seq<T>)
    ensures x !in s ==> r == s
    ensures x in s ==> |r| == |s| - 1
    ensures forall y :: y in r ==> y in s
    ensures forall y :: y in s && y != x ==> y in r
  {
    if |s| == 0 then []
    else if s[0] == x then s[1..]
    else
      var rest := RemoveFirst(s[1..], x);
      assert forall y :: y in s <==> y == s[0] || y in s[1..];
      [s[0]] + rest
  }

  /** Removing the first occurrence from a list without duplicates leaves none of it. */
  lemma {:induction false} RemoveFirstNoDup<T(!new)>(s: seq<T>, x: T)
    requires NoDup(s)
    ensures NoDup(RemoveFirst(s, x)) && x !in RemoveFirst(s, x)
  {
    if |s| > 0 {
      NoDupTail(s);
      if s[0] != x {
        RemoveFirstNoDup(s[1..], x);
        var rest := RemoveFirst(s[1..], x);
        assert s[0] !in rest;
        var r := [s[0]] + rest;
        forall i, j | 0 <= i < j < |r| ensures r[i] != r[j] {
          if i == 0 { assert r[j] == rest[j - 1]; assert r[j] in rest; } else { assert r[i] == rest[i - 1] && r[j] == rest[j - 1]; }
        }
      }
    }
  }

  /** The tail of a list without duplicates has none and does not hold the head. */
  lemma NoDupTail<T>(s: seq<T>)
    requires NoDup(s) && |s| > 0
    ensures NoDup(s[1..]) && s[0] !in s[1..]
  {
    forall i, j | 0 <= i < j < |s[1..]| ensures s[1..][i] != s[1..][j] {
      assert s[1..][i] == s[i + 1] && s[1..][j] == s[j + 1];
    }
    forall i | 0 <= i < |s[1..]| ensures s[1..][i] != s[0] {
      assert s[1..][i] == s[i + 1];
    }
  }

  /** Appending a non-empty list is appending its head, then its tail. */
  lemma AppendHeadTail<T>(a: seq<T>, s: seq<T>)
    requires |s| > 0
    ensures a + s == a + [s[0]] + s[1..]
  {
  }

  /** `uniq`: the first occurrence of every element, in order. */
  function Uniq<T(==,!new)>(xs: seq<T>): (r: seq<T>)
    ensures NoDup(r)
    ensures forall x :: x in r <==> x in xs
    ensures |r| <= |xs|
  {
    if |xs| == 0 then []
    else
      var init := xs[..|xs| - 1];
      var last := xs[|xs| - 1];
      var r := Uniq(init);
      assert xs == init + [last];
      if last in r then r
      else
        assert NoDup(r + [last]) by {
          forall i, j | 0 <= i < j < |r + [last]| ensures (r + [last])[i] != (r + [last])[j] {
            if j == |r| { assert (r + [last])[i] == r[i]; }
          }
        }
        r + [last]
  }
}

=== FILE: storage.dfy ===
/**
 * The hidden-state store of src/services/storage.ts (`DataStorage`): per-model
 * data and meta dictionaries keyed by model, per-class default values and
 * reference options, and the registry of live collections.
 *
 * Weak maps become finite maps keyed by handles. The collection queries the
 * store forwards to (`hasItem`, `find`, `findAll`) are passed in as functions
 * of the collection handle.
 */
module Storage {
  import opened Wrappers
  import opened Ident
  import opened Json
  import opened Seqs
  import Utils

  /** A model class object (`typeof Model`). */
  type ClassRef = nat

  /** A plain dictionary. */
  type Dict<V> = map<string, V>

  /** `IReferenceOptions`: the related model type, the kind of reference and the back-reference property. */
  datatype RefOptions = RefOptions(model: string, refKind: string, property: Option<string>)

  /** `IDataStorage`: a model's data and meta dictionaries. */
  datatype Entry = Entry(data: Dict<Json>, meta: Dict<Json>)

  datatype DataStorage = DataStorage(
    modelData: map<Handle, Entry>,
    classDefaults: map<ClassRef, Dict<Json>>,
    classRefs: map<ClassRef, Dict<RefOptions>>,
    collections: seq<CollectionId>)

  /** A fresh store. */
  const Empty: DataStorage := DataStorage(map[], map[], map[], [])

  /** `dict[key]`, `undefined` when absent. */
  function Get(d: Dict<Json>, key: string): Json {
    if key in d then d[key] else Undefined
  }

  /** `initModel(model)`: gives the model empty data and meta, replacing whatever it had. */
  function InitModel(s: DataStorage, m: Handle): (r: (DataStorage, Entry))
    ensures r.1 == Entry(map[], map[])
    ensures r.0.modelData == s.modelData[m := r.1]
    ensures r.0.classDefaults == s.classDefaults && r.0.classRefs == s.classRefs && r.0.collections == s.collections
  {
    var e := Entry(map[], map[]);
    (s.(modelData := s.modelData[m := e]), e)
  }

  /** `__getModelData(model)`: the model's entry, created empty on first access. */
  function EntryOf(s: DataStorage, m: Handle): (r: (DataStorage, Entry))
    ensures m in r.0.modelData && r.0.modelData[m] == r.1
    ensures m in s.modelData ==> r == (s, s.modelData[m])
    ensures m !in s.modelData ==> r.1 == Entry(map[], map[]) && r.0.modelData == s.modelData[m := r.1]
    ensures r.0.classDefaults == s.classDefaults && r.0.classRefs == s.classRefs && r.0.collections == s.collections
  {
    if m in s.modelData then (s, s.modelData[m]) else InitModel(s, m)
  }

  /** `getModelData(model)`. */
  function GetModelData(s: DataStorage, m: Handle): (r: (DataStorage, Dict<Json>))
    ensures m in r.0.modelData && r.1 == r.0.modelData[m].data
    ensures m !in s.modelData ==> r.1 == map[]
  {
    var (s2, e) := EntryOf(s, m);
    (s2, e.data)
  }

  /** `getModelDataKey(model, key)`. */
  function GetModelDataKey(s: DataStorage, m: Handle, key: string): (r: (DataStorage, Json))
    ensures r.1 == Get(GetModelData(s, m).1, key)
    ensures m !in s.modelData ==> r.1 == Undefined
  {
    var (s2, e) := EntryOf(s, m);
    (s2, Get(e.data, key))
  }

  /** `setModelData(model, data)`: the given keys take the given values; other keys keep theirs. */
  function SetModelData(s: DataStorage, m: Handle, data: Dict<Json>): (r: DataStorage)
    ensures m in r.modelData
    ensures forall k :: k in data ==> k in r.modelData[m].data && r.modelData[m].data[k] == data[k]
    ensures forall k :: k !in data ==> Get(r.modelData[m].data, k) == Get(GetModelData(s, m).1, k)
    ensures r.modelData[m].meta == EntryOf(s, m).1.meta
    ensures forall other :: other != m ==> (other in r.modelData <==> other in s.modelData)
    ensures forall other :: other != m && other in s.modelData ==> r.modelData[other] == s.modelData[other]
  {
    var (s2, e) := EntryOf(s, m);
    s2.(modelData := s2.modelData[m := e.(data := e.data + data)])
  }

  /** `setModelDataKey(model, key, value)`. */
  function SetModelDataKey(s: DataStorage, m: Handle, key: string, value: Json): (r: DataStorage)
    ensures GetModelDataKey(r, m, key).1 == value
    ensures forall k :: k != key ==> GetModelDataKey(r, m, k).1 == GetModelDataKey(s, m, k).1
  {
    SetModelData(s, m, map[key := value])
  }

  /** `getModelMeta(model)`: `null` for a model never initialised, without initialising it. */
  function GetModelMeta(s: DataStorage, m: Handle): (r: Option<Dict<Json>>)
    ensures r.None? <==> m !in s.modelData
    ensures r.Some? ==> r.value == s.modelData[m].meta
  {
    if m in s.modelData then Some(s.modelData[m].meta) else None
  }

  /** `getModelMetaKey(model, key)`: `undefined` when the model or the key is missing. */
  function GetModelMetaKey(s: DataStorage, m: Handle, key: string): (r: Json)
    ensures m !in s.modelData ==> r == Undefined
    ensures m in s.modelData ==> r == Get(s.modelData[m].meta, key)
  {
    match GetModelMeta(s, m)
    case None => Undefined
    case Some(meta) => Get(meta, key)
  }

  /** `setModelMeta(model, meta)`: merges like `setModelData`, into the meta dictionary, and returns it. */
  function SetModelMeta(s: DataStorage, m: Handle, meta: Dict<Json>): (r: (DataStorage, Dict<Json>))
    ensures m in r.0.modelData && r.1 == r.0.modelData[m].meta
    ensures forall k :: k in meta ==> k in r.1 && r.1[k] == meta[k]
    ensures forall k :: k !in meta ==> Get(r.1, k) == Get(EntryOf(s, m).1.meta, k)
    ensures r.0.modelData[m].data == EntryOf(s, m).1.data
  {
    var (s2, e) := EntryOf(s, m);
    var e2 := e.(meta := e.meta + meta);
    (s2.(modelData := s2.modelData[m := e2]), e2.meta)
  }

  /** `Object.assign(existing || {}, {[key]: value})` on a per-class dictionary. */
  function AddToClass<V>(dicts: map<ClassRef, Dict<V>>, cls: ClassRef, key: string, value: V): (r: map<ClassRef, Dict<V>>)
    ensures cls in r && key in r[cls] && r[cls][key] == value
    ensures cls in dicts ==> forall k :: k in dicts[cls] && k != key ==> k in r[cls] && r[cls][k] == dicts[cls][k]
    ensures cls !in dicts ==> r[cls] == map[key := value]
    ensures forall c :: c != cls ==> (c in r <==> c in dicts) && (c in dicts ==> r[c] == dicts[c])
  {
    if cls in dicts then dicts[cls := dicts[cls][key := value]]
    else dicts[cls := map[key := value]]
  }

  /** `addModelDefaultField(model, key, value)`. */
  function AddModelDefaultField(s: DataStorage, cls: ClassRef, key: string, value: Json): (r: DataStorage)
    ensures r.classDefaults == AddToClass(s.classDefaults, cls, key, value)
    ensures r.modelData == s.modelData && r.classRefs == s.classRefs && r.collections == s.collections
  {
    s.(classDefaults := AddToClass(s.classDefaults, cls, key, value))
  }

  /** `addModelClassReference(model, key, options)`. */
  function AddModelClassReference(s: DataStorage, cls: ClassRef, key: string, options: RefOptions): (r: DataStorage)
    ensures r.classRefs == AddToClass(s.classRefs, cls, key, options)
    ensures r.modelData == s.modelData && r.classDefaults == s.classDefaults && r.collections == s.collections
  {
    s.(classRefs := AddToClass(s.classRefs, cls, key, options))
  }

  /** `Object.assign({}, ...ds)`: later dictionaries overwrite earlier ones. */
  function AssignAll<V>(ds: seq<Dict<V>>): Dict<V> {
    if |ds| == 0 then map[] else AssignAll(ds[..|ds| - 1]) + ds[|ds| - 1]
  }

  function Reverse<T>(xs: seq<T>): (r: seq<T>)
    ensures |r| == |xs|
    ensures forall i :: 0 <= i < |xs| ==> r[i] == xs[|xs| - 1 - i]
  {
    if |xs| == 0 then [] else Reverse(xs[1..]) + [xs[0]]
  }

  /** The dictionary of each class on a chain, `{}` for a class with none. */
  function DictsAlong<V>(dicts: map<ClassRef, Dict<V>>, chain: seq<ClassRef>): (r: seq<Dict<V>>)
    ensures |r| == |chain|
    ensures forall i :: 0 <= i < |chain| ==> r[i] == (if chain[i] in dicts then dicts[chain[i]] else map[])
  {
    seq(|chain|, i requires 0 <= i < |chain| => if chain[i] in dicts then dicts[chain[i]] else map[])
  }

  /**
   * The merge of `getModelDefaults` and `getModelClassReferences`: the
   * dictionaries collected along the class chain (the class itself first,
   * then its ancestors) are reversed and assigned left to right.
   */
  function ChainMerge<V>(dicts: map<ClassRef, Dict<V>>, chain: seq<ClassRef>): Dict<V> {
    AssignAll(Reverse(DictsAlong(dicts, chain)))
  }

  /** `getModelDefaults(obj)`, given the class chain that starts at `obj`. */
  function GetModelDefaults(s: DataStorage, chain: seq<ClassRef>): (r: Dict<Json>)
    ensures forall key :: key in r <==> FirstDefining(DictsAlong(s.classDefaults, chain), key).Some?
    ensures forall key :: key in r ==> r[key] == FirstDefining(DictsAlong(s.classDefaults, chain), key).value
  {
    ChainMergeFirstWins(s.classDefaults, chain);
    ChainMerge(s.classDefaults, chain)
  }

  /** `getModelClassReferences(obj)`, given the class chain that starts at `obj`. */
  function GetModelClassReferences(s: DataStorage, chain: seq<ClassRef>): (r: Dict<RefOptions>)
    ensures forall key :: key in r <==> FirstDefining(DictsAlong(s.classRefs, chain), key).Some?
    ensures forall key :: key in r ==> r[key] == FirstDefining(DictsAlong(s.classRefs, chain), key).value
  {
    ChainMergeFirstWins(s.classRefs, chain);
    ChainMerge(s.classRefs, chain)
  }

  /** Reference reading of a key along a chain: the value of the first dictionary that has it. */
  function FirstDefining<V>(ds: seq<Dict<V>>, key: string): Option<V> {
    if |ds| == 0 then None
    else if key in ds[0] then Some(ds[0][key])
    else FirstDefining(ds[1..], key)
  }

  /** Assigning one more dictionary on top. */
  lemma AssignAllSnoc<V>(ds: seq<Dict<V>>, d: Dict<V>)
    ensures AssignAll(ds + [d]) == AssignAll(ds) + d
  {
    assert (ds + [d])[..|ds + [d]| - 1] == ds;
  }

  /**
   * Merging the reversed list lets the earliest dictionary that defines a key
   * win: subclass entries override their ancestors'.
   */
  lemma {:induction false} ReverseAssignFirstWins<V>(ds: seq<Dict<V>>, key: string)
    ensures key in AssignAll(Reverse(ds)) <==> FirstDefining(ds, key).Some?
    ensures key in AssignAll(Reverse(ds)) ==> AssignAll(Reverse(ds))[key] == FirstDefining(ds, key).value
  {
    if |ds| > 0 {
      ReverseAssignFirstWins(ds[1..], key);
      assert Reverse(ds) == Reverse(ds[1..]) + [ds[0]];
      AssignAllSnoc(Reverse(ds[1..]), ds[0]);
    }
  }

  /** A chain merge reads every key from the nearest class on the chain that defines it. */
  lemma ChainMergeFirstWins<V>(dicts: map<ClassRef, Dict<V>>, chain: seq<ClassRef>)
    ensures forall key :: key in ChainMerge(dicts, chain) <==> FirstDefining(DictsAlong(dicts, chain), key).Some?
    ensures forall key :: key in ChainMerge(dicts, chain) ==>
      ChainMerge(dicts, chain)[key] == FirstDefining(DictsAlong(dicts, chain), key).value
  {
    forall key
      ensures key in ChainMerge(dicts, chain) <==> FirstDefining(DictsAlong(dicts, chain), key).Some?
      ensures key in ChainMerge(dicts, chain) ==>
        ChainMerge(dicts, chain)[key] == FirstDefining(DictsAlong(dicts, chain), key).value
    {
      ReverseAssignFirstWins(DictsAlong(dicts, chain), key);
    }
  }

  /** The chain's own class wins for any key it defines. */
  lemma OwnDefaultWins(s: DataStorage, chain: seq<ClassRef>, key: string)
    requires |chain| > 0 && chain[0] in s.classDefaults && key in s.classDefaults[chain[0]]
    ensures key in GetModelDefaults(s, chain) && GetModelDefaults(s, chain)[key] == s.classDefaults[chain[0]][key]
  {
  }

  /** `registerCollection(collection)`. */
  function Register(s: DataStorage, c: CollectionId): (r: DataStorage)
    ensures r.collections == s.collections + [c]
    ensures r.modelData == s.modelData && r.classDefaults == s.classDefaults && r.classRefs == s.classRefs
  {
    s.(collections := s.collections + [c])
  }

  /** `unregisterCollection(collection)`: removes its first registration. */
  function Unregister(s: DataStorage, c: CollectionId): (r: DataStorage)
    ensures r.collections == RemoveFirst(s.collections, c)
    ensures r.modelData == s.modelData && r.classDefaults == s.classDefaults && r.classRefs == s.classRefs
  {
    s.(collections := RemoveFirst(s.collections, c))
  }

  /** `collections.filter(p)` distributes over concatenation. */
  lemma {:induction false} FilterCollsAppend(a: seq<CollectionId>, b: seq<CollectionId>, p: CollectionId -> bool)
    ensures FilterColls(a + b, p) == FilterColls(a, p) + FilterColls(b, p)
    decreases |a|
  {
    if |a| > 0 {
      assert (a + b)[1..] == a[1..] + b;
      FilterCollsAppend(a[1..], b, p);
    } else {
      assert a + b == b;
    }
  }

  /**
   * `getModelCollections` lists collections in registration order: registering
   * one more appends it to the result exactly when it holds the model.
   */
  lemma ModelCollectionsAfterRegister(s: DataStorage, c: CollectionId, hasItem: CollectionId -> bool)
    ensures GetModelCollections(Register(s, c), hasItem) ==
            GetModelCollections(s, hasItem) + (if hasItem(c) then [c] else [])
  {
    FilterCollsAppend(s.collections, [c], hasItem);
  }

  /** A collection registered once is gone after unregistering it; every other one stays. */
  lemma UnregisterRemoves(s: DataStorage, c: CollectionId)
    requires NoDup(s.collections)
    ensures c !in Unregister(s, c).collections
    ensures forall d :: d != c ==> (d in Unregister(s, c).collections <==> d in s.collections)
  {
    RemoveFirstNoDup(s.collections, c);
  }

  /** `collections.filter(p)`. */
  function FilterColls(cs: seq<CollectionId>, p: CollectionId -> bool): (r: seq<CollectionId>)
    ensures forall c :: c in r <==> c in cs && p(c)
    ensures forall c :: multiset(r)[c] == if p(c) then multiset(cs)[c] else 0
    ensures |r| <= |cs|
  {
    if |cs| == 0 then []
    else
      var rest := FilterColls(cs[1..], p);
      assert forall c :: c in cs <==> c == cs[0] || c in cs[1..];
      assert cs == [cs[0]] + cs[1..];
      if p(cs[0]) then [cs[0]] + rest else rest
  }

  /** `getModelCollections(model)`: the registered collections whose `hasItem(model)` holds, in registration order. */
  function GetModelCollections(s: DataStorage, hasItem: CollectionId -> bool): (r: seq<CollectionId>)
    ensures forall c :: c in r <==> c in s.collections && hasItem(c)
    ensures forall c :: multiset(r)[c] == if hasItem(c) then multiset(s.collections)[c] else 0
  {
    FilterColls(s.collections, hasItem)
  }

  /** The first collection, in order, whose lookup finds a model. */
  function FirstHit(cs: seq<CollectionId>, find: CollectionId -> Option<Handle>): (r: Option<Handle>)
    ensures r.None? <==> forall i :: 0 <= i < |cs| ==> find(cs[i]).None?
    ensures r.Some? ==> exists i :: 0 <= i < |cs| && find(cs[i]) == r && forall j :: 0 <= j < i ==> find(cs[j]).None?
  {
    if |cs| == 0 then None
    else if find(cs[0]).Some? then find(cs[0])
    else
      var r := FirstHit(cs[1..], find);
      assert forall i :: 1 <= i < |cs| ==> cs[i] == cs[1..][i - 1];
      if r.Some? then
        var i :| 0 <= i < |cs[1..]| && find(cs[1..][i]) == r && forall j :: 0 <= j < i ==> find(cs[1..][j]).None?;
        assert find(cs[i + 1]) == r;
        assert forall j :: 0 <= j < i + 1 ==> find(cs[j]).None? by {
          forall j | 0 <= j < i + 1 ensures find(cs[j]).None? {
            if j > 0 { assert cs[j] == cs[1..][j - 1]; }
          }
        }
        r
      else r
  }

  /**
   * `findModel(model, modelId)`: `null` for a `null` or `undefined` id;
   * otherwise the first registered collection's `find(type, id)` hit.
   * `find` stands for that per-collection lookup.
   */
  function FindModel(s: DataStorage, modelId: Option<Identifier>, find: CollectionId -> Option<Handle>): (r: Option<Handle>)
    ensures modelId.None? ==> r.None?
    ensures modelId.Some? ==> r == FirstHit(s.collections, find)
  {
    if modelId.None? then None else FirstHit(s.collections, find)
  }

  /** A JSON object's member value for a key, `undefined` when absent. */
  function MemberValue(members: seq<Member>, key: string): (r: Json)
    ensures r != Undefined ==> exists i :: 0 <= i < |members| && members[i].key == key && members[i].value == r
  {
    if |members| == 0 then Undefined
    else if members[0].key == key then members[0].value
    else
      var r := MemberValue(members[1..], key);
      assert forall i :: 1 <= i < |members| ==> members[i] == members[1..][i - 1];
      r
  }

  /**
   * `getModelReferenceOptions(model, key)`: reads `refs[key]` from the meta;
   * missing or `null` refs make the property read throw.
   */
  function GetModelReferenceOptions(s: DataStorage, m: Handle, key: string): (r: Result<Json, string>)
    ensures r.Err? <==> IsNullish(GetModelMetaKey(s, m, "refs"))
    ensures m !in s.modelData ==> r.Err?
  {
    match GetModelMetaKey(s, m, "refs")
    case Undefined => Err("TypeError")
    case Null => Err("TypeError")
    case Obj(members) => Ok(MemberValue(members, key))
    case _ => Ok(Undefined)
  }

  /**
   * `getModelsByType(type)`: every registered collection's `findAll(type)`,
   * flattened and without repeats. `findAll` stands for that per-collection query.
   */
  function GetModelsByType(s: DataStorage, findAll: CollectionId -> seq<Handle>): (r: seq<Handle>)
    ensures NoDup(r)
  {
    var lists := seq(|s.collections|, i requires 0 <= i < |s.collections| => Utils.Sub(findAll(s.collections[i])));
    Uniq(Utils.Flatten(lists))
  }

  /** A model is found by type exactly when some registered collection lists it. */
  lemma ModelsByTypeIsUnion(s: DataStorage, findAll: CollectionId -> seq<Handle>, h: Handle)
    ensures h in GetModelsByType(s, findAll) <==> exists i :: 0 <= i < |s.collections| && h in findAll(s.collections[i])
  {
    var lists := seq(|s.collections|, i requires 0 <= i < |s.collections| => Utils.Sub(findAll(s.collections[i])));
    Utils.FlattenMember(lists, h);
    assert forall i :: 0 <= i < |lists| ==> Utils.Piece(lists[i]) == findAll(s.collections[i]);
  }
}

=== FILE: strings.dfy ===
/**
 * String helpers for the parts of JavaScript the modelled code relies on:
 * `String(n)` for integers, `Array.prototype.join`, `indexOf` on a single
 * character, and a splitter used to state that joined parameter lists can be
 * read back.
 */
module Strings {

  /** The decimal digit for 0 <= d < 10. */
  function Digit(d: nat): char
    requires d < 10
  {
    "0123456789"[d]
  }

  predicate IsDigit(c: char) {
    '0' <= c <= '9'
  }

  /** Decimal representation of a natural number, without leading zeros. */
  function NatToString(n: nat): (s: string)
    ensures |s| >= 1
    ensures forall i :: 0 <= i < |s| ==> IsDigit(s[i])
    ensures s[0] == '0' <==> n == 0
  {
    if n < 10 then [Digit(n)] else NatToString(n / 10) + [Digit(n % 10)]
  }

  /** `String(n)` for an integer `n`: a minus sign for negatives, then the digits. */
  function IntToString(n: int): (s: string)
    ensures |s| >= 1
    ensures forall i :: 0 <= i < |s| ==> IsDigit(s[i]) || s[i] == '-'
  {
    if n < 0 then "-" + NatToString(-n) else NatToString(n)
  }

  lemma IntToStringZero(n: int)
    ensures IntToString(n) == "0" <==> n == 0
  {
    if n < 0 {
      assert IntToString(n)[0] == '-';
    } else if IntToString(n) == "0" {
      assert NatToString(n)[0] == '0';
    }
  }

  /** `xs.join(sep)`: the pieces with `sep` between consecutive ones. */
  function Join(xs: seq<string>, sep: string): string
  {
    if |xs| == 0 then ""
    else if |xs| == 1 then xs[0]
    else xs[0] + sep + Join(xs[1..], sep)
  }

  /** Index of the first occurrence of `c` in `s`, when there is one. */
  function IndexOf(s: string, c: char): (i: nat)
    requires c in s
    ensures i < |s| && s[i] == c && c !in s[..i]
  {
    if s[0] == c then 0
    else
      assert s == [s[0]] + s[1..];
      var j := IndexOf(s[1..], c);
      assert s[..j + 1] == [s[0]] + s[1..][..j];
      j + 1
  }

  /** `s.split(c)` for a one-character separator. */
  function Split(s: string, c: char): (r: seq<string>)
    ensures |r| >= 1
    decreases |s|
  {
    if c !in s then [s]
    else
      var i := IndexOf(s, c);
      [s[..i]] + Split(s[i + 1..], c)
  }

  /** Splitting `a + [c] + b`, where `a` has no `c`, peels off exactly `a`. */
  lemma SplitCons(a: string, c: char, b: string)
    requires c !in a
    ensures Split(a + [c] + b, c) == [a] + Split(b, c)
  {
    var s := a + [c] + b;
    assert s[|a|] == c;
    assert s[..|a|] == a;
    var i := IndexOf(s, c);
    assert s[..i] == a;
    assert s[i + 1..] == b;
  }

  /** Join and Split are inverse when no piece contains the separator. */
  lemma {:induction false} SplitJoin(xs: seq<string>, c: char)
    requires |xs| >= 1
    requires forall i :: 0 <= i < |xs| ==> c !in xs[i]
    ensures Split(Join(xs, [c]), c) == xs
  {
    if |xs| == 1 {
      assert c !in xs[0];
    } else {
      SplitJoin(xs[1..], c);
      SplitCons(xs[0], c, Join(xs[1..], [c]));
      assert [xs[0]] + xs[1..] == xs;
    }
  }

  /** A character occurs in a join exactly when it occurs in a piece or in a separator used. */
  lemma {:induction false} JoinMembership(xs: seq<string>, c: char, d: char)
    requires d != c
    ensures d in Join(xs, [c]) <==> exists i :: 0 <= i < |xs| && d in xs[i]
  {
    if |xs| == 0 {
    } else if |xs| == 1 {
      assert d in xs[0] ==> 0 < |xs| && d in xs[0];
    } else {
      JoinMembership(xs[1..], c, d);
      var j := Join(xs, [c]);
      assert j == xs[0] + [c] + Join(xs[1..], [c]);
      if d in j {
        if d in xs[0] {
        } else {
          assert d in Join(xs[1..], [c]);
          var k :| 0 <= k < |xs[1..]| && d in xs[1..][k];
          assert d in xs[k + 1];
        }
      } else {
        forall i | 0 <= i < |xs|
          ensures d !in xs[i]
        {
          if i > 0 {
            assert xs[i] == xs[1..][i - 1];
          }
        }
      }
    }
  }
}

=== FILE: url.dfy ===
/**
 * Request URL shaping of packages/datx-jsonapi/src/helpers/url.ts: the path
 * (endpoint, id segment, base-URL prefix) and the query string of the JSON:API
 * 1.0 query parameters — `filter`, `sort`, `include` and `fields` — followed by
 * raw parameters. Values are concatenated as they are: the query component
 * (section 3.4 of RFC 3986) is built without the percent-encoding of
 * section 2.1.
 */
module Url {
  import opened Wrappers
  import opened Json
  import Ident
  import Strings

  /** `ParamArrayType`: how an array value becomes query parameters. */
  datatype ArrayStyle = ObjectPath | CommaSeparated | MultipleParams | ParamArray

  /** The parts of the network `config` the builder reads. */
  datatype Config = Config(baseUrl: string, arrayStyle: ArrayStyle)

  /** One `{key, value}` pair produced by `parametrize`. */
  datatype Pair = Pair(key: string, value: Json)

  /** A raw parameter: a string used verbatim, or a `{key, value}` object. */
  datatype RawParam = RawText(text: string) | RawPair(key: string, value: string)

  /** `IRequestOptions`: each absent option is `undefined`. */
  datatype RequestOptions = RequestOptions(
    headers: Json,
    filter: Json,
    sort: Json,
    includes: Json,
    fields: Json,
    params: seq<RawParam>)

  /** What a model class contributes to the path: its `endpoint`, `baseUrl` and `type` (empty when unset). */
  datatype ModelInfo = ModelInfo(modelType: string, endpoint: string, baseUrl: string)

  /** The built request: its URL and headers. */
  datatype Query = Query(url: string, headers: Json)

  /** The decimal key of an array index. */
  function IndexKey(i: nat): string {
    Strings.NatToString(i)
  }

  /**
   * `parametrize(params, scope)`: walks `Object.keys(params)`. Arrays follow
   * the configured style; objects recurse with the scope `key.` (the
   * enclosing scope is not carried into it); anything else yields one pair.
   * A nested `null` is an object whose keys cannot be listed: it throws.
   */
  function Parametrize(v: Json, scope: string, style: ArrayStyle): (r: Result<seq<Pair>, string>)
    ensures r.Err? <==> Throws(v, style)
    ensures r.Err? ==> r.error == "TypeError"
    decreases v, 0
  {
    match v
    case Obj(ms) => ParamMembers(ms, scope, style)
    case Arr(items) => ParamItems(items, 0, scope, style)
    case Str(s) => Ok(seq(|s|, i requires 0 <= i < |s| => Pair(scope + IndexKey(i), Str([s[i]]))))
    case Num(_) => Ok([])
    case Bool(_) => Ok([])
    case Null => Err("TypeError")
    case Undefined => Err("TypeError")
  }

  /** `parametrize` over an object's members, in key order. */
  function ParamMembers(ms: seq<Member>, scope: string, style: ArrayStyle): (r: Result<seq<Pair>, string>)
    ensures r.Err? <==> exists i :: 0 <= i < |ms| && EntryThrows(ms[i].value, style)
    ensures r.Err? ==> r.error == "TypeError"
    decreases ms, 0
  {
    if |ms| == 0 then Ok([])
    else
      assert forall i :: 1 <= i < |ms| ==> ms[1..][i - 1] == ms[i];
      var first :- ParamEntry(ms[0].key, ms[0].value, scope, style);
      var rest :- ParamMembers(ms[1..], scope, style);
      Ok(first + rest)
  }

  /** `parametrize` over an array's elements, keyed by their indices from `start`. */
  function ParamItems(items: seq<Json>, start: nat, scope: string, style: ArrayStyle): (r: Result<seq<Pair>, string>)
    ensures r.Err? <==> exists i :: 0 <= i < |items| && EntryThrows(items[i], style)
    ensures r.Err? ==> r.error == "TypeError"
    decreases items, 0
  {
    if |items| == 0 then Ok([])
    else
      assert forall i :: 1 <= i < |items| ==> items[1..][i - 1] == items[i];
      var first :- ParamEntry(IndexKey(start), items[0], scope, style);
      var rest :- ParamItems(items[1..], start + 1, scope, style);
      Ok(first + rest)
  }

  /** The body of the `forEach` in `parametrize`, for one key and its value. */
  function ParamEntry(key: string, value: Json, scope: string, style: ArrayStyle): (r: Result<seq<Pair>, string>)
    ensures r.Err? <==> EntryThrows(value, style)
    ensures r.Err? ==> r.error == "TypeError"
    decreases value, 1
  {
    if value.Arr? then
      match style
      case ObjectPath => Parametrize(value, key + ".", style)
      case CommaSeparated => Ok([Pair(scope + key, Str(JoinValues(value.items, ",")))])
      case MultipleParams =>
        Ok(seq(|value.items|, i requires 0 <= i < |value.items| => Pair(scope + key, value.items[i])))
      case ParamArray =>
        Ok(seq(|value.items|, i requires 0 <= i < |value.items| => Pair(scope + key + "][", value.items[i])))
    else if value.Obj? || value.Null? then Parametrize(value, key + ".", style)
    else Ok([Pair(scope + key, value)])
  }

  /**
   * Reference reading of when `parametrize` throws: it is handed `null` or
   * `undefined` itself, or some member or element leads it into one.
   */
  predicate Throws(v: Json, style: ArrayStyle)
    decreases v, 1
  {
    match v
    case Null => true
    case Undefined => true
    case Obj(ms) => exists i :: 0 <= i < |ms| && EntryThrows(ms[i].value, style)
    case Arr(items) => exists i :: 0 <= i < |items| && EntryThrows(items[i], style)
    case _ => false
  }

  /**
   * When the step for one member or element throws: only values that are
   * walked again (objects, `null`, and arrays in the `ObjectPath` style) can.
   */
  predicate EntryThrows(value: Json, style: ArrayStyle)
    decreases value, 2
  {
    if value.Arr? then style == ObjectPath && Throws(value, style)
    else (value.Obj? || value.Null?) && Throws(value, style)
  }

  /** A value `parametrize` emits as one pair: neither an array nor an object nor `null`. */
  predicate Scalar(v: Json) {
    !v.Arr? && !v.Obj? && !v.Null?
  }

  /** `x || {}`. */
  function OrEmpty(v: Json): Json {
    if Truthy(v) then v else Obj([])
  }

  /** `prepareFilters(filters)`: each pair as `filter[<key>]=<value>`. */
  function PrepareFilters(filters: Json, style: ArrayStyle): (r: Result<seq<string>, string>)
    ensures r.Ok? ==> Parametrize(filters, "", style).Ok?
    ensures r.Ok? ==> |r.value| == |Parametrize(filters, "", style).value|
    ensures r.Ok? ==> forall i :: 0 <= i < |r.value| ==>
      var p := Parametrize(filters, "", style).value[i];
      r.value[i] == "filter[" + p.key + "]=" + Render(p.value)
    ensures r.Err? <==> Parametrize(filters, "", style).Err?
  {
    var ps :- Parametrize(filters, "", style);
    Ok(seq(|ps|, i requires 0 <= i < |ps| => "filter[" + ps[i].key + "]=" + Render(ps[i].value)))
  }

  /** `prepareSort(sort)` and `prepareIncludes(include)`: one `name=value` parameter when the value is truthy. */
  function PrepareNamed(name: string, v: Json): (r: seq<string>)
    ensures Truthy(v) <==> |r| == 1
    ensures !Truthy(v) <==> r == []
    ensures Truthy(v) ==> r[0] == name + "=" + Render(v)
  {
    if Truthy(v) then [name + "=" + Render(v)] else []
  }

  /** An object's own keys and values; an array's and a string's are indexed. */
  function Entries(v: Json): (r: Result<seq<Member>, string>)
    ensures r.Err? <==> IsNullish(v)
    ensures v.Obj? ==> r == Ok(v.members)
    ensures v.Arr? ==> r.Ok? && |r.value| == |v.items|
    ensures v.Arr? ==> forall i :: 0 <= i < |v.items| ==> r.value[i] == Member(IndexKey(i), v.items[i])
  {
    match v
    case Obj(ms) => Ok(ms)
    case Arr(items) => Ok(seq(|items|, i requires 0 <= i < |items| => Member(IndexKey(i), items[i])))
    case Str(s) => Ok(seq(|s|, i requires 0 <= i < |s| => Member(IndexKey(i), Str([s[i]]))))
    case Num(_) => Ok([])
    case Bool(_) => Ok([])
    case Null => Err("TypeError")
    case Undefined => Err("TypeError")
  }

  /** `prepareFields(fields)`: `fields[<type>]=<value>` for each key. */
  function PrepareFields(fields: Json): (r: seq<string>)
    requires !IsNullish(fields)
    ensures var ms := Entries(fields).value;
      |r| == |ms| && forall i :: 0 <= i < |ms| ==> r[i] == "fields[" + ms[i].key + "]=" + Render(ms[i].value)
  {
    var ms := Entries(fields).value;
    seq(|ms|, i requires 0 <= i < |ms| => "fields[" + ms[i].key + "]=" + Render(ms[i].value))
  }

  /** `prepareRawParams(params)`: a string verbatim, an object as `key=value`. */
  function PrepareRawParams(params: seq<RawParam>): (r: seq<string>)
    ensures |r| == |params|
    ensures forall i :: 0 <= i < |params| ==>
      r[i] == (if params[i].RawText? then params[i].text else params[i].key + "=" + params[i].value)
  {
    seq(|params|, i requires 0 <= i < |params| =>
      match params[i]
      case RawText(t) => t
      case RawPair(k, v) => k + "=" + v)
  }

  /**
   * `prefixUrl(url)`: an absolute URL is kept, anything else gets the base
   * URL in front. `isAbsolute` stands for `URL_REGEX.test`.
   */
  function PrefixUrl(url: string, config: Config, isAbsolute: string -> bool): (r: string)
    ensures isAbsolute(url) ==> r == url
    ensures !isAbsolute(url) ==> r == config.baseUrl + url
  {
    if isAbsolute(url) then url else config.baseUrl + url
  }

  /**
   * `appendParams(url, params)`: nothing to add leaves the URL alone;
   * otherwise `?` (or `&` when the URL already has a `?`) and the parameters
   * joined by `&`.
   */
  function AppendParams(url: string, params: seq<string>): (r: string)
    ensures |params| == 0 ==> r == url
    ensures |params| > 0 && '?' !in url ==> r == url + "?" + Strings.Join(params, "&")
    ensures |params| > 0 && '?' in url ==> r == url + "&" + Strings.Join(params, "&")
  {
    if |params| == 0 then url
    else
      var separator := if '?' !in url then "?" else "&";
      url + separator + Strings.Join(params, "&")
  }

  /** The parameter groups, in order: filters, sort, include, fields, raw. */
  function Params(options: Option<RequestOptions>, style: ArrayStyle): (r: Result<seq<string>, string>)
  {
    if options.None? then Ok([])
    else
      var o := options.value;
      var filters :- PrepareFilters(OrEmpty(o.filter), style);
      Ok(filters + PrepareNamed("sort", o.sort) + PrepareNamed("include", o.includes)
         + PrepareFields(OrEmpty(o.fields)) + PrepareRawParams(o.params))
  }

  /**
   * `buildUrl(url, data, options)`: the prefixed URL with every parameter
   * group appended, and the options' headers (`{}` when absent).
   */
  function BuildUrl(url: string, options: Option<RequestOptions>, config: Config, isAbsolute: string -> bool): (r: Result<Query, string>)
    ensures r.Ok? ==> Params(options, config.arrayStyle).Ok?
    ensures r.Ok? ==> r.value.url == AppendParams(PrefixUrl(url, config, isAbsolute), Params(options, config.arrayStyle).value)
    ensures r.Err? <==> Params(options, config.arrayStyle).Err?
    ensures options.None? ==> r == Ok(Query(PrefixUrl(url, config, isAbsolute), Obj([])))
  {
    var params :- Params(options, config.arrayStyle);
    var headers := if options.Some? then OrEmpty(options.value.headers) else Obj([]);
    Ok(Query(AppendParams(PrefixUrl(url, config, isAbsolute), params), headers))
  }

  /** The first model class with the given type. */
  function FirstOfType(types: seq<ModelInfo>, t: string): (r: Option<ModelInfo>)
    ensures r.Some? ==> r.value in types && r.value.modelType == t
    ensures r.Some? ==> exists i :: 0 <= i < |types| && types[i] == r.value && forall j :: 0 <= j < i ==> types[j].modelType != t
    ensures r.None? <==> forall i :: 0 <= i < |types| ==> types[i].modelType != t
  {
    if |types| == 0 then None
    else if types[0].modelType == t then Some(types[0])
    else
      var r := FirstOfType(types[1..], t);
      assert forall i :: 1 <= i < |types| ==> types[i] == types[1..][i - 1];
      r
  }

  /** `endpoint || baseUrl || type`. */
  function ModelPath(m: ModelInfo): (r: string)
    ensures m.endpoint != "" ==> r == m.endpoint
    ensures m.endpoint == "" && m.baseUrl != "" ==> r == m.baseUrl
    ensures m.endpoint == "" && m.baseUrl == "" ==> r == m.modelType
  {
    if m.endpoint != "" then m.endpoint else if m.baseUrl != "" then m.baseUrl else m.modelType
  }

  /** The path of a request: the model's path when a model is known, otherwise the raw type, then `/id` for a truthy id. */
  function RequestPath(t: string, id: Option<Ident.Identifier>, queryModel: Option<ModelInfo>): (r: string)
    ensures id.None? || !Ident.Truthy(id.value) ==> r == (if queryModel.Some? then ModelPath(queryModel.value) else t)
    ensures id.Some? && Ident.Truthy(id.value) ==> r == (if queryModel.Some? then ModelPath(queryModel.value) else t) + "/" + Ident.Key(id.value)
  {
    var path := if queryModel.Some? then ModelPath(queryModel.value) else t;
    if id.Some? && Ident.Truthy(id.value) then path + "/" + Ident.Key(id.value) else path
  }

  /**
   * `prepareQuery(type, id, data, options, collection, model)`: the model
   * given, or else the first of the collection's types with that type, picks
   * the path; the URL is then built by `buildUrl`.
   */
  function PrepareQuery(t: string, id: Option<Ident.Identifier>, options: Option<RequestOptions>,
                        collectionTypes: Option<seq<ModelInfo>>, model: Option<ModelInfo>,
                        config: Config, isAbsolute: string -> bool): (r: Result<Query, string>)
    ensures model.Some? ==> r == BuildUrl(RequestPath(t, id, model), options, config, isAbsolute)
    ensures model.None? && collectionTypes.None? ==> r == BuildUrl(RequestPath(t, id, None), options, config, isAbsolute)
    ensures model.None? && collectionTypes.Some? ==>
      r == BuildUrl(RequestPath(t, id, FirstOfType(collectionTypes.value, t)), options, config, isAbsolute)
  {
    var queryModel := if model.Some? then model else if collectionTypes.Some? then FirstOfType(collectionTypes.value, t) else None;
    BuildUrl(RequestPath(t, id, queryModel), options, config, isAbsolute)
  }

  // ---------------------------------------------------------------------
  // Properties
  // ---------------------------------------------------------------------

  /** An object of one member is parametrized as that member's entry. */
  lemma OneMember(m: Member, scope: string, style: ArrayStyle)
    ensures ParamMembers([m], scope, style) == ParamEntry(m.key, m.value, scope, style)
  {
    assert [m][1..] == [];
    var e := ParamEntry(m.key, m.value, scope, style);
    if e.Ok? {
      assert e.value + [] == e.value;
    }
  }

  /** `{key: items}` with comma separation: one pair holding the joined values. */
  lemma CommaSeparatedStyle(key: string, items: seq<Json>)
    ensures Parametrize(Obj([Member(key, Arr(items))]), "", CommaSeparated) == Ok([Pair(key, Str(JoinValues(items, ",")))])
  {
    OneMember(Member(key, Arr(items)), "", CommaSeparated);
    assert "" + key == key;
  }

  /** `{key: items}` with repeated parameters: one pair per element, all under `key`. */
  lemma MultipleParamsStyle(key: string, items: seq<Json>)
    ensures var r := Parametrize(Obj([Member(key, Arr(items))]), "", MultipleParams);
      r.Ok? && |r.value| == |items| && forall i :: 0 <= i < |items| ==> r.value[i] == Pair(key, items[i])
  {
    OneMember(Member(key, Arr(items)), "", MultipleParams);
    assert "" + key == key;
  }

  /** `{key: items}` with the array notation: one pair per element, all under `key][`. */
  lemma ParamArrayStyle(key: string, items: seq<Json>)
    ensures var r := Parametrize(Obj([Member(key, Arr(items))]), "", ParamArray);
      r.Ok? && |r.value| == |items| && forall i :: 0 <= i < |items| ==> r.value[i] == Pair(key + "][", items[i])
  {
    OneMember(Member(key, Arr(items)), "", ParamArray);
    assert "" + key + "][" == key + "][";
  }

  /** `{key: items}` of scalars with object paths: one pair per element, under `key.<index>`. */
  lemma ObjectPathStyle(key: string, items: seq<Json>)
    requires forall i :: 0 <= i < |items| ==> Scalar(items[i])
    ensures var r := Parametrize(Obj([Member(key, Arr(items))]), "", ObjectPath);
      r.Ok? && |r.value| == |items| && forall i :: 0 <= i < |items| ==> r.value[i] == Pair(key + "." + IndexKey(i), items[i])
  {
    OneMember(Member(key, Arr(items)), "", ObjectPath);
    ObjectPathItems(items, 0, key + ".");
  }

  /** Under `ObjectPath`, scalar array elements become `scope<index>` pairs. */
  lemma {:induction false} ObjectPathItems(items: seq<Json>, start: nat, scope: string)
    requires forall i :: 0 <= i < |items| ==> Scalar(items[i])
    ensures var r := ParamItems(items, start, scope, ObjectPath);
      r.Ok? && |r.value| == |items| && forall i :: 0 <= i < |items| ==> r.value[i] == Pair(scope + IndexKey(start + i), items[i])
    decreases |items|
  {
    if |items| > 0 {
      ObjectPathItems(items[1..], start + 1, scope);
      assert ParamEntry(IndexKey(start), items[0], scope, ObjectPath) == Ok([Pair(scope + IndexKey(start), items[0])]);
    }
  }

  /**
   * A nested object takes the scope `key.` of its own key only: the filter
   * `{a: {b: {c: 1}}}` yields the key `b.c`, without `a.`.
   */
  lemma NestedScopeDropsOuterKeys()
    ensures Parametrize(Obj([Member("a", Obj([Member("b", Obj([Member("c", Num(1))]))]))]), "", ObjectPath)
      == Ok([Pair("b.c", Num(1))])
  {
    var inner := Member("c", Num(1));
    var middle := Member("b", Obj([inner]));
    var outer := Member("a", Obj([middle]));
    OneMember(inner, "b.", ObjectPath);
    assert "b." + "c" == "b.c";
    assert ParamEntry("c", Num(1), "b.", ObjectPath) == Ok([Pair("b.c", Num(1))]);
    assert Parametrize(Obj([inner]), "b.", ObjectPath) == Ok([Pair("b.c", Num(1))]);
    OneMember(middle, "a.", ObjectPath);
    assert "b" + "." == "b.";
    assert ParamEntry("b", Obj([inner]), "a.", ObjectPath) == Parametrize(Obj([inner]), "b.", ObjectPath);
    assert Parametrize(Obj([middle]), "a.", ObjectPath) == Ok([Pair("b.c", Num(1))]);
    OneMember(outer, "", ObjectPath);
    assert "a" + "." == "a.";
  }

  /** A flat object of scalars yields its members as pairs, in key order. */
  lemma {:induction false} FlatObjectPairs(ms: seq<Member>, scope: string, style: ArrayStyle)
    requires forall i :: 0 <= i < |ms| ==> Scalar(ms[i].value)
    ensures var r := ParamMembers(ms, scope, style);
      r.Ok? && |r.value| == |ms| && forall i :: 0 <= i < |ms| ==> r.value[i] == Pair(scope + ms[i].key, ms[i].value)
    decreases |ms|
  {
    if |ms| > 0 {
      FlatObjectPairs(ms[1..], scope, style);
      assert ParamEntry(ms[0].key, ms[0].value, scope, style) == Ok([Pair(scope + ms[0].key, ms[0].value)]);
    }
  }

  /** Whether a query string can be read back into its parameters. */
  lemma AppendedParamsReadBack(url: string, params: seq<string>)
    requires '?' !in url && |params| > 0
    requires forall i :: 0 <= i < |params| ==> '&' !in params[i] && '?' !in params[i]
    ensures var r := AppendParams(url, params);
            var q := Strings.IndexOf(r, '?');
            r[..q] == url && Strings.Split(r[q + 1..], '&') == params
  {
    var r := AppendParams(url, params);
    var j := Strings.Join(params, "&");
    assert r == url + "?" + j;
    assert r[|url|] == '?';
    Strings.JoinMembership(params, '&', '?');
    var q := Strings.IndexOf(r, '?');
    assert r[..|url|] == url;
    assert q == |url|;
    assert r[q + 1..] == j;
    Strings.SplitJoin(params, '&');
  }

  /** Options holding only the filter `{a: "1&filter[b]=2"}`. */
  function SmuggledFilter(): RequestOptions {
    RequestOptions(Undefined, Obj([Member("a", Str("1&filter[b]=2"))]), Undefined, Undefined, Undefined, [])
  }

  /** Options holding only the filter `{a: "1", b: "2"}`. */
  function TwoFilters(): RequestOptions {
    RequestOptions(Undefined, Obj([Member("a", Str("1")), Member("b", Str("2"))]), Undefined, Undefined, Undefined, [])
  }

  /**
   * Values are not encoded, so a value holding `&` reads back as extra
   * parameters: the filters `{a: "1&filter[b]=2"}` and `{a: "1", b: "2"}`
   * build the same URL.
   */
  lemma UnencodedValuesCollide(url: string, config: Config, isAbsolute: string -> bool)
    ensures BuildUrl(url, Some(SmuggledFilter()), config, isAbsolute) == BuildUrl(url, Some(TwoFilters()), config, isAbsolute)
  {
    FiltersJoinAlike(config.arrayStyle);
    SameJoinSameUrl(url, SmuggledFilter(), TwoFilters(), config, isAbsolute);
  }

  /** Both filters give non-empty parameter lists that join to the same query string. */
  lemma FiltersJoinAlike(style: ArrayStyle)
    ensures Params(Some(SmuggledFilter()), style).Ok? && Params(Some(TwoFilters()), style).Ok?
    ensures |Params(Some(SmuggledFilter()), style).value| > 0 && |Params(Some(TwoFilters()), style).value| > 0
    ensures Strings.Join(Params(Some(SmuggledFilter()), style).value, "&") == Strings.Join(Params(Some(TwoFilters()), style).value, "&")
  {
    OneFilterParams(style);
    TwoFilterParams(style);
    JoinedFilters();
  }

  /** Joining the one smuggled parameter and joining the two real ones give the same string. */
  lemma JoinedFilters()
    ensures Strings.Join(["filter[a]=1&filter[b]=2"], "&") == Strings.Join(["filter[a]=1", "filter[b]=2"], "&")
  {
    JoinTwo("filter[a]=1", "filter[b]=2");
    assert "filter[a]=1" + "&" + "filter[b]=2" == "filter[a]=1&filter[b]=2";
  }

  /** The filter `{a: "1&filter[b]=2"}` gives one parameter holding the `&`. */
  lemma OneFilterParams(style: ArrayStyle)
    ensures Params(Some(SmuggledFilter()), style) == Ok(["filter[a]=1&filter[b]=2"])
  {
    var p := ["filter[a]=1&filter[b]=2"];
    assert p[0] == "filter[" + "a" + "]=" + Render(Str("1&filter[b]=2"));
    FilterParams(Obj([Member("a", Str("1&filter[b]=2"))]), style, p);
  }

  /** The filter `{a: "1", b: "2"}` gives two parameters. */
  lemma TwoFilterParams(style: ArrayStyle)
    ensures Params(Some(TwoFilters()), style) == Ok(["filter[a]=1", "filter[b]=2"])
  {
    var p := ["filter[a]=1", "filter[b]=2"];
    assert p[0] == "filter[" + "a" + "]=" + Render(Str("1"));
    assert p[1] == "filter[" + "b" + "]=" + Render(Str("2"));
    FilterParams(Obj([Member("a", Str("1")), Member("b", Str("2"))]), style, p);
  }

  /** Options whose parameters join to the same string, with the same headers, build the same query. */
  lemma SameJoinSameUrl(url: string, one: RequestOptions, two: RequestOptions, config: Config, isAbsolute: string -> bool)
    requires Params(Some(one), config.arrayStyle).Ok? && Params(Some(two), config.arrayStyle).Ok?
    requires |Params(Some(one), config.arrayStyle).value| > 0 && |Params(Some(two), config.arrayStyle).value| > 0
    requires Strings.Join(Params(Some(one), config.arrayStyle).value, "&") == Strings.Join(Params(Some(two), config.arrayStyle).value, "&")
    requires one.headers == two.headers
    ensures BuildUrl(url, Some(one), config, isAbsolute) == BuildUrl(url, Some(two), config, isAbsolute)
  {
  }

  /** The parameter groups of options holding only the given filter. */
  lemma FilterParams(filter: Json, style: ArrayStyle, want: seq<string>)
    requires filter.Obj? && forall i :: 0 <= i < |filter.members| ==> Scalar(filter.members[i].value)
    requires |want| == |filter.members|
    requires forall i :: 0 <= i < |want| ==>
      want[i] == "filter[" + filter.members[i].key + "]=" + Render(filter.members[i].value)
    ensures Params(Some(RequestOptions(Undefined, filter, Undefined, Undefined, Undefined, [])), style) == Ok(want)
  {
    FlatObjectPairs(filter.members, "", style);
    var ps := Parametrize(filter, "", style).value;
    assert forall i :: 0 <= i < |ps| ==> ps[i].key == "" + filter.members[i].key;
    var f := PrepareFilters(OrEmpty(filter), style);
    assert OrEmpty(filter) == filter;
    assert f.Ok? && |f.value| == |want|;
    forall i | 0 <= i < |want|
      ensures f.value[i] == want[i]
    {
      assert "" + filter.members[i].key == filter.members[i].key;
    }
    assert f.value == want;
    assert PrepareFields(OrEmpty(Undefined)) == [];
    assert want + [] + [] + [] + [] == want;
  }

  /** Joining two parameters with `&` is the same string as one parameter holding the `&`. */
  lemma JoinTwo(a: string, b: string)
    ensures Strings.Join([a, b], "&") == Strings.Join([a + "&" + b], "&")
  {
    assert [a, b][1..] == [b];
  }
}

=== FILE: utils.dfy ===
/**
 * The pure helpers of datx-utils (packages/datx-utils/src/helpers.ts):
 * `mapItems`, `flatten` and `isFalsyArray`.
 */
module Utils {
  import opened Json

  /** A value that is `null`, a single item, or an array of items (`T | Array<T> | null`). */
  datatype Items<T> = Nothing | One(item: T) | Many(items: seq<T>)

  /**
   * `mapItems(data, fn)`: maps an array element-wise, returns `null` for `null`
   * without calling `fn`, and applies `fn` to a single item.
   */
  function MapItems<T, U>(data: Items<T>, fn: T -> U): (r: Items<U>)
    ensures data.Nothing? <==> r.Nothing?
    ensures data.One? ==> r == One(fn(data.item))
    ensures data.Many? <==> r.Many?
    ensures data.Many? ==> |r.items| == |data.items|
    ensures data.Many? ==> forall i :: 0 <= i < |data.items| ==> r.items[i] == fn(data.items[i])
  {
    match data
    case Nothing => Nothing
    case One(x) => One(fn(x))
    case Many(xs) => Many(seq(|xs|, i requires 0 <= i < |xs| => fn(xs[i])))
  }

  /** Mapping with the identity leaves the value unchanged. */
  lemma MapItemsIdentity<T>(data: Items<T>)
    ensures MapItems(data, (x: T) => x) == data
  {
    if data.Many? {
      assert MapItems(data, (x: T) => x).items == data.items;
    }
  }

  /** Mapping twice is mapping once with the composed function. */
  lemma MapItemsCompose<T, U, V>(data: Items<T>, f: T -> U, g: U -> V)
    ensures MapItems(MapItems(data, f), g) == MapItems(data, (x: T) => g(f(x)))
  {
    if data.Many? {
      assert MapItems(MapItems(data, f), g).items == MapItems(data, (x: T) => g(f(x))).items;
    }
  }

  /** One element of the argument of `flatten`: a scalar or a nested array. */
  datatype Nested<T> = Scalar(value: T) | Sub(items: seq<T>)

  /** What one element contributes to `[].concat(...data)`. */
  function Piece<T>(n: Nested<T>): seq<T> {
    match n
    case Scalar(x) => [x]
    case Sub(xs) => xs
  }

  /** The sum of the element lengths, counting a scalar as 1. */
  function Width<T>(xs: seq<Nested<T>>): nat {
    if |xs| == 0 then 0 else |Piece(xs[0])| + Width(xs[1..])
  }

  /** `flatten(data)`: concatenates one level, in order. */
  function Flatten<T>(xs: seq<Nested<T>>): (r: seq<T>)
    ensures |r| == Width(xs)
  {
    if |xs| == 0 then [] else Piece(xs[0]) + Flatten(xs[1..])
  }

  /** An item occurs in the flattened list exactly when it occurs in some element. */
  lemma {:induction false} FlattenMember<T>(xs: seq<Nested<T>>, x: T)
    ensures x in Flatten(xs) <==> exists i :: 0 <= i < |xs| && x in Piece(xs[i])
  {
    if |xs| > 0 {
      FlattenMember(xs[1..], x);
      if x in Flatten(xs[1..]) {
        var i :| 0 <= i < |xs[1..]| && x in Piece(xs[1..][i]);
        assert x in Piece(xs[i + 1]);
      }
      if exists i :: 0 <= i < |xs| && x in Piece(xs[i]) {
        var i :| 0 <= i < |xs| && x in Piece(xs[i]);
        if i > 0 {
          assert x in Piece(xs[1..][i - 1]);
        }
      }
    }
  }

  /** Flattening distributes over concatenation of the argument lists. */
  lemma {:induction false} FlattenAppend<T>(a: seq<Nested<T>>, b: seq<Nested<T>>)
    ensures Flatten(a + b) == Flatten(a) + Flatten(b)
  {
    if |a| == 0 {
      assert a + b == b;
    } else {
      assert (a + b)[1..] == a[1..] + b;
      FlattenAppend(a[1..], b);
    }
  }

  /** Flattening nested arrays only is plain concatenation of the arrays. */
  lemma {:induction false} FlattenSubs<T>(xs: seq<Nested<T>>, k: nat)
    requires k <= |xs|
    requires forall i :: 0 <= i < |xs| ==> xs[i].Sub?
    ensures Flatten(xs[..k]) + Flatten(xs[k..]) == Flatten(xs)
  {
    assert xs[..k] + xs[k..] == xs;
    FlattenAppend(xs[..k], xs[k..]);
  }

  /**
   * `isFalsyArray(value)`: an array with at least one falsy element. Non-arrays
   * and empty arrays give false.
   */
  method IsFalsyArray(value: Json) returns (r: bool)
    ensures r <==> value.Arr? && exists i :: 0 <= i < |value.items| && !Truthy(value.items[i])
  {
    if !value.Arr? {
      return false;
    }
    var every := true;
    var i := 0;
    while i < |value.items|
      invariant 0 <= i <= |value.items|
      invariant every <==> forall j :: 0 <= j < i ==> Truthy(value.items[j])
    {
      if !Truthy(value.items[i]) {
        every := false;
      }
      i := i + 1;
    }
    r := !every;
  }
}

=== FILE: wrappers.dfy ===
/** Failure-compatible Option and Result types shared by every module. */
module Wrappers {

  /** A value that may be absent: JavaScript's `null`/`undefined` or a present value. */
  datatype Option<+T> = None | Some(value: T) {
    predicate IsFailure() {
      None?
    }

    function PropagateFailure<U>(): Option<U>
      requires None?
    {
      None
    }

    function Extract(): T
      requires Some?
    {
      value
    }

    function GetOr(default: T): T {
      match this
      case Some(v) => v
      case None => default
    }
  }

  /** The outcome of an operation that may throw: a value or the error it throws. */
  datatype Result<+T, +E> = Ok(value: T) | Err(error: E) {
    predicate IsFailure() {
      Err?
    }

    function PropagateFailure<U>(): Result<U, E>
      requires Err?
    {
      Err(error)
    }

    function Extract(): T
      requires Ok?
    {
      value
    }
  }
}
